=== FILE: README.md ===
# Auction backend, modelled in Dafny

A model of the core of an auction backend. It is an Express and Mongoose
service in which users register and log in, sellers list auctions, buyers
bid on them over a socket, and any two users talk in a chat room whose
messages carry a `seen` flag.

The document store is an immutable `Store` record with one sequence per
collection: users, auctions, bids, chat rooms and messages. A clock mints
ids and creation times. Each part of the program becomes pure functions
over that record:

- **Mongoose models** (`UserModel`, `AuctionModel`, `BidModel`,
  `ChatRoomModel`, `MessageModel`). Each validator yields the list of
  violated rules. `Save` appends a document exactly when that list is empty
  and the unique indexes allow it.
- **Repositories** (`UsersRepo`, `AuctionRepo`, `BidsRepo`, `ChatRoomsRepo`,
  `MessagesRepo`). Queries are filters, newest-first or price-descending
  sorts, and the skip-then-limit page of a find cursor (`Mongo`). Updates
  and deletes are gated on the owner.
- **Controllers** (`AuctionsController`, `BidsController`,
  `ChatRoomsController`, `MessagesController`). A handler returns an
  `Http.Response`: either an error with its message and status, or a status
  and data. The 404, 403 and 400 checks come in the order the source makes
  them.
- **Socket handlers** (`ChatSocket`, `AuctionSocket`). They return the new
  store with what is broadcast. The chat handler also takes the channel's
  current socket count as an input.
- **Joi request schemas** (`AuctionSchema`, `ProductSchema`,
  `RegisterSchema`, `LoginSchema`, `UserSchema`). The library stops at the
  first error, so each schema is the list of its keys' outcomes in key
  order, and validation reports the first failure (`Joi`).
- **Middlewares and utilities.** `VerifyToken`, `VerifySocketToken`,
  `Upload` and `Paginate`, with `Http` for the status table and the error
  record.

Signature checking, the e-mail and URI grammars, and the text-search
tokenizer are parameters of the functions that use them.

## Model

| member | source | states |
|---|---|---|
| AuctionModel.StatusAt | models/auction.model.js:81-93 | the `status` virtual is pending strictly before the start, running from the start through the end inclusive, and ended after the end |
| AuctionModel.StatusMonotone | models/auction.model.js:81-93 | as time passes the status only moves forward: pending, running, ended |
| AuctionModel.InvertedWindowNeverRuns | models/auction.model.js:86-92 | an auction whose end precedes its start is never running |
| AuctionModel.Violations | models/auction.model.js:11-68 | a path is reported exactly when its validator rejects the document: required name and description, prices and quantity at least 0, a start date, an end date not before the start, an existing seller |
| AuctionModel.NoViolations | models/auction.model.js:11-68 | a document has no violation exactly when every path's validator accepts it |
| AuctionModel.PassingDraft | models/auction.model.js:13-68 | a document that passes validation has every required value, non-negative amounts, start not after end and an existing seller |
| AuctionModel.Save | models/auction.model.js:11-74 | saving fails with the violated paths exactly when there is one; otherwise the auction is appended under a fresh id and carries the document's values |
| AuctionRepo.PriceRange | repos/auction.repo.js:36-41 | the price clause exists exactly when a bound is truthy (0 and NaN are not), `$lte` holds the truthy maximum and `$gte` the truthy minimum |
| AuctionRepo.DateRange | repos/auction.repo.js:43-48 | a start-date clause exists when either bound is given; an invalid date is truthy but makes the query fail its cast |
| AuctionRepo.BuildQuery | repos/auction.repo.js:31-52 | the query carries the seller, the price and date clauses, and the tags only when the list is non-empty; it fails only for an invalid date |
| AuctionRepo.QueryMeansFilter | repos/auction.repo.js:31-52 | an auction matches the built query exactly when it meets every truthy argument: seller, price bounds, start-date bounds and a shared tag |
| AuctionRepo.ZeroPriceIsNoBound | repos/auction.repo.js:36-39 | a price bound of 0 is falsy and builds the same query as no bound |
| AuctionRepo.EmptyQueryMeansNoFilter | repos/auction.repo.js:31-54 | the query is empty exactly when no argument is truthy |
| AuctionRepo.Newest | repos/auction.repo.js:61-63 | the find returns exactly the matching auctions, newest first |
| AuctionRepo.Run | repos/auction.repo.js:61-65 | the page is exactly the run of the newest-first matching auctions that starts at `skip` and holds `limit` of them (all the rest for limit 0), so only matching auctions, newest first; a negative skip fails |
| AuctionRepo.GetAll | repos/auction.repo.js:21-76 | the listing without its cache fails exactly for an invalid date or a negative skip; otherwise its page is exactly the run of the newest-first wanted auctions from `skip`, `limit` long |
| AuctionRepo.EveryAuctionOnItsPage | repos/auction.repo.js:61-65 | paging with a positive limit meets every wanted auction: the `i`-th newest sits at place `i % limit` of the page at skip `(i / limit) * limit` |
| AuctionRepo.GetAllCachedAsWritten | repos/auction.repo.js:54-73 | as written the cache is never read, and any successful call with skip 0, filtered or not, overwrites it |
| AuctionRepo.FilteredPagePoisonsCache | repos/auction.repo.js:54-73 | after one filtered first page that leaves out an auction, the cached first page is no longer the unfiltered one |
| AuctionRepo.GetAllCached | repos/auction.repo.js:54-73 | corrected cache: only the unfiltered first page reads or writes the slot, and a slot that holds the unfiltered page keeps holding it while the answer equals the uncached listing |
| AuctionRepo.GetById | repos/auction.repo.js:83-89 | the auction with that id, or none exactly when no auction has it |
| AuctionRepo.Create | repos/auction.repo.js:96-100 | a validated body within the model's bounds is saved exactly when its seller exists, and the stored auction carries the body's values under a fresh id |
| AuctionRepo.Apply | repos/auction.repo.js:109-112 | the update sets every key of the body, keeps id and creation time, and keeps the stored tags and images when the body has none |
| AuctionRepo.Update | repos/auction.repo.js:109-112 | an auction is updated exactly when one has that id and that seller; only that auction changes, and nothing changes otherwise |
| AuctionRepo.UpdateKeepsOthersAuctions | repos/auction.repo.js:109-112 | an update never touches an auction of another seller or any other collection |
| AuctionRepo.Delete | repos/auction.repo.js:120-126 | an auction is deleted exactly when one has that id and that seller; exactly that one leaves the store |
| AuctionRepo.DeleteKeepsOthersAuctions | repos/auction.repo.js:120-126 | an auction of another seller is never deleted |
| AuctionRepo.Ranked | repos/auction.repo.js:137-144 | the text search returns exactly the matching auctions, best score first |
| AuctionRepo.SearchByNameAsWritten | repos/auction.repo.js:135-154 | as written `$limit` runs before `$skip`: the page has min(limit, matches) minus skip results; a missing term or a bad stage gives the search error |
| AuctionRepo.SearchByName | repos/auction.repo.js:135-154 | corrected order: the page is the `limit` ranked results starting at `skip` |
| AuctionRepo.SearchAgreesWithoutSkip | repos/auction.repo.js:145-146 | with skip 0 the written and the corrected search agree |
| AuctionRepo.SearchLosesResults | repos/auction.repo.js:145-146 | with a positive skip and enough matches, the written order returns fewer than `limit` results where the corrected one returns `limit` |
| AuctionSchema.Validate | utils/validation/auctionSchema.js:5-49 | the first failing key's failure is reported in key order; an accepted body is converted with trimmed name, description and images, keeps the given seller and tags, and meets every bound of the schema |
| AuctionSchema.PassingScalars | utils/validation/auctionSchema.js:6-37 | a passing body has both dates with the end not before the start, a non-blank name and description, prices and quantity of at least 1, and a seller |
| AuctionSchema.ImagesAccepted | utils/validation/auctionSchema.js:38-41 | when every image item passes, every trimmed image is non-empty and a URI |
| AuctionSchema.PassingImages | utils/validation/auctionSchema.js:38-41 | the images of a passing body, trimmed, are non-empty URIs |
| AuctionSchema.PassingTags | utils/validation/auctionSchema.js:42-44 | the tags of a passing body are non-empty strings |
| AuctionSchema.MissingSellerRejected | utils/validation/auctionSchema.js:45-48 | a body without a seller is always refused, and with every other key valid the failure is 'Seller ID is required' |
| AuctionSchema.StartDateReportedFirst | utils/validation/auctionSchema.js:6-9 | a missing start date is reported before any other key |
| AuctionSchema.MalformedStartDateReportedFirst | utils/validation/auctionSchema.js:6-9 | an invalid start date is reported before any other key |
| AuctionSchema.KnownMessages | utils/validation/auctionSchema.js:7-47 | the invalid-start-date and missing-seller failures carry the schema's custom messages |
| AuctionSchema.ValidBodyPassesModel | utils/validation/auctionSchema.js:5-49 | every path of the document model accepts a body the request schema accepted, save the seller, so saving it succeeds exactly when the seller exists |
| AuctionSchema.OnlySellerDecides | models/auction.model.js:57-68 | a document every other path accepts is saved exactly when its seller exists |
| AuctionsController.ParseTags | controllers/auctions.controller.js:137-141 | an absent or empty tags string gives no tags; otherwise the comma-free pieces that join back to the string |
| AuctionsController.ToFilter | controllers/auctions.controller.js:33-37 | the listing arguments carry the parsed prices and dates unchanged, and tags only when the parameter is non-empty, split on commas |
| AuctionsController.List | controllers/auctions.controller.js:30-53 | a listing never reads the first-page slot: it answers 500 exactly for an invalid date or a negative skip, else 200 with the fresh page, which is exactly the run of the newest-first wanted auctions from the skip, limit long; every successful call with skip 0 leaves its own page in the slot, filtered or not |
| AuctionsController.GetAll | controllers/auctions.controller.js:30-54 | the public listing answers exactly the run, from the skip and limit long, of the newest-first auctions that meet the query's filters; a first page it serves is what the slot then holds, and any other outcome leaves the slot as it was |
| AuctionsController.GetAllByUserId | controllers/auctions.controller.js:64-90 | the seller's listing fails exactly for an invalid date or a negative skip, else answers exactly the run, from the skip and limit long, of the caller's newest-first auctions that meet the filters; its first page overwrites the slot meant for everyone's first page |
| AuctionsController.GetById | controllers/auctions.controller.js:100-112 | 200 with the auction exactly when one has that id, else 404 'Auction not found' |
| AuctionsController.NewDate | controllers/auctions.controller.js:132-133 | `new Date` of a missing value is an invalid date, never a missing one; a given date is kept |
| AuctionsController.CreateBody | controllers/auctions.controller.js:123-147 | the create body takes its seller from the token, its tags from the parsed string and its images from the uploads, and always has both dates |
| AuctionsController.Create | controllers/auctions.controller.js:122-165 | a request without a files array answers 500 from the TypeError of `req.files.map`; otherwise 400 with the first failure's message when the body is invalid; 201 exactly when it is valid and the seller exists, with the auction appended under the caller, the parsed tags and the trimmed uploads; errors leave the store unchanged |
| AuctionsController.Persist | controllers/auctions.controller.js:149-163 | after validation: 400 for a failure, 201 with the appended auction when the seller exists, 500 otherwise, with the store unchanged on every error |
| AuctionsController.MissingStartDateIsInvalid | controllers/auctions.controller.js:132 | a create request without a start date is refused with 'Start date must be a valid date' |
| AuctionsController.UpdateBodyAsWritten | controllers/auctions.controller.js:180-202 | the update body as written never has a seller |
| AuctionsController.UpdateAsWritten | controllers/auctions.controller.js:175-230 | as written every update request ends in 400 and changes nothing |
| AuctionsController.UpdateAlwaysRefused | controllers/auctions.controller.js:206-211 | even a body whose every other key is valid is refused with 'Seller ID is required' |
| AuctionsController.UpdateBody | controllers/auctions.controller.js:180-202 | the corrected update body names the caller as seller, like the create body; with both dates given and files uploaded it is exactly the body `create` would validate, and without uploads it leaves the images out |
| AuctionsController.Update | controllers/auctions.controller.js:175-230 | corrected update: 400 for an invalid body; for a valid one, 200 exactly when the caller owns an auction with that id, which keeps its id, seller and, without uploads, its images; 403 otherwise; errors change nothing |
| AuctionsController.Delete | controllers/auctions.controller.js:240-263 | 200 exactly when the caller owns an auction with that id, which alone leaves the store; 403 with the permission message otherwise |
| BidModel.Violations | models/bid.model.js:11-66 | the buyer, the auction and the price are reported exactly when missing, not in the store, or (for the price) not greater than 1; none is reported exactly when all three hold |
| BidModel.PriceBoundIsStrict | models/bid.model.js:56-58 | a price of exactly 1 is refused and one just above it is accepted |
| BidModel.Save | models/bid.model.js:11-68 | saving fails with the violated paths exactly when there is one; otherwise the bid is appended under a fresh id with the draft's values, an existing buyer and auction and a price above 1 |
| BidsRepo.Ranked | repos/bids.repo.js:15-17 | the auction's bids and only those, highest price first |
| BidsRepo.GetAll | repos/bids.repo.js:14-26 | a negative skip fails; otherwise the page is exactly the run of the auction's bids, highest price first, that starts at `skip` and holds `limit` of them (all the rest for limit 0) |
| BidsRepo.EveryBidOnItsPage | repos/bids.repo.js:14-26 | paging with a positive limit meets every bid of the auction: the `i`-th highest sits at place `i % limit` of the page at skip `(i / limit) * limit` |
| BidsRepo.GetById | repos/bids.repo.js:33-40 | the bid with that id, or none exactly when no bid has it |
| BidsRepo.GetTop | repos/bids.repo.js:47-57 | none exactly when the auction has no bid; otherwise one of its bids priced at least as high as every other |
| BidsRepo.TopHeadsFirstPage | repos/bids.repo.js:14-57 | the top bid heads the first page of the listing for any positive limit |
| BidsRepo.Delete | repos/bids.repo.js:65-68 | a bid is deleted exactly when one has that id and that buyer; exactly that one leaves the store |
| BidsRepo.DeleteKeepsOthersBids | repos/bids.repo.js:65-68 | a bid placed by someone else is never deleted |
| BidsRepo.CreateAndRetrieve | repos/bids.repo.js:77-91 | the bid is stored exactly when the auction and buyer exist and the price is above 1, and the one read back is the appended bid |
| BidsRepo.LowerBidAccepted | repos/bids.repo.js:77-91 | nothing compares a new bid with the top one: a lower valid bid is stored and the top price stays |
| BidsController.GetAll | controllers/bids.controller.js:27-39 | 500 exactly when the page's skip is negative, else 200 with exactly the requested run of that auction's bids, highest price first |
| BidsController.GetById | controllers/bids.controller.js:49-63 | 200 with the bid exactly when one has that id, else 404 'Bid not found' |
| BidsController.GetTop | controllers/bids.controller.js:73-82 | always 200; the payload is empty exactly when the auction has no bid, else a bid priced at least as high as every other of the auction |
| BidsController.Delete | controllers/bids.controller.js:92-110 | 200 exactly when the caller placed a bid with that id, which alone leaves the store; 403 with the permission message otherwise |
| ChatRoomModel.Violations | models/chatRoom.model.js:11-51 | corrected validators: user1 is reported exactly when missing or unknown, user2 exactly when missing, unknown or equal to user1; a passing room has two distinct users |
| ChatRoomModel.ViolationsAsWritten | models/chatRoom.model.js:11-51 | as written the distinctness test compares object references and never fails: user1 is reported when missing or unknown, and user2 when missing or unknown, or when user1 is missing, because reading its id then throws inside the user2 validator |
| ChatRoomModel.SelfPairPassesAsWritten | models/chatRoom.model.js:40-43 | a room pairing an existing user with themself passes the written validators and fails the corrected ones |
| ChatRoomModel.IndexesAgree | models/chatRoom.model.js:54-55 | the two compound unique indexes admit the same rooms: those whose ordered pair is new |
| ChatRoomModel.ReversedPairAdmitted | models/chatRoom.model.js:54-55 | the indexes let the reversed pair in beside an existing room |
| ChatRoomModel.Save | models/chatRoom.model.js:11-57 | saving as written fails validation with the violated paths when there is one, fails otherwise only on a duplicate ordered pair, and else appends the room with two existing users under a fresh id, possibly the same user twice |
| ChatRoomModel.SaveIntended | models/chatRoom.model.js:11-57 | the save as evidently intended: as above, but a passing room has two distinct users |
| ChatRoomModel.SavesDifferOnSelfPair | models/chatRoom.model.js:40-43 | an existing user paired with themself is stored as written and refused on user2 by the intended rule |
| ChatRoomsRepo.GetAll | repos/chatRooms.repo.js:14-33 | a negative skip fails; otherwise the page is exactly the run of the user's rooms, newest first, that starts at `skip` and holds `limit` of them (all the rest for limit 0) |
| ChatRoomsRepo.Newest | repos/chatRooms.repo.js:15-19 | the find returns exactly the rooms the user is one of the two members of, newest first |
| ChatRoomsRepo.EveryRoomOnItsPage | repos/chatRooms.repo.js:14-33 | paging with a positive limit meets every room of the user: the `i`-th newest sits at place `i % limit` of the page at skip `(i / limit) * limit` |
| ChatRoomsRepo.GetById | repos/chatRooms.repo.js:40-53 | the room with that id, or none exactly when no room has it |
| ChatRoomsRepo.IsExistsByUserRefs | repos/chatRooms.repo.js:61-69 | true exactly when a stored room joins the two users in either order |
| ChatRoomsRepo.IsExistsSymmetric | repos/chatRooms.repo.js:61-69 | the existence test does not depend on the order of the two users |
| ChatRoomsRepo.Create | repos/chatRooms.repo.js:77-85 | a room is created exactly when both users exist and the ordered pair is new, a self-pair included; it is appended with user1 and user2 in the order given, under a fresh id |
| ChatRoomsRepo.CreateIntended | repos/chatRooms.repo.js:77-85 | over the intended validators a room is created exactly when both users exist, differ and the ordered pair is new |
| ChatRoomsRepo.CreatesAgreeOnDistinctUsers | repos/chatRooms.repo.js:77-85 | the written and the intended create agree on every pair of distinct users |
| ChatRoomsRepo.DeleteTransaction | repos/chatRooms.repo.js:105-108 | a room is deleted exactly when one has that id; exactly that one leaves the store and nothing else changes |
| ChatRoomsRepo.DeleteRemovesRoom | repos/chatRooms.repo.js:105-108 | with unique room ids the deleted room can no longer be found and every other room stays |
| ChatRoomsController.WithUnseen | controllers/chatRooms.controller.js:37-41 | each room keeps its place, and its attached count is 0 exactly when every message addressed to the caller in it has been seen |
| ChatRoomsController.GetAll | controllers/chatRooms.controller.js:32-47 | 500 exactly for a negative skip, else 200 whose rooms are exactly the requested run of the caller's rooms, newest first, each with the caller's unseen count |
| ChatRoomsController.GetById | controllers/chatRooms.controller.js:57-78 | 404 for a missing room, 403 for a caller outside it, else 200 with the room and the caller's unseen count |
| ChatRoomsController.GetByIdOnlyForMembers | controllers/chatRooms.controller.js:57-78 | with unique room ids, a caller gets the room exactly when it exists and they belong to it |
| ChatRoomsController.CreateWith | controllers/chatRooms.controller.js:89-111 | 404 for an unknown or identical second user, the duplicate refusal when a room already joins the two, else 201 with a room appended for the two users; errors change nothing |
| ChatRoomsController.CreateAsWritten | controllers/chatRooms.controller.js:100-102 | as written the duplicate refusal carries 500, since the CONFLICT code is not defined |
| ChatRoomsController.Create | controllers/chatRooms.controller.js:100-102 | corrected: the duplicate refusal carries 409 |
| ChatRoomsController.ConflictStatusDiffers | controllers/chatRooms.controller.js:100-102 | the written and the corrected refusal differ only in status, 500 against 409 |
| ChatRoomsController.CreateKeepsRoomsDistinct | controllers/chatRooms.controller.js:89-111 | creating rooms through the endpoint never stores two rooms joining the same users, nor a room joining a user with themself |
| ChatRoomsController.ReversedCreateRefused | controllers/chatRooms.controller.js:100-102 | after a room for (a, b) is created, asking for (b, a) is refused as a duplicate |
| ChatRoomsController.Delete | controllers/chatRooms.controller.js:121-149 | 404 for a missing room, 403 for a caller outside it, else 200 with the room removed together with exactly its messages and nothing else changed |
| MessageModel.Violations | models/message.model.js:11-60 | the room, the content and the sender are reported exactly when missing, empty (content) or not in the store; none is reported exactly when all three hold |
| MessageModel.Save | models/message.model.js:11-62 | saving fails with the violated paths exactly when there is one; otherwise the message is appended under a fresh id with the draft's values and `seen` false unless given |
| MessagesRepo.GetAll | repos/messages.repo.js:14-26 | a negative skip fails; otherwise the page is exactly the run of the room's messages, newest first, that starts at `skip` and holds `limit` of them (all the rest for limit 0) |
| MessagesRepo.Newest | repos/messages.repo.js:15-17 | the find returns exactly the room's messages, newest first |
| MessagesRepo.CeilDiv | repos/messages.repo.js:105 | the rounded-up quotient brackets the total for either sign of the limit, and there is none for a limit of 0 |
| MessagesRepo.CeilDivBounds | repos/messages.repo.js:105 | the Euclidean quotient rounded up brackets the total |
| MessagesRepo.GetPagesCount | repos/messages.repo.js:102-111 | the total is the number of the room's messages; with a positive limit the page count is the least number of pages of that size holding them all, and there is none for limit 0; skip plays no part |
| MessagesRepo.PagesCoverRoom | repos/messages.repo.js:14-26 | with a positive limit, the `i`-th newest message of the room is on page `i / limit + 1`, which the count announces, at place `i % limit` of that page |
| MessagesRepo.PageWithinCount | repos/messages.repo.js:102-111 | an index below the total falls on a page no later than the announced count |
| MessagesRepo.GetUnseenCount | repos/messages.repo.js:45-52 | the count is 0 exactly when every message of the room sent by someone else is seen |
| MessagesRepo.MarkSeen | repos/messages.repo.js:68-70 | each message keeps its place and its fields, and is flagged seen when it is in the room and sent by someone else |
| MessagesRepo.MarkAsSeen | repos/messages.repo.js:68-70 | marking changes only the `seen` flags, sets exactly those of messages addressed to the reader in the room and keeps every other flag, so nothing in the room stays unseen by the reader |
| MessagesRepo.MarkSeenIdempotent | repos/messages.repo.js:68-70 | marking twice is marking once |
| MessagesRepo.MarkAsSeenIdempotent | repos/messages.repo.js:68-70 | `markAsSeen` is idempotent |
| MessagesRepo.MarkSeenKeepsRoomSize | repos/messages.repo.js:68-70 | marking changes no message's room, so every room keeps its number of messages |
| MessagesRepo.MarkAsSeenKeepsRoomSize | repos/messages.repo.js:68-70 | reading a room's history leaves every room's message count as it was |
| MessagesRepo.MarkSeenKeepsOtherCount | repos/messages.repo.js:68-70 | in a two-person room, marking for one reader leaves the other's unseen count unchanged |
| MessagesRepo.MarkAsSeenKeepsOtherCount | repos/messages.repo.js:68-70 | in a two-person room, reading the history does not mark the other participant's incoming messages |
| MessagesRepo.DeleteAllByRoomId | repos/messages.repo.js:59-61 | exactly the room's messages are removed and nothing else changes |
| MessagesRepo.DeletedRoomIsEmpty | repos/messages.repo.js:59-61 | after the room's messages are deleted the room has no messages, none unseen, and an empty listing |
| MessagesRepo.Delete | repos/messages.repo.js:34-37 | a message is deleted exactly when one has that id and that sender; exactly that one leaves the store |
| MessagesRepo.DeleteKeepsOthersMessages | repos/messages.repo.js:34-37 | a message someone else sent is never deleted |
| MessagesRepo.CreateAndRetrieve | repos/messages.repo.js:80-93 | the message is stored exactly when the room and sender exist and the content is not empty, and the one read back is the appended message |
| MessagesRepo.CreateRaisesUnseenCount | repos/messages.repo.js:45-93 | a new unseen message raises the recipient's unseen count by one and the sender's not at all |
| MessagesController.GetAll | controllers/messages.controller.js:29-51 | 404 for a missing room, 403 for a caller outside it; for a member the incoming messages are marked seen first, and the answer is 200 exactly when the skip is not negative, with exactly the requested run of the room's messages newest first, read after the marking, the room's message count and its page count |
| MessagesController.Delete | controllers/messages.controller.js:61-81 | 200 exactly when the caller sent a message with that id, and then one such message of the caller's, and nothing else, leaves the store; 404 with the permission message and no change otherwise |
| ChatSocket.HandleConnection | socket-handlers/chat.js:12-32 | the caller joins the room's channel exactly when the room exists and they belong to it; otherwise the socket is dropped, with 'Chat room not found' or 'User not authorized' as the reason |
| ChatSocket.HandleMessage | socket-handlers/chat.js:34-50 | a message is saved and broadcast on its room's channel exactly when some socket is currently joined to the channel, the room and sender exist and the content is not empty; it is seen exactly when two sockets are joined; otherwise nothing changes |
| ChatSocket.WatchedMessageArrivesSeen | socket-handlers/chat.js:36-41 | with both sockets in the channel, a new message raises no one's unseen count |
| ChatSocket.NonMemberCanPost | socket-handlers/chat.js:42-48 | any existing user can post to any existing room, member or not |
| AuctionSocket.HandleConnection | socket-handlers/auction.js:11-27 | any authenticated caller joins the channel exactly when the auction exists, else is dropped with 'Auction not found' |
| AuctionSocket.HandleBid | socket-handlers/auction.js:29-38 | a bid is saved and broadcast on the auction's channel exactly when the buyer and auction exist and the price is above 1; no bound or top bid is consulted; otherwise nothing changes |
| AuctionSocket.LowerBidBroadcast | socket-handlers/auction.js:29-38 | a valid bid below the current top is still saved and broadcast, and the top price stays |
| VerifySocketToken.Verify | socket-handlers/middlewares/verifySocketToken.js:4-18 | without a token the socket gets 'Token is required'; with one it proceeds exactly when the verifier accepts it, with that payload, and gets 'Token is corrupted' otherwise |
| VerifySocketToken.SameVerdictAsHttp | socket-handlers/middlewares/verifySocketToken.js:4-18 | a space-free token that opens the HTTP endpoints as a bearer header opens a socket too, with the same payload |
| VerifyToken.AuthHeader | middlewares/verifyToken.js:19 | a header is found exactly when one of the two names holds a non-empty value; the found value is the value under one of those two names, and the capitalised name wins when both are set |
| VerifyToken.SplitTokenIsAfterFirstSpace | middlewares/verifyToken.js:24 | the second space-separated field is exactly the text after the first space up to the next one, and there is none without a space |
| VerifyToken.SchemeThenToken | middlewares/verifyToken.js:24 | a scheme word, a space and a space-free token yield that token |
| VerifyToken.Verify | middlewares/verifyToken.js:19-33 | 401 'Token is required' without a header; otherwise the payload goes on exactly when the header has a second field the verifier accepts, else 401 'Invalid token' |
| VerifyToken.NoSpaceIsInvalid | middlewares/verifyToken.js:24-33 | a header without a space is refused as an invalid token whatever the verifier does |
| VerifyToken.BearerHeaderVerified | middlewares/verifyToken.js:19-33 | a lower-case 'Bearer <token>' header passes exactly when the verifier accepts the token, with its payload |
| Upload.TypeFieldIsImage | middlewares/uplaod.js:12-19 | the first '/'-separated field of a mimetype is "image" exactly when the type is "image" or starts with "image/" |
| Upload.FileFilter | middlewares/uplaod.js:12-19 | a file is kept exactly when its mimetype names an image, else refused with 400 'Only images are allowed' |
| Upload.AnyImageSubtypeKept | middlewares/uplaod.js:12-19 | every "image/…" subtype and the bare "image" are kept, while a type that only starts with "image" is refused |
| Upload.FilterAll | middlewares/uplaod.js:12-19 | the files pass unchanged exactly when every one is an image, else the upload fails with the filter's error |
| UserModel.PhoneIsElevenDigits | models/user.model.js:74-78 | a phone the pattern accepts is eleven digits starting with 010, 011, 012 or 015 |
| UserModel.PhoneFromParts | models/user.model.js:74-78 | every known prefix followed by eight digits is accepted, so the pattern is exactly prefix plus digits |
| UserModel.EmailDomainHasDot | models/user.model.js:94-98 | after the '@' of an accepted e-mail there is at least one '.' |
| UserModel.LabelsCoverDomain | models/user.model.js:96 | a domain made of labels holds only dots and label characters |
| UserModel.EmailDomainChars | models/user.model.js:94-98 | after the '@' of an accepted e-mail there are only dots and word characters or '-' |
| UserModel.EmailHasAt | models/user.model.js:94-98 | an accepted e-mail has an '@' |
| UserModel.EmailShape | models/user.model.js:94-98 | an accepted e-mail has exactly one '@', with something before it and a '.' after it |
| UserModel.NoAtAfter | models/user.model.js:96 | a tail of dots and label characters holds no second '@' |
| UserModel.EmailFromParts | models/user.model.js:94-98 | any non-empty local part, '@' and two or more labels joined by '.', the last of two to four characters, is accepted |
| UserModel.EmailFromFacts | models/user.model.js:96 | the pattern's facts about the '@' and the labels together make an accepted e-mail |
| UserModel.Violations | models/user.model.js:45-129 | first and last name and password are reported exactly when missing or empty, the phone and the e-mail exactly when missing, empty or not matching their patterns; none is reported exactly when all hold |
| UserModel.NoPasswordLengthRule | models/user.model.js:109-112 | the schema puts no bound on the password's length: any non-empty password keeps a valid document valid |
| UserModel.DuplicateIndex | models/user.model.js:132-133 | the e-mail index is reported when a stored user has the e-mail, otherwise the phone index when one has the phone, and none exactly when neither is taken |
| UserModel.Save | models/user.model.js:45-135 | saving fails with the violated paths when there is one and otherwise only on a taken e-mail or phone; a saved user is appended under a fresh id with the document's values and contacts no other user has |
| UsersRepo.BuildContactsQuery | repos/users.repo.js:90-98 | no query exactly when neither contact is truthy; otherwise one or two distinct clauses, the e-mail clause first when the e-mail is given and the phone clause last when the phone is given |
| UsersRepo.QueryMatchesContacts | repos/users.repo.js:90-98 | the built `$or` query matches exactly the users holding one of the given contacts |
| UsersRepo.FindOne | repos/users.repo.js:28 | the first matching user, or none exactly when no stored user matches |
| UsersRepo.IsExistsByContacts | repos/users.repo.js:38-45 | false without contacts; otherwise true exactly when some stored user holds the given e-mail or phone |
| UsersRepo.GetExistsByContacts | repos/users.repo.js:23-30 | the no-contacts answer exactly when neither contact is truthy; otherwise a user holding one of them, or none exactly when no user does |
| UsersRepo.LookupsAgree | repos/users.repo.js:23-45 | the boolean lookup is true exactly when the user lookup finds someone |
| UsersRepo.GetById | repos/users.repo.js:12-15 | the user with that id, or none exactly when no user has it |
| UsersRepo.ViolationsIgnoreAddress | repos/users.repo.js:53-61 | replacing the address changes no validation outcome |
| UsersRepo.Create | repos/users.repo.js:52-67 | the user is created exactly when the body passes the model and neither contact is taken; it is appended with the body's values and an address of four empty strings, and returned without the password; failures are validation or duplicate-key errors |
| UsersRepo.AppendedFound | repos/users.repo.js:12-15 | a user appended with an id above every stored one is what the id lookup finds |
| UsersRepo.CreatedUserFound | repos/users.repo.js:52-67 | the created user is found by its returned id, with the body's password and the empty address, and matches the returned view |
| UsersRepo.Apply | repos/users.repo.js:79 | the update sets each key the body carries (names, phone, e-mail, image, address) and keeps every key it does not, id and password included |
| UsersRepo.UpdateById | repos/users.repo.js:79 | with no user of that id nothing changes and null comes back; otherwise the patched user replaces that user, unless the patch gives it another user's e-mail or phone, which the unique indexes refuse with a duplicate-key error and no change |
| UsersRepo.UpdateAsWritten | repos/users.repo.js:75-81 | as written the update answers null and changes nothing whenever any user, the one being updated included, holds the body's e-mail or phone; otherwise it is the update by id |
| UsersRepo.Update | repos/users.repo.js:75-81 | corrected: null and no change exactly when another user holds one of the body's contacts, else the update by id; either way nothing but the users changes, and unique e-mails and phones stay unique |
| UsersRepo.ResentEmailRefusedAsWritten | repos/users.repo.js:76-78 | re-sending one's own unique e-mail is refused as written, while the corrected update stores the patched user |
| UsersRepo.UniqueAfterReplace | models/user.model.js:132-133 | replacing one user by one that clashes with no other user keeps e-mails and phones unique |
| UsersRepo.OthersClear | repos/users.repo.js:76-78 | with unique ids, the users other than the updated one hold none of the body's contacts |
| UsersRepo.DuplicateIndexOfOthers | models/user.model.js:132-133 | the unique indexes, consulted over every other user, fire exactly when the patched user shares an e-mail or phone with another user |
| UsersRepo.FreeContactsNeverClash | repos/users.repo.js:76-79 | when no other user holds the body's non-empty contacts, the patched user clashes with no one |
| UsersRepo.UpdateByIdKeepsContactsUnique | repos/users.repo.js:79 | whatever the patch, updating by id keeps e-mails and phones unique, every other user and every other collection |
| UsersRepo.UpdateKeepsContactsUnique | repos/users.repo.js:75-81 | the corrected update keeps e-mails and phones unique and keeps every user but the one with the id |
| UsersRepo.UpdateNeverTripsIndexes | repos/users.repo.js:75-81 | with unique contacts and a body whose contacts are non-empty, the corrected update never fails on a unique index: its own lookup already rules every clash out |
| Joi.FirstError | controllers/auctions.controller.js:149-154 | validation reports the first failing key in key order, and nothing exactly when every key passes |
| Joi.FirstErrorIs | controllers/auctions.controller.js:149-154 | a failing key decides the reported failure when every earlier key passes |
| Joi.ItemsError | utils/validation/auctionSchema.js:38-44 | an array passes exactly when every item passes its rule |
| RegisterSchema.FieldError | utils/validation/registerSchema.js:3-50 | a missing field fails exactly when it is required |
| Strings.Utf16Length | utils/validation/registerSchema.js:43 | the length Joi measures lies between the number of characters and twice that, and equals it when every character is in the Basic Multilingual Plane |
| RegisterSchema.ValueAccepted | utils/validation/registerSchema.js:4-49 | a present value passes exactly when, with Unicode white space trimmed, it is non-empty and meets its field's rule: ASCII letters only for names, the phone pattern, the e-mail check, 8 to 32 UTF-16 code units for the password |
| RegisterSchema.FieldAccepted | utils/validation/registerSchema.js:4-49 | a present field passes exactly when its trimmed value is acceptable, and a value of another type fails with the field's type message |
| RegisterSchema.PassingFields | utils/validation/registerSchema.js:3-50 | every field of a passing body is present and acceptable once trimmed |
| RegisterSchema.Validate | utils/validation/registerSchema.js:3-50 | the first failing key's failure is reported in key order; an accepted body becomes the registration of its trimmed first name, last name, phone, e-mail and password, each field acceptable |
| RegisterSchema.FirstNameReportedFirst | utils/validation/registerSchema.js:4-14 | a missing first name is reported before any other key |
| RegisterSchema.RegistrationPassesModel | utils/validation/registerSchema.js:3-50 | what the registration schema accepts, the user model accepts too, save possibly the e-mail, whose pattern differs from the library's check |
| LoginSchema.Validate | utils/validation/loginSchema.js:3-17 | the trimmed credentials exactly when a present e-mail passes the check and a present password is 8 to 32 UTF-16 code units once trimmed; else the first failure, e-mail first |
| LoginSchema.PasswordLengthAfterTrim | utils/validation/loginSchema.js:10-16 | an accepted password is 8 to 32 UTF-16 code units, so at least 4 characters, after trimming, so padding never lets a short one through |
| LoginSchema.EmailReportedFirst | utils/validation/loginSchema.js:4-9 | a missing e-mail is reported before the password |
| LoginSchema.NoBreakSpacesRefused | utils/validation/loginSchema.js:10-16 | a password of eight no-break spaces trims to nothing and is refused |
| UserSchema.OptionalError | utils/validation/userSchema.js:22-55 | an absent name, phone or e-mail passes; a present one passes exactly when it meets the registration rule once trimmed |
| UserSchema.ImageError | utils/validation/userSchema.js:56-60 | an absent image passes; a present one passes exactly when, with Unicode white space trimmed, it is non-empty and a URI |
| UserSchema.SubfieldError | utils/validation/userSchema.js:2-19 | an address subfield fails only when it is not a string; the empty string is allowed |
| UserSchema.AddressError | utils/validation/userSchema.js:2-19 | the address passes exactly when absent, or an object whose four subfields are strings or absent |
| UserSchema.Validate | utils/validation/userSchema.js:21-62 | the first failing key in key order; the body passes exactly when every present key meets its rule |
| UserSchema.EmptyBodyAccepted | utils/validation/userSchema.js:21-62 | an empty body is accepted |
| UserSchema.EmptyAddressAccepted | utils/validation/userSchema.js:2-19 | an address of four empty strings is accepted, while an empty first name is not |
| ProductSchema.ItemError | utils/validation/productSchema.js:27-30 | an image item passes exactly when it is a non-empty string |
| ProductSchema.ImagesError | utils/validation/productSchema.js:27-30 | the images pass exactly when absent or at most three non-empty strings |
| ProductSchema.Lift | utils/validation/productSchema.js:3-31 | a rule shared with the auction schema fails exactly when it fails there |
| ProductSchema.TrimmedRule | utils/validation/productSchema.js:4-7 | a shared string rule passes exactly when the value is present and not blank, blank meaning only ECMAScript white space and line terminators |
| ProductSchema.AtLeastOneRule | utils/validation/productSchema.js:8-22 | a shared number rule passes exactly when the value is present and at least 1 |
| ProductSchema.Validate | utils/validation/productSchema.js:3-31 | the first failing key in key order; the body passes exactly when name and description are not blank, both prices and the quantity are at least 1, and the images are acceptable |
| ProductSchema.FourImagesRefused | utils/validation/productSchema.js:27-30 | four valid images are refused with the maximum message |
| ProductSchema.ItemsCheckedBeforeCount | utils/validation/productSchema.js:27-30 | a bad item is reported before the count: too many images with an empty first one fail on that item |
| Paginate.Paginate | utils/paginate.js:8-14 | an absent or empty limit is 50 and an absent or empty page is 1; the skip leaves exactly `page - 1` pages of `limit` before the requested one |
| Paginate.SkipIsMultipleOfLimit | utils/paginate.js:11 | from page 1 on, with a non-negative limit, the skip is a non-negative multiple of the limit |
| Paginate.ConsecutivePages | utils/paginate.js:11 | page 1 starts at 0 and consecutive pages start exactly one limit apart |
| Paginate.OnlyLimitAndPageMatter | utils/paginate.js:8-14 | other query parameters do not affect the page |
| Http.NewAppError | utils/appError.js:10-34 | the error keeps its message, and a status that is undefined becomes 500 |
| Http.ConflictFallsBackTo500 | utils/constants.js:40-49 | the status table defines the codes the controllers read but not CONFLICT, so an error built with it carries 500 |
| Mongo.CursorPage | repos/bids.repo.js:17-19 | a find cursor skips before it limits whatever the call order: the page is the documents from `skip` on, at most `limit` of them, none for a negative skip |
| Mongo.SortedPage | repos/bids.repo.js:17-19 | a page of a descending sequence holds only its documents, stays descending, and is all of it with no skip and no limit |
| Mongo.EveryDocumentOnItsPage | repos/messages.repo.js:17-19 | with a positive limit, the document at position `i` is found on page `i / limit` at offset `i % limit` |
| Mongo.PlaceOnPage | repos/messages.repo.js:17-19 | any page read at skip `(i / limit) * limit` with a positive limit holds the `i`-th document at place `i % limit` |
| Mongo.AdjacentPages | repos/messages.repo.js:17-19 | two adjacent pages together are the page of twice the size at the first one's skip |
| Mongo.LimitThenSkip | repos/auction.repo.js:145-146 | a `$limit` stage before `$skip` passes on only the first `limit` documents, so at most `limit - skip` survive |
| Mongo.SkipThenLimit | repos/auction.repo.js:145-146 | `$skip` then `$limit` returns the `limit` documents after the first `skip` |
| Mongo.SkipThenLimitIsCursorPage | repos/auction.repo.js:145-146 | with a positive limit, skipping then limiting in a pipeline is the same page a find cursor returns |
| Mongo.LimitThenSkipLosesResults | repos/auction.repo.js:145-146 | with enough matches and a positive skip, limiting first returns fewer than a full page while skipping first returns one |

## Left out

- The Redis cache client is a single optional slot holding the first page; expiry, serialisation and connection failures are not modelled.
- S3 upload and delete, the local image files, and the logger are left out because they are I/O. An uploaded image is its URL string.
- Mongo sessions and transactions are left out. The chat-room delete with its messages is one atomic step, and the session-handling paths on early returns are not modelled.
- `populate` and `select` are left out because they change which fields come back, not which documents.
- The text-search tokenizer and its score ranking are parameters of `AuctionRepo.SearchByName`, because their semantics belong to the database.
- Socket.io room bookkeeping, broadcast delivery and concurrency are left out. The number of sockets in a channel is an input, and simultaneous events are applied one at a time.
- Signing and verifying tokens, and password hashing, are left out. Token verification is a function parameter.
- The grammars of Joi's `email()` and `uri()` are left out; they are predicate parameters. Joi's rejection of unknown keys and its default messages for rules without a custom one are given only as far as the model's failure labels go.
- Mongoose's exact error text, and the cast of malformed ids and numbers, are left out. A validation failure is the list of violated rule messages.
- `parseFloat` and `new Date` parsing are left out because they involve floating point and calendars. Dates are integer timestamps; prices and quantities are reals compared only.
- The routes, `app.js`, the async wrapper and the success envelope of `utils/appResponse.js` are wiring. So are the address, order, product, image and user-profile controllers, which the core does not call.
- AuctionRepo.SearchByNameAsWritten: lowers the search term only in A to Z, where `toLowerCase` maps every Unicode letter, because Unicode case tables are not modelled; a term that differs only in the case of a non-ASCII letter reaches the text-index parameter unlowered.
- AuctionRepo.SearchByName: lowers the search term the same ASCII-only way, for the same reason.
- JavaScript strings may hold unpaired surrogate halves, which a Dafny `string` cannot; every string in the model is a sequence of whole Unicode characters.
- VerifyToken.Verify: the verifier is any function, so the model does not assume that the empty token, which a header "Bearer " yields, is always rejected.
- UsersRepo.Apply: replaces the whole address object when one is given, as `{ ...body }` does; partial address patches are not modelled.

## Findings

| source | as written | input that shows it | evidently intended | confidence | as-written member | corrected member |
|---|---|---|---|---|---|---|
| repos/auction.repo.js:145-146 | the search pipeline has `$limit` before `$skip` | limit 2, skip 1, three matching auctions: one result comes back instead of two | `$skip` then `$limit`, a full page after the skipped results | not executed | AuctionRepo.SearchByNameAsWritten | AuctionRepo.SearchByName |
| controllers/chatRooms.controller.js:101 | the duplicate-room refusal uses `HTTP_STATUS_CODES.CONFLICT`, which the table lacks, so the error takes the default 500 | two users who already share a room ask for one again: the response status is 500 | a 409 Conflict | not executed | ChatRoomsController.CreateAsWritten | ChatRoomsController.Create |
| controllers/auctions.controller.js:180-211 | the update body is built without `seller`, which the auction schema requires | the owner sends a complete, valid update: 400 'Seller ID is required' | the seller taken from the token, as `create` does | not executed | AuctionsController.UpdateAsWritten | AuctionsController.Update |
| repos/auction.repo.js:54-73 | `query == {}` compares an object with a fresh literal by identity and is never true, while every call with skip 0 overwrites the cached first page | a filtered listing with skip 0 stores its filtered page under the first-page key, and an unfiltered listing never reads the cache | read the cache for an unfiltered first page, and store only that page | not executed | AuctionRepo.GetAllCachedAsWritten | AuctionRepo.GetAllCached |
| models/chatRoom.model.js:42 | `user._id != this.user1._id` compares two ObjectId objects by reference, which always differ | a room whose user1 and user2 are the same existing user passes the validator | user2 must be a different user from user1 | not executed | ChatRoomModel.ViolationsAsWritten | ChatRoomModel.Violations |
| repos/users.repo.js:76-78 | the contact check counts the user being updated | a user who re-sends their own e-mail in an update gets null, and nothing changes | only another user's contacts should block the update | not executed | UsersRepo.UpdateAsWritten | UsersRepo.Update |

=== FILE: auction_model.dfy ===
/** The auction schema: required fields, bounds, date order, and the `status` virtual (models/auction.model.js). */
module AuctionModel {
  import opened Wrappers
  import opened Documents
  import Mongo
  import Seqs

  /** The three phases of an auction. */
  datatype Status = Pending | Running | Ended {

    /** Position in the life cycle. */
    function Rank(): nat {
      match this
      case Pending => 0
      case Running => 1
      case Ended => 2
    }
  }

  /** The `status` virtual at time `now`, all three instants as integer timestamps. */
  function StatusAt(startDate: int, endDate: int, now: int): (st: Status)
    ensures st == Pending <==> now < startDate
    ensures st == Running <==> startDate <= now <= endDate
    ensures st == Ended <==> startDate <= now && endDate < now
  {
    if now < startDate then Pending
    else if now >= startDate && now <= endDate then Running
    else Ended
  }

  /** As time passes an auction only moves forward: pending, then running, then ended. */
  lemma StatusMonotone(startDate: int, endDate: int, t1: int, t2: int)
    requires t1 <= t2
    ensures StatusAt(startDate, endDate, t1).Rank() <= StatusAt(startDate, endDate, t2).Rank()
  {
  }

  /** An auction whose end precedes its start is never running. */
  lemma InvertedWindowNeverRuns(startDate: int, endDate: int, now: int)
    requires endDate < startDate
    ensures StatusAt(startDate, endDate, now) != Running
  {
  }

  /** An auction document before it is saved: each required path may be missing or unparsable. */
  datatype AuctionDraft = AuctionDraft(
    name: Option<string>, initialPrice: Option<real>, maxPrice: Option<real>,
    quantity: Option<real>, description: Option<string>,
    tags: seq<string>, images: seq<string>,
    startDate: Option<int>, endDate: Option<int>, seller: Option<Id>)

  /** A required string path: present and not empty. */
  predicate Present(o: Option<string>) { o.Some? && o.value != "" }

  /** A required number path with `min: 0`. */
  predicate NonNegative(o: Option<real>) { o.Some? && o.value >= 0.0 }

  /** The end-date validator: `value >= this.startDate`, false when the start is missing. */
  predicate EndsAfterStart(d: AuctionDraft) {
    d.endDate.Some? && d.startDate.Some? && d.endDate.value >= d.startDate.value
  }

  /** The validated paths of an auction document. */
  datatype Path = Name | InitialPrice | MaxPrice | Quantity | Description | StartDate | EndDate | Seller {
    function Key(): string {
      match this
      case Name => "name"
      case InitialPrice => "initialPrice"
      case MaxPrice => "maxPrice"
      case Quantity => "quantity"
      case Description => "description"
      case StartDate => "startDate"
      case EndDate => "endDate"
      case Seller => "seller"
    }
  }

  /** Whether the validators of path `p` accept the draft. */
  predicate PathAccepts(s: Store, d: AuctionDraft, p: Path) {
    match p
    case Name => Present(d.name)
    case InitialPrice => NonNegative(d.initialPrice)
    case MaxPrice => NonNegative(d.maxPrice)
    case Quantity => NonNegative(d.quantity)
    case Description => Present(d.description)
    case StartDate => d.startDate.Some?
    case EndDate => EndsAfterStart(d)
    case Seller => d.seller.Some? && UserExists(s, d.seller.value)
  }

  const SchemaOrder: seq<Path> := [Name, InitialPrice, MaxPrice, Quantity, Description, StartDate, EndDate, Seller]

  /** The schema order lists every path. */
  lemma AllPathsListed()
    ensures forall p: Path :: p in SchemaOrder
  {
    forall p: Path ensures p in SchemaOrder {
      var i := match p
        case Name => 0 case InitialPrice => 1 case MaxPrice => 2 case Quantity => 3
        case Description => 4 case StartDate => 5 case EndDate => 6 case Seller => 7;
      assert SchemaOrder[i] == p;
    }
  }

  /** The paths whose validators reject the draft, in schema order. */
  function Violations(s: Store, d: AuctionDraft): (v: seq<Path>)
    ensures forall p: Path :: p in v <==> !PathAccepts(s, d, p)
  {
    AllPathsListed();
    Seqs.Filter(SchemaOrder, (p: Path) => !PathAccepts(s, d, p))
  }

  /** A draft has no violations exactly when every path accepts it. */
  lemma NoViolations(s: Store, d: AuctionDraft)
    ensures Violations(s, d) == [] <==> forall p: Path :: PathAccepts(s, d, p)
  {
    var w := Violations(s, d);
    if w != [] {
      assert w[0] in w;
    }
  }

  /** The error a rejected draft raises. */
  function Rejection(v: seq<Path>): Mongo.DbError {
    Mongo.ValidationFailed(Mongo.PathNames(v, (p: Path) => p.Key()))
  }

  /** The auction a valid draft becomes under id and creation time `stamp`. */
  function FromDraft(d: AuctionDraft, stamp: int): Auction
    requires d.name.Some? && d.initialPrice.Some? && d.maxPrice.Some? && d.quantity.Some?
    requires d.description.Some? && d.startDate.Some? && d.endDate.Some? && d.seller.Some?
  {
    Auction(stamp, d.name.value, d.initialPrice.value, d.maxPrice.value, d.quantity.value,
            d.description.value, d.tags, d.images, d.startDate.value, d.endDate.value,
            d.seller.value, stamp)
  }

  /** A draft without violations has every required path, within its bounds. */
  lemma PassingDraft(s: Store, d: AuctionDraft)
    requires |Violations(s, d)| == 0
    ensures d.name.Some? && d.name.value != "" && d.description.Some? && d.description.value != ""
    ensures d.initialPrice.Some? && d.initialPrice.value >= 0.0 && d.maxPrice.Some? && d.maxPrice.value >= 0.0
    ensures d.quantity.Some? && d.quantity.value >= 0.0
    ensures d.startDate.Some? && d.endDate.Some? && d.startDate.value <= d.endDate.value
    ensures d.seller.Some? && UserExists(s, d.seller.value)
  {
    NoViolations(s, d);
    assert PathAccepts(s, d, Name) && PathAccepts(s, d, InitialPrice) && PathAccepts(s, d, MaxPrice);
    assert PathAccepts(s, d, Quantity) && PathAccepts(s, d, Description) && PathAccepts(s, d, StartDate);
    assert PathAccepts(s, d, EndDate) && PathAccepts(s, d, Seller);
  }

  /** `new Auction(body).save()`: validation, then the insert with a fresh id. */
  function Save(s: Store, d: AuctionDraft): (r: Result<(Store, Auction), Mongo.DbError>)
    ensures |Violations(s, d)| > 0 <==> r.Err?
    ensures r.Err? ==> r.error == Rejection(Violations(s, d))
    ensures r.Ok? ==> r.value.0 == s.(auctions := s.auctions + [r.value.1], clock := s.clock + 1)
    ensures r.Ok? ==> Saved(d, r.value.1, s.clock)
  {
    var v := Violations(s, d);
    if |v| > 0 then Err(Rejection(v))
    else
      PassingDraft(s, d);
      var a := FromDraft(d, s.clock);
      Ok((s.(auctions := s.auctions + [a], clock := s.clock + 1), a))
  }

  /** The stored auction carries the draft's values under the minted id, within the schema's bounds. */
  predicate Saved(d: AuctionDraft, a: Auction, stamp: int) {
    && a.id == stamp && a.startDate <= a.endDate && d.seller == Some(a.seller)
    && a.initialPrice >= 0.0 && a.maxPrice >= 0.0 && a.quantity >= 0.0
    && d.name == Some(a.name) && d.description == Some(a.description)
    && a.tags == d.tags && a.images == d.images
  }
}

=== FILE: auction_repo.dfy ===
/** Auction queries and updates (repos/auction.repo.js). */
module AuctionRepo {
  import opened Wrappers
  import opened Documents
  import opened Joi
  import Mongo
  import Seqs
  import Strings
  import AuctionModel
  import AuctionSchema

  /**
   * The listing arguments of `getAll` besides the page. A price bound is
   * `None` for `null` and for a `NaN` from `parseFloat`; a start-date bound
   * is `Malformed` for an invalid `Date`, which is truthy but cannot be cast.
   */
  datatype Filter = Filter(
    seller: Option<Id>, minPrice: Option<real>, maxPrice: Option<real>,
    tags: Option<seq<string>>, minStartDate: Input<int>, maxStartDate: Input<int>)

  /** No argument given. */
  const NoFilter: Filter := Filter(None, None, None, None, Missing, Missing)

  /** An inclusive range clause: `$lte` and `$gte`, each optional. */
  datatype Range<T> = Range(lte: Option<T>, gte: Option<T>)

  /** The query object `getAll` builds: one optional clause per path. */
  datatype Query = Query(
    seller: Option<Id>, initialPrice: Option<Range<real>>, startDate: Option<Range<int>>,
    tags: Option<seq<string>>)
  {
    /** The query has no clause at all, which is what `query == {}` means to test. */
    predicate IsEmpty() { seller.None? && initialPrice.None? && startDate.None? && tags.None? }
  }

  /** JavaScript truthiness of a parsed price: `null`, `NaN` and `0` are falsy. */
  predicate Truthy(o: Option<real>) { o.Some? && o.value != 0.0 }

  /** The `$lte`/`$gte` clause of two truthy-gated bounds, absent when neither is truthy. */
  function PriceRange(min: Option<real>, max: Option<real>): (r: Option<Range<real>>)
    ensures r.None? <==> !Truthy(min) && !Truthy(max)
    ensures r.Some? ==> (r.value.lte.Some? <==> Truthy(max)) && (r.value.gte.Some? <==> Truthy(min))
    ensures r.Some? && Truthy(max) ==> r.value.lte.value == max.value
    ensures r.Some? && Truthy(min) ==> r.value.gte.value == min.value
  {
    if Truthy(max) || Truthy(min) then
      Some(Range(if Truthy(max) then Some(max.value) else None, if Truthy(min) then Some(min.value) else None))
    else None
  }

  /** The start-date clause: a `Date` is truthy whether or not it is valid, but an invalid one fails the cast. */
  function DateRange(min: Input<int>, max: Input<int>): (r: Result<Option<Range<int>>, Mongo.DbError>)
    ensures r.Err? <==> min.Malformed? || max.Malformed?
    ensures r.Err? ==> r.error == Mongo.CastFailed("startDate")
    ensures r.Ok? ==> (r.value.None? <==> min.Missing? && max.Missing?)
    ensures r.Ok? && r.value.Some? ==>
      && r.value.value.lte == (if max.Given? then Some(max.value) else None)
      && r.value.value.gte == (if min.Given? then Some(min.value) else None)
  {
    if min.Malformed? || max.Malformed? then Err(Mongo.CastFailed("startDate"))
    else if min.Missing? && max.Missing? then Ok(None)
    else Ok(Some(Range(if max.Given? then Some(max.value) else None, if min.Given? then Some(min.value) else None)))
  }

  /** `getAll`'s query construction; the cast of the start-date bounds happens when the query runs. */
  function BuildQuery(f: Filter): (r: Result<Query, Mongo.DbError>)
    ensures r.Err? <==> f.minStartDate.Malformed? || f.maxStartDate.Malformed?
    ensures r.Ok? ==> r.value.seller == f.seller
    ensures r.Ok? ==> r.value.initialPrice == PriceRange(f.minPrice, f.maxPrice)
    ensures r.Ok? ==> (r.value.tags.Some? <==> f.tags.Some? && |f.tags.value| > 0)
    ensures r.Ok? && r.value.tags.Some? ==> r.value.tags == f.tags
  {
    match DateRange(f.minStartDate, f.maxStartDate)
    case Err(e) => Err(e)
    case Ok(dates) =>
      Ok(Query(f.seller, PriceRange(f.minPrice, f.maxPrice), dates,
        if f.tags.Some? && |f.tags.value| > 0 then f.tags else None))
  }

  /** Whether `x` lies in the range clause. */
  predicate InRange(r: Range<real>, x: real) {
    (r.lte.Some? ==> x <= r.lte.value) && (r.gte.Some? ==> x >= r.gte.value)
  }

  predicate InDateRange(r: Range<int>, x: int) {
    (r.lte.Some? ==> x <= r.lte.value) && (r.gte.Some? ==> x >= r.gte.value)
  }

  /** Whether the document store returns `a` for query `q`; `$in` on an array path means a shared element. */
  predicate QueryMatches(q: Query, a: Auction) {
    && (q.seller.Some? ==> a.seller == q.seller.value)
    && (q.initialPrice.Some? ==> InRange(q.initialPrice.value, a.initialPrice))
    && (q.startDate.Some? ==> InDateRange(q.startDate.value, a.startDate))
    && (q.tags.Some? ==> exists t :: t in q.tags.value && t in a.tags)
  }

  /** The filter read argument by argument, as the listing is documented: each given bound applies. */
  predicate Wanted(f: Filter, a: Auction) {
    && (f.seller.Some? ==> a.seller == f.seller.value)
    && (Truthy(f.minPrice) ==> a.initialPrice >= f.minPrice.value)
    && (Truthy(f.maxPrice) ==> a.initialPrice <= f.maxPrice.value)
    && (f.minStartDate.Given? ==> a.startDate >= f.minStartDate.value)
    && (f.maxStartDate.Given? ==> a.startDate <= f.maxStartDate.value)
    && (f.tags.Some? && |f.tags.value| > 0 ==> exists t :: t in f.tags.value && t in a.tags)
  }

  /** The built query selects exactly the wanted auctions. */
  lemma QueryMeansFilter(f: Filter, a: Auction)
    requires BuildQuery(f).Ok?
    ensures QueryMatches(BuildQuery(f).value, a) <==> Wanted(f, a)
  {
    var q := BuildQuery(f).value;
    var dates := DateRange(f.minStartDate, f.maxStartDate);
    assert q.startDate == dates.value;
  }

  /** A price bound of 0 builds the same query as no bound at all. */
  lemma ZeroPriceIsNoBound(f: Filter)
    ensures BuildQuery(f.(minPrice := Some(0.0))) == BuildQuery(f.(minPrice := None))
    ensures BuildQuery(f.(maxPrice := Some(0.0))) == BuildQuery(f.(maxPrice := None))
  {
  }

  /** The query is empty exactly when no argument is truthy. */
  lemma EmptyQueryMeansNoFilter(f: Filter)
    requires BuildQuery(f).Ok?
    ensures BuildQuery(f).value.IsEmpty() <==>
      f.seller.None? && !Truthy(f.minPrice) && !Truthy(f.maxPrice) && f.minStartDate.Missing?
      && f.maxStartDate.Missing? && (f.tags.None? || |f.tags.value| == 0)
  {
    var dates := DateRange(f.minStartDate, f.maxStartDate);
    assert BuildQuery(f).value.startDate == dates.value;
  }

  /** `Auction.find(query).sort({ createdAt: -1 })`: the matching auctions, newest first. */
  function Newest(s: Store, q: Query): (r: seq<Auction>)
    ensures Seqs.SortedDesc(r, AuctionCreated)
    ensures forall a :: a in r <==> a in s.auctions && QueryMatches(q, a)
  {
    var hits := Seqs.Filter(s.auctions, (a: Auction) => QueryMatches(q, a));
    var r := Seqs.SortDesc(hits, AuctionCreated);
    Seqs.SameElements(r, hits);
    r
  }

  /** The query run with `.limit(limit).skip(skip)`. */
  function Run(s: Store, q: Query, limit: int, skip: int): (r: Result<seq<Auction>, Mongo.DbError>)
    ensures r.Err? <==> skip < 0
    ensures r.Ok? ==> forall a :: a in r.value ==> a in s.auctions && QueryMatches(q, a)
    ensures r.Ok? ==> Seqs.SortedDesc(r.value, AuctionCreated)
    ensures r.Ok? && skip == 0 && limit == 0 ==> forall a :: a in r.value <==> a in s.auctions && QueryMatches(q, a)
    ensures r.Ok? ==> Mongo.IsPage(Newest(s, q), limit, skip, r.value)
  {
    var sorted := Newest(s, q);
    var r := Mongo.CursorPage(sorted, limit, skip);
    if r.Ok? then
      Mongo.SortedPage(sorted, AuctionCreated, limit, skip);
      r
    else r
  }

  /** `getAll` without its cache: the page of wanted auctions, newest first. */
  function GetAll(s: Store, f: Filter, limit: int, skip: int): (r: Result<seq<Auction>, Mongo.DbError>)
    ensures r.Err? <==> f.minStartDate.Malformed? || f.maxStartDate.Malformed? || skip < 0
    ensures r.Ok? ==> forall a :: a in r.value ==> a in s.auctions && Wanted(f, a)
    ensures r.Ok? ==> Seqs.SortedDesc(r.value, AuctionCreated)
    ensures r.Ok? && skip == 0 && limit == 0 ==> forall a :: a in r.value <==> a in s.auctions && Wanted(f, a)
    ensures r.Ok? ==> BuildQuery(f).Ok? && Mongo.IsPage(Newest(s, BuildQuery(f).value), limit, skip, r.value)
  {
    match BuildQuery(f)
    case Err(e) => Err(e)
    case Ok(q) =>
      var r := Run(s, q, limit, skip);
      forall a ensures QueryMatches(q, a) <==> Wanted(f, a) {
        QueryMeansFilter(f, a);
      }
      r
  }

  /** Paging through a listing meets every wanted auction: the `i`-th newest sits at place `i % limit` of the page at skip `(i / limit) * limit`. */
  lemma EveryAuctionOnItsPage(s: Store, f: Filter, limit: int, i: int)
    requires BuildQuery(f).Ok? && limit > 0 && 0 <= i < |Newest(s, BuildQuery(f).value)|
    ensures var page := GetAll(s, f, limit, (i / limit) * limit);
      && page.Ok? && i % limit < |page.value|
      && page.value[i % limit] == Newest(s, BuildQuery(f).value)[i]
  {
    var skip := (i / limit) * limit;
    Mongo.PageStartNonNegative(limit, i);
    var page := GetAll(s, f, limit, skip);
    assert page.Ok?;
    Mongo.PlaceOnPage(Newest(s, BuildQuery(f).value), limit, i, page.value);
  }

  /** The `auctionsFirstPage` slot: the limit the page was read with, and the page. */
  type Cache = Option<(int, seq<Auction>)>

  /**
   * `getAll` as written: `query == {}` compares a fresh object by identity
   * and is never true, so the slot is never read; yet every call with skip 0
   * stores its page, filtered or not.
   */
  function GetAllCachedAsWritten(s: Store, f: Filter, limit: int, skip: int, cache: Cache): (r: (Cache, Result<seq<Auction>, Mongo.DbError>))
    ensures r.1 == GetAll(s, f, limit, skip)
    ensures r.1.Ok? && skip == 0 ==> r.0 == Some((limit, r.1.value))
    ensures !(r.1.Ok? && skip == 0) ==> r.0 == cache
  {
    var res := GetAll(s, f, limit, skip);
    if res.Ok? && skip == 0 then (Some((limit, res.value)), res) else (cache, res)
  }

  /** The slot holds the unfiltered first page of the store for the limit it records. */
  predicate CacheHolds(s: Store, cache: Cache) {
    cache.Some? ==> Run(s, Query(None, None, None, None), cache.value.0, 0) == Ok(cache.value.1)
  }

  /** As written, one filtered first page that leaves out an auction overwrites the slot with a page that is not the unfiltered one. */
  lemma FilteredPagePoisonsCache(s: Store, f: Filter, a: Auction, cache: Cache)
    requires BuildQuery(f).Ok? && a in s.auctions && !Wanted(f, a)
    ensures !CacheHolds(s, GetAllCachedAsWritten(s, f, 0, 0, cache).0)
  {
    var page := GetAll(s, f, 0, 0).value;
    assert GetAllCachedAsWritten(s, f, 0, 0, cache).0 == Some((0, page));
    assert a !in page;
    var all := Run(s, Query(None, None, None, None), 0, 0);
    assert QueryMatches(Query(None, None, None, None), a);
    assert a in all.value;
  }

  /** The listing has no clause: the only calls the slot is meant for. */
  predicate Unfiltered(f: Filter) { BuildQuery(f).Ok? && BuildQuery(f).value.IsEmpty() }

  /** `getAll` as evidently intended: the slot is read and written only for the unfiltered first page of the same limit. */
  function GetAllCached(s: Store, f: Filter, limit: int, skip: int, cache: Cache): (r: (Cache, Result<seq<Auction>, Mongo.DbError>))
    ensures !(Unfiltered(f) && skip == 0) ==> r == (cache, GetAll(s, f, limit, skip))
    ensures CacheHolds(s, cache) ==> CacheHolds(s, r.0) && r.1 == GetAll(s, f, limit, skip)
  {
    if Unfiltered(f) && skip == 0 && cache.Some? && cache.value.0 == limit then
      (cache, Ok(cache.value.1))
    else
      var res := GetAll(s, f, limit, skip);
      if Unfiltered(f) && skip == 0 && res.Ok? then
        assert res == Run(s, Query(None, None, None, None), limit, 0);
        (Some((limit, res.value)), res)
      else (cache, res)
  }

  /** `getById`: `findById`. */
  function GetById(s: Store, id: Id): (r: Option<Auction>)
    ensures r.Some? ==> r.value in s.auctions && r.value.id == id
    ensures r.None? <==> forall a :: a in s.auctions ==> a.id != id
  {
    FindAuction(s, id)
  }

  /** `create`: `new Auction(body).save()` on a validated body. */
  function Create(s: Store, v: AuctionSchema.ValidAuction): (r: Result<(Store, Auction), Mongo.DbError>)
    ensures AuctionSchema.InBounds(v) ==> (r.Ok? <==> UserExists(s, v.seller))
    ensures r.Ok? ==> var (s', a) := r.value;
      && s' == s.(auctions := s.auctions + [a], clock := s.clock + 1)
      && a.id == s.clock && a.seller == v.seller && a.name == v.name && a.description == v.description
      && a.startDate == v.startDate && a.endDate == v.endDate
      && a.tags == v.tags.GetOr([]) && a.images == v.images.GetOr([])
  {
    var r := AuctionModel.Save(s, AuctionSchema.ToDraft(v));
    if AuctionSchema.InBounds(v) then
      AuctionSchema.ValidBodyPassesModel(s, v);
      r
    else r
  }

  /** The auction after `findOneAndUpdate` with body `v`: each key of the body is set; absent arrays leave the stored ones. */
  function Apply(a: Auction, v: AuctionSchema.ValidAuction): (b: Auction)
    ensures b.id == a.id && b.createdAt == a.createdAt && b.seller == v.seller
    ensures b.images == (if v.images.Some? then v.images.value else a.images)
    ensures b.tags == (if v.tags.Some? then v.tags.value else a.tags)
  {
    a.(name := v.name, initialPrice := v.initialPrice, maxPrice := v.maxPrice, quantity := v.quantity,
       description := v.description, startDate := v.startDate, endDate := v.endDate,
       tags := v.tags.GetOr(a.tags), images := v.images.GetOr(a.images), seller := v.seller)
  }

  /** The `{ _id: id, seller: user }` filter of update and delete. */
  predicate OwnedBy(a: Auction, id: Id, user: Id) { a.id == id && a.seller == user }

  /**
   * `update`: `findOneAndUpdate({ _id: id, seller: user }, body, { new: true })`.
   * Update validators are not enabled, so the model's validators do not run.
   */
  function Update(s: Store, id: Id, user: Id, v: AuctionSchema.ValidAuction): (r: (Store, Option<Auction>))
    ensures r.1.None? <==> forall a :: a in s.auctions ==> !OwnedBy(a, id, user)
    ensures r.1.None? ==> r.0 == s
    ensures r.1.Some? ==> exists i :: (
      && 0 <= i < |s.auctions| && OwnedBy(s.auctions[i], id, user)
      && r.1.value == Apply(s.auctions[i], v) && r.0 == s.(auctions := s.auctions[i := r.1.value]))
  {
    match Seqs.FirstIndex(s.auctions, (a: Auction) => OwnedBy(a, id, user))
    case None => (s, None)
    case Some(i) =>
      var b := Apply(s.auctions[i], v);
      (s.(auctions := s.auctions[i := b]), Some(b))
  }

  /** Update touches no auction of another seller, nor any other collection. */
  lemma UpdateKeepsOthersAuctions(s: Store, id: Id, user: Id, v: AuctionSchema.ValidAuction, a: Auction)
    requires a in s.auctions && a.seller != user
    ensures a in Update(s, id, user, v).0.auctions
    ensures Update(s, id, user, v).0 == s.(auctions := Update(s, id, user, v).0.auctions)
  {
    var (s', r) := Update(s, id, user, v);
    if r.Some? {
      var i :| 0 <= i < |s.auctions| && OwnedBy(s.auctions[i], id, user)
        && r.value == Apply(s.auctions[i], v) && s' == s.(auctions := s.auctions[i := r.value]);
      var k :| 0 <= k < |s.auctions| && s.auctions[k] == a;
      assert k != i;
      assert s'.auctions[k] == a;
    }
  }

  /** `delete`: `findOneAndDelete({ _id: id, seller: user })`, so only the seller deletes an auction. */
  function Delete(s: Store, id: Id, user: Id): (r: (Store, Option<Auction>))
    ensures r.1.None? <==> forall a :: a in s.auctions ==> !OwnedBy(a, id, user)
    ensures r.1.None? ==> r.0 == s
    ensures r.1.Some? ==> (
      && r.1.value in s.auctions && OwnedBy(r.1.value, id, user)
      && r.0 == s.(auctions := r.0.auctions)
      && multiset(r.0.auctions) + multiset{r.1.value} == multiset(s.auctions))
  {
    match Seqs.FirstIndex(s.auctions, (a: Auction) => OwnedBy(a, id, user))
    case None => (s, None)
    case Some(i) => (s.(auctions := Seqs.RemoveAt(s.auctions, i)), Some(s.auctions[i]))
  }

  /** An auction of another seller is never deleted. */
  lemma DeleteKeepsOthersAuctions(s: Store, id: Id, user: Id, a: Auction)
    requires a in s.auctions && a.seller != user
    ensures a in Delete(s, id, user).0.auctions
  {
    var (r, d) := Delete(s, id, user);
    if d.Some? {
      assert a in multiset(s.auctions);
      assert a != d.value;
      assert a in multiset(r.auctions);
    }
  }

  /**
   * The text index: `Matches(term, a)` says whether `$text: { $search: term }`
   * selects `a`, and `Score(term, a)` is its `textScore`. The tokenizer and
   * scoring are the database's and are not modelled.
   */
  datatype TextIndex = TextIndex(Matches: (string, Auction) -> bool, Score: (string, Auction) -> real)

  /** The text matches of the lower-cased search term, best score first. */
  function Ranked(s: Store, index: TextIndex, term: string): (r: seq<Auction>)
    ensures Seqs.SortedDesc(r, (a: Auction) => index.Score(term, a))
    ensures forall a :: a in r <==> a in s.auctions && index.Matches(term, a)
  {
    var hits := Seqs.Filter(s.auctions, (a: Auction) => index.Matches(term, a));
    var r := Seqs.SortDesc(hits, (a: Auction) => index.Score(term, a));
    Seqs.SameElements(r, hits);
    r
  }

  /**
   * `searchByName` as written: `$limit` before `$skip`. A missing `part`
   * (no `toLowerCase`) and a rejected stage both end in the one search error.
   */
  function SearchByNameAsWritten(s: Store, index: TextIndex, part: Option<string>, limit: int, skip: int): (r: Result<seq<Auction>, Mongo.DbError>)
    ensures r.Err? <==> part.None? || limit <= 0 || skip < 0
    ensures r.Err? ==> r.error == Mongo.SearchFailed
    ensures r.Ok? ==> |r.value| == Mongo.Max(0, Mongo.Min(limit, |Ranked(s, index, Strings.ToLowerAscii(part.value))|) - skip)
    ensures r.Ok? ==> forall i :: 0 <= i < |r.value| ==> r.value[i] == Ranked(s, index, Strings.ToLowerAscii(part.value))[skip + i]
  {
    if part.None? then Err(Mongo.SearchFailed)
    else
      match Mongo.LimitThenSkip(Ranked(s, index, Strings.ToLowerAscii(part.value)), limit, skip)
      case Err(_) => Err(Mongo.SearchFailed)
      case Ok(page) => Ok(page)
  }

  /** `searchByName` as evidently intended: `$skip` before `$limit`, the page at `skip`. */
  function SearchByName(s: Store, index: TextIndex, part: Option<string>, limit: int, skip: int): (r: Result<seq<Auction>, Mongo.DbError>)
    ensures r.Err? <==> part.None? || limit <= 0 || skip < 0
    ensures r.Err? ==> r.error == Mongo.SearchFailed
    ensures r.Ok? ==> |r.value| == Mongo.Min(limit, Mongo.Max(0, |Ranked(s, index, Strings.ToLowerAscii(part.value))| - skip))
    ensures r.Ok? ==> forall i :: 0 <= i < |r.value| ==> r.value[i] == Ranked(s, index, Strings.ToLowerAscii(part.value))[skip + i]
  {
    if part.None? then Err(Mongo.SearchFailed)
    else
      match Mongo.SkipThenLimit(Ranked(s, index, Strings.ToLowerAscii(part.value)), limit, skip)
      case Err(_) => Err(Mongo.SearchFailed)
      case Ok(page) => Ok(page)
  }

  /** With no skip the two agree, which is how the search socket calls it (limit 50, skip 0). */
  lemma SearchAgreesWithoutSkip(s: Store, index: TextIndex, part: Option<string>, limit: int)
    ensures SearchByNameAsWritten(s, index, part, limit, 0) == SearchByName(s, index, part, limit, 0)
  {
    var a := SearchByNameAsWritten(s, index, part, limit, 0);
    var b := SearchByName(s, index, part, limit, 0);
    if a.Ok? {
      assert |a.value| == |b.value|;
      assert a.value == b.value;
    }
  }

  /** With `0 < skip` and at least `limit + skip` matches, the written order returns fewer results than a page holds. */
  lemma SearchLosesResults(s: Store, index: TextIndex, part: string, limit: int, skip: int)
    requires 0 < skip && 0 < limit
    requires limit + skip <= |Ranked(s, index, Strings.ToLowerAscii(part))|
    ensures |SearchByName(s, index, Some(part), limit, skip).value| == limit
    ensures |SearchByNameAsWritten(s, index, Some(part), limit, skip).value| == Mongo.Max(0, limit - skip)
    ensures |SearchByNameAsWritten(s, index, Some(part), limit, skip).value| < limit
  {
    Mongo.LimitThenSkipLosesResults(Ranked(s, index, Strings.ToLowerAscii(part)), limit, skip);
  }
}

=== FILE: auction_schema.dfy ===
/** The request-body schema of an auction (utils/validation/auctionSchema.js). */
module AuctionSchema {
  import opened Wrappers
  import opened Documents
  import opened Joi
  import Strings
  import AuctionModel

  /** An auction body before validation. `uri` decides the `uri()` rule; its grammar is not modelled. */
  datatype AuctionBody = AuctionBody(
    startDate: Input<int>, endDate: Input<int>, name: Input<string>,
    initialPrice: Input<real>, maxPrice: Input<real>, quantity: Input<real>,
    description: Input<string>, images: Option<seq<string>>, tags: Option<seq<string>>,
    seller: Input<Id>)

  /** The converted body the schema returns: strings trimmed, absent arrays left absent. */
  datatype ValidAuction = ValidAuction(
    startDate: int, endDate: int, name: string,
    initialPrice: real, maxPrice: real, quantity: real,
    description: string, images: Option<seq<string>>, tags: Option<seq<string>>,
    seller: Id)

  /** The schema's keys, in the order it lists them. */
  datatype Field = StartDate | EndDate | Name | InitialPrice | MaxPrice | Quantity | Description | Images | Tags | Seller {

    /** The key as it appears in the body. */
    function Key(): string {
      match this
      case StartDate => "startDate" case EndDate => "endDate" case Name => "name"
      case InitialPrice => "initialPrice" case MaxPrice => "maxPrice" case Quantity => "quantity"
      case Description => "description" case Images => "images" case Tags => "tags" case Seller => "seller"
    }

    /** The subject of the key's custom messages. */
    function Subject(): string {
      match this
      case StartDate => "Start date" case EndDate => "End date" case Name => "Name"
      case InitialPrice => "Initial price" case MaxPrice => "Max price" case Quantity => "Quantity"
      case Description => "Description" case Images => "Images" case Tags => "Images" case Seller => "Seller ID"
    }

    /** The rest of the key's type message. */
    function TypeClause(): string {
      match this
      case StartDate => " must be a valid date" case EndDate => " must be a valid date"
      case InitialPrice => " must be a number" case MaxPrice => " must be a number" case Quantity => " must be a number"
      case Images => " must be an array" case Tags => " must be an array"
      case Name => " must be a string" case Description => " must be a string" case Seller => " must be a string"
    }
  }

  /** Why a body is refused. */
  datatype Failure =
    | Required(field: Field)              // `any.required`
    | WrongType(field: Field)             // `date.base`, `string.base`, `number.base`
    | Empty(field: Field)                 // `string.empty`, which has no custom message
    | BelowOne(field: Field)              // `number.min`
    | EndBeforeStart                      // `date.min` against the start date
    | EmptyItem(field: Field, index: nat) // an empty string inside an array
    | NotUri                              // `string.uri` on an image
  {
    /** The message the schema reports. */
    function Message(): string {
      match this
      case Required(f) => f.Subject() + " is required"
      case WrongType(f) => f.Subject() + f.TypeClause()
      case Empty(f) => EmptyMessage(f.Key())
      case BelowOne(f) => f.Subject() + (if f == Quantity then " must be at least 1" else " must be at least 1 EGP")
      case EndBeforeStart => "End date must be after the start date"
      case EmptyItem(f, i) => EmptyMessage(ItemLabel(f.Key(), i))
      case NotUri => "Each image must be a valid URL"
    }
  }

  /** A required date. */
  function DateError(v: Input<int>, f: Field): Option<Failure> {
    match v
    case Missing => Some(Required(f))
    case Malformed => Some(WrongType(f))
    case Given(_) => None
  }

  /** The end date: required, a date, and not before the start date (`min(Joi.ref('startDate'))`). */
  function EndDateError(b: AuctionBody): Option<Failure> {
    match b.endDate
    case Given(e) => if b.startDate.Given? && e < b.startDate.value then Some(EndBeforeStart) else None
    case _ => DateError(b.endDate, EndDate)
  }

  /** A required string with `trim()`; an empty result is refused. */
  function TrimmedError(v: Input<string>, f: Field): Option<Failure> {
    match v
    case Missing => Some(Required(f))
    case Malformed => Some(WrongType(f))
    case Given(t) => if Strings.Trim(t) == "" then Some(Empty(f)) else None
  }

  /** A required number with `min(1)`. */
  function AtLeastOneError(v: Input<real>, f: Field): Option<Failure> {
    match v
    case Missing => Some(Required(f))
    case Malformed => Some(WrongType(f))
    case Given(x) => if x < 1.0 then Some(BelowOne(f)) else None
  }

  /** Image `i`: trimmed, not empty, then a URI. */
  function ImageError(uri: string -> bool, i: nat, image: string): Option<Failure> {
    var t := Strings.Trim(image);
    if t == "" then Some(EmptyItem(Images, i)) else if !uri(t) then Some(NotUri) else None
  }

  /** The per-item rule of the images array. */
  function ImageCheck(uri: string -> bool): (nat, string) -> Option<Failure> {
    (i: nat, t: string) => ImageError(uri, i, t)
  }

  /** Images whose every item passes are, once trimmed, non-empty URIs. */
  lemma ImagesAccepted(images: seq<string>, uri: string -> bool)
    requires ItemsError(images, ImageCheck(uri)).None?
    ensures forall t :: t in TrimAll(images) ==> t != "" && uri(t)
  {
    var trimmed := TrimAll(images);
    forall t | t in trimmed ensures t != "" && uri(t) {
      var i :| 0 <= i < |trimmed| && trimmed[i] == t;
      assert ImageCheck(uri)(i, images[i]).None?;
    }
  }

  /** Tag `i`: a plain string, which may not be empty. */
  function TagError(i: nat, tag: string): Option<Failure> {
    if tag == "" then Some(EmptyItem(Tags, i)) else None
  }

  /** The seller: a required string. */
  function SellerError(v: Input<Id>): Option<Failure> {
    match v
    case Missing => Some(Required(Seller))
    case Malformed => Some(WrongType(Seller))
    case Given(_) => None
  }

  /** The outcome of each key's rules, in the schema's key order. */
  function Checks(b: AuctionBody, uri: string -> bool): (c: seq<Option<Failure>>)
    ensures |c| == 10
  {
    [ DateError(b.startDate, StartDate),
      EndDateError(b),
      TrimmedError(b.name, Name),
      AtLeastOneError(b.initialPrice, InitialPrice),
      AtLeastOneError(b.maxPrice, MaxPrice),
      AtLeastOneError(b.quantity, Quantity),
      TrimmedError(b.description, Description),
      if b.images.Some? then ItemsError(b.images.value, ImageCheck(uri)) else None,
      if b.tags.Some? then ItemsError(b.tags.value, TagError) else None,
      SellerError(b.seller)
    ]
  }

  /** The images, trimmed. */
  function TrimAll(images: seq<string>): (r: seq<string>)
    ensures |r| == |images| && forall i :: 0 <= i < |r| ==> r[i] == Strings.Trim(images[i])
  {
    seq(|images|, i requires 0 <= i < |images| => Strings.Trim(images[i]))
  }

  /** Every key's rules pass. */
  predicate Passes(b: AuctionBody, uri: string -> bool) {
    forall i :: 0 <= i < 10 ==> Checks(b, uri)[i].None?
  }

  /** The scalar keys of a passing body are present and within their bounds. */
  lemma PassingScalars(b: AuctionBody, uri: string -> bool)
    requires Passes(b, uri)
    ensures b.startDate.Given? && b.endDate.Given? && b.startDate.value <= b.endDate.value
    ensures b.name.Given? && Strings.Trim(b.name.value) != ""
    ensures b.description.Given? && Strings.Trim(b.description.value) != ""
    ensures b.initialPrice.Given? && b.maxPrice.Given? && b.quantity.Given?
    ensures 1.0 <= b.initialPrice.value && 1.0 <= b.maxPrice.value && 1.0 <= b.quantity.value
    ensures b.seller.Given?
  {
    var c := Checks(b, uri);
    assert c[0].None? && c[1].None? && c[9].None?;
    assert c[2].None? && c[6].None?;
    assert c[3].None? && c[4].None? && c[5].None?;
  }

  /** The images of a passing body, trimmed, are non-empty URIs. */
  lemma PassingImages(b: AuctionBody, uri: string -> bool)
    requires Passes(b, uri)
    ensures b.images.Some? ==> forall t :: t in TrimAll(b.images.value) ==> t != "" && uri(t)
  {
    if b.images.Some? {
      var c := Checks(b, uri);
      assert c[7] == ItemsError(b.images.value, ImageCheck(uri));
      assert c[7].None?;
      ImagesAccepted(b.images.value, uri);
    }
  }

  /** The tags of a passing body are non-empty. */
  lemma PassingTags(b: AuctionBody, uri: string -> bool)
    requires Passes(b, uri)
    ensures b.tags.Some? ==> forall t :: t in b.tags.value ==> t != ""
  {
    if b.tags.Some? {
      assert Checks(b, uri)[8].None?;
      forall t | t in b.tags.value ensures t != "" {
        var i :| 0 <= i < |b.tags.value| && b.tags.value[i] == t;
        assert TagError(i, b.tags.value[i]).None?;
      }
    }
  }

  /** `validateAsync(body)`: the converted body, or the first failing key's failure. */
  function Validate(b: AuctionBody, uri: string -> bool): (r: Result<ValidAuction, Failure>)
    ensures r.Err? ==> Some(r.error) == FirstError(Checks(b, uri))
    ensures r.Ok? <==> FirstError(Checks(b, uri)).None?
    ensures r.Ok? ==> var v := r.value;
      && InBounds(v)
      && Given(v.seller) == b.seller && v.tags == b.tags
      && v.images == (if b.images.Some? then Some(TrimAll(b.images.value)) else None)
      && (b.tags.Some? ==> forall t :: t in b.tags.value ==> t != "")
      && (v.images.Some? ==> forall t :: t in v.images.value ==> t != "" && uri(t))
  {
    match FirstError(Checks(b, uri))
    case Some(m) => Err(m)
    case None =>
      PassingScalars(b, uri);
      PassingImages(b, uri);
      PassingTags(b, uri);
      Ok(ValidAuction(b.startDate.value, b.endDate.value, Strings.Trim(b.name.value),
        b.initialPrice.value, b.maxPrice.value, b.quantity.value, Strings.Trim(b.description.value),
        if b.images.Some? then Some(TrimAll(b.images.value)) else None, b.tags, b.seller.value))
  }

  /** A body without a seller is always refused; with everything else valid, for the seller. */
  lemma MissingSellerRejected(b: AuctionBody, uri: string -> bool)
    requires b.seller.Missing?
    ensures Validate(b, uri).Err?
    ensures (forall i :: 0 <= i < 9 ==> Checks(b, uri)[i].None?) ==> Validate(b, uri).error == Required(Seller)
  {
    var c := Checks(b, uri);
    assert c[9].Some?;
    if forall i :: 0 <= i < 9 ==> c[i].None? {
      FirstErrorIs(c, 9);
    }
  }

  /** A missing start date is reported before anything else. */
  lemma StartDateReportedFirst(b: AuctionBody, uri: string -> bool)
    requires b.startDate.Missing?
    ensures Validate(b, uri) == Err(Required(StartDate))
  {
    FirstErrorIs(Checks(b, uri), 0);
  }

  /** An invalid start date is reported before anything else too. */
  lemma MalformedStartDateReportedFirst(b: AuctionBody, uri: string -> bool)
    requires b.startDate.Malformed?
    ensures Validate(b, uri) == Err(WrongType(StartDate))
  {
    FirstErrorIs(Checks(b, uri), 0);
  }

  /** The two messages a create or an update body most often ends with. */
  lemma KnownMessages()
    ensures WrongType(StartDate).Message() == "Start date must be a valid date"
    ensures Required(Seller).Message() == "Seller ID is required"
  {
  }

  /** The document a validated body becomes. */
  function ToDraft(v: ValidAuction): AuctionModel.AuctionDraft {
    AuctionModel.AuctionDraft(Some(v.name), Some(v.initialPrice), Some(v.maxPrice), Some(v.quantity),
      Some(v.description), v.tags.GetOr([]), v.images.GetOr([]), Some(v.startDate), Some(v.endDate), Some(v.seller))
  }

  /** The bounds a validated body meets. */
  predicate InBounds(v: ValidAuction) {
    && 1.0 <= v.initialPrice && 1.0 <= v.maxPrice && 1.0 <= v.quantity
    && v.startDate <= v.endDate && v.name != "" && v.description != ""
  }

  /** What the body schema accepts, the document schema accepts too, save the seller's existence. */
  lemma ValidBodyPassesModel(s: Store, v: ValidAuction)
    requires InBounds(v)
    ensures forall p: AuctionModel.Path :: p != AuctionModel.Seller ==> AuctionModel.PathAccepts(s, ToDraft(v), p)
    ensures AuctionModel.Save(s, ToDraft(v)).Ok? <==> UserExists(s, v.seller)
  {
    var d := ToDraft(v);
    assert forall p: AuctionModel.Path :: p != AuctionModel.Seller ==> AuctionModel.PathAccepts(s, d, p);
    OnlySellerDecides(s, d);
  }

  /** A draft every other path accepts is saved exactly when its seller exists. */
  lemma OnlySellerDecides(s: Store, d: AuctionModel.AuctionDraft)
    requires d.seller.Some?
    requires forall p: AuctionModel.Path :: p != AuctionModel.Seller ==> AuctionModel.PathAccepts(s, d, p)
    ensures AuctionModel.Violations(s, d) == [] <==> UserExists(s, d.seller.value)
  {
    AuctionModel.NoViolations(s, d);
    if UserExists(s, d.seller.value) {
      forall p: AuctionModel.Path ensures AuctionModel.PathAccepts(s, d, p) {
        if p != AuctionModel.Seller { }
      }
    } else {
      assert !AuctionModel.PathAccepts(s, d, AuctionModel.Seller);
    }
  }
}

=== FILE: auction_socket.dfy ===
/** The `/auction` socket namespace: watching an auction and bidding on it (socket-handlers/auction.js). */
module AuctionSocket {
  import opened Wrappers
  import opened Documents
  import BidModel
  import BidsRepo

  /**
   * What a connection handler does with the socket. The reason of a
   * disconnection is the thrown error, which only the server logs; the
   * client sees the socket closed without it.
   */
  datatype Connection = Joined(channel: Id) | Disconnected(reason: string)

  /** `handleConnection`: any authenticated caller joins the channel of an existing auction. */
  function HandleConnection(s: Store, auction: Id): (r: Connection)
    ensures r.Joined? <==> AuctionExists(s, auction)
    ensures r.Joined? ==> r.channel == auction
    ensures r.Disconnected? ==> r.reason == "Auction not found"
  {
    if AuctionExists(s, auction) then Joined(auction) else Disconnected("Auction not found")
  }

  /** A `bid` event. */
  datatype BidPayload = BidPayload(auction: Id, buyer: Id, price: Option<real>)

  /** What a bid produces: the saved bid broadcast on the auction's channel, or nothing. */
  datatype Broadcast = Emitted(channel: Id, bid: Bid) | Dropped

  /**
   * `handleBid`: the bid is saved when the schema accepts it and then
   * broadcast. Neither the auction's status, its price bounds nor the
   * current top bid are consulted.
   */
  function HandleBid(s: Store, payload: BidPayload): (r: (Store, Broadcast))
    ensures r.1.Emitted? <==> (
      && UserExists(s, payload.buyer) && AuctionExists(s, payload.auction)
      && payload.price.Some? && payload.price.value > 1.0)
    ensures r.1.Dropped? ==> r.0 == s
    ensures r.1.Emitted? ==> (
      && r.1.channel == payload.auction
      && r.1.bid == Bid(s.clock, payload.auction, payload.buyer, payload.price.value, s.clock)
      && r.0 == s.(bids := s.bids + [r.1.bid], clock := s.clock + 1))
  {
    match BidModel.Save(s, BidModel.BidDraft(Some(payload.buyer), Some(payload.auction), payload.price))
    case Err(_) => (s, Dropped)
    case Ok((s', b)) => (s', Emitted(payload.auction, b))
  }

  /** A valid bid below the current top is still saved and broadcast, and the top bid's price stays. */
  lemma LowerBidBroadcast(s: Store, auction: Id, buyer: Id, price: real)
    requires AuctionExists(s, auction) && UserExists(s, buyer) && price > 1.0
    requires BidsRepo.GetTop(s, auction).Some? && price < BidsRepo.GetTop(s, auction).value.price
    ensures var r := HandleBid(s, BidPayload(auction, buyer, Some(price)));
      && r.1.Emitted? && r.1.bid.price == price && r.0.bids == s.bids + [r.1.bid]
      && BidsRepo.GetTop(r.0, auction).Some?
      && BidsRepo.GetTop(r.0, auction).value.price == BidsRepo.GetTop(s, auction).value.price
  {
    var r := HandleBid(s, BidPayload(auction, buyer, Some(price)));
    BidsRepo.LowerBidAccepted(s, auction, buyer, price);
    assert r.0 == BidsRepo.CreateAndRetrieve(s, auction, buyer, Some(price)).value.0;
  }
}

=== FILE: auctions_controller.dfy ===
/** The auction endpoints (controllers/auctions.controller.js). */
module AuctionsController {
  import opened Wrappers
  import opened Documents
  import opened Http
  import opened Joi
  import Mongo
  import Seqs
  import Strings
  import Paginate
  import AuctionSchema
  import AuctionRepo

  /** `tags && tags.length > 0 ? tags.split(',') : []`: an absent or empty tags string gives no tags. */
  function ParseTags(tags: Option<string>): (r: seq<string>)
    ensures tags.None? || tags.value == "" ==> r == []
    ensures tags.Some? && tags.value != "" ==> |r| >= 1 && Strings.Join(r, ',') == tags.value
    ensures forall t :: t in r ==> ',' !in t
  {
    if tags.Some? && |tags.value| > 0 then
      Strings.JoinSplit(tags.value, ',');
      Strings.Split(tags.value, ',')
    else []
  }

  /**
   * The listing query string after the controller's parsing: a price is
   * `None` when absent, empty or not a number (`NaN`); a start date is
   * `Missing` when absent or empty and `Malformed` when it is not a date.
   */
  datatype ListingQuery = ListingQuery(
    minPrice: Option<real>, maxPrice: Option<real>,
    minStartDate: Input<int>, maxStartDate: Input<int>, tags: Option<string>)

  /** The `getAll` arguments a listing request becomes; tags are split only when the parameter is non-empty. */
  function ToFilter(q: ListingQuery, seller: Option<Id>): (f: AuctionRepo.Filter)
    ensures f.seller == seller && f.minPrice == q.minPrice && f.maxPrice == q.maxPrice
    ensures f.minStartDate == q.minStartDate && f.maxStartDate == q.maxStartDate
    ensures f.tags.Some? <==> q.tags.Some? && q.tags.value != ""
    ensures f.tags.Some? ==> |f.tags.value| >= 1 && Strings.Join(f.tags.value, ',') == q.tags.value
  {
    var tags := if q.tags.Some? && q.tags.value != "" then Some(ParseTags(q.tags)) else None;
    AuctionRepo.Filter(seller, q.minPrice, q.maxPrice, tags, q.minStartDate, q.maxStartDate)
  }

  /**
   * A listing through the repository's `getAll` as written: the first-page
   * slot is never read, so the answer is always a fresh query, and every
   * successful call with skip 0 stores its page in the slot, filtered or
   * not. Errors become 500.
   */
  function List(s: Store, page: map<string, int>, f: AuctionRepo.Filter, cache: AuctionRepo.Cache)
    : (r: (AuctionRepo.Cache, Response<seq<Auction>>))
    ensures r.1.Error? <==> f.minStartDate.Malformed? || f.maxStartDate.Malformed? || Paginate.Paginate(page).skip < 0
    ensures r.1.Error? ==> r.1.Status() == StatusInternalServerError
    ensures r.1.Respond? ==> (
      && r.1.status == StatusOk && Seqs.SortedDesc(r.1.data, AuctionCreated)
      && (forall a :: a in r.1.data ==> a in s.auctions && AuctionRepo.Wanted(f, a))
      && r.1.data == AuctionRepo.GetAll(s, f, Paginate.Paginate(page).limit, Paginate.Paginate(page).skip).value)
    ensures r.1.Respond? && Paginate.Paginate(page).skip == 0 ==> r.0 == Some((Paginate.Paginate(page).limit, r.1.data))
    ensures !(r.1.Respond? && Paginate.Paginate(page).skip == 0) ==> r.0 == cache
    ensures r.1.Respond? ==> AuctionRepo.BuildQuery(f).Ok? && Mongo.IsPage(
      AuctionRepo.Newest(s, AuctionRepo.BuildQuery(f).value), Paginate.Paginate(page).limit, Paginate.Paginate(page).skip, r.1.data)
  {
    var p := Paginate.Paginate(page);
    var (cache', res) := AuctionRepo.GetAllCachedAsWritten(s, f, p.limit, p.skip, cache);
    match res
    case Err(e) => (cache', Fail(Mongo.Describe(e), StatusInternalServerError))
    case Ok(auctions) => (cache', Respond(StatusOk, auctions))
  }

  /** `getAll`: the listing for everyone, no seller. */
  function GetAll(s: Store, page: map<string, int>, q: ListingQuery, cache: AuctionRepo.Cache)
    : (r: (AuctionRepo.Cache, Response<seq<Auction>>))
    ensures r.1.Error? <==> q.minStartDate.Malformed? || q.maxStartDate.Malformed? || Paginate.Paginate(page).skip < 0
    ensures r.1.Respond? ==>
      forall a :: a in r.1.data ==> a in s.auctions && AuctionRepo.Wanted(ToFilter(q, None), a)
    ensures r.1.Respond? && Paginate.Paginate(page).skip == 0 ==> r.0 == Some((Paginate.Paginate(page).limit, r.1.data))
    ensures !(r.1.Respond? && Paginate.Paginate(page).skip == 0) ==> r.0 == cache
    ensures r.1.Respond? ==> AuctionRepo.BuildQuery(ToFilter(q, None)).Ok? && Mongo.IsPage(
      AuctionRepo.Newest(s, AuctionRepo.BuildQuery(ToFilter(q, None)).value),
      Paginate.Paginate(page).limit, Paginate.Paginate(page).skip, r.1.data)
  {
    List(s, page, ToFilter(q, None), cache)
  }

  /**
   * `getAllByUserId`: the listing with the seller fixed to the caller. It
   * goes through the same `getAll`, so a first page of the caller's
   * auctions lands in the slot meant for everyone's first page.
   */
  function GetAllByUserId(s: Store, page: map<string, int>, q: ListingQuery, user: Id, cache: AuctionRepo.Cache)
    : (r: (AuctionRepo.Cache, Response<seq<Auction>>))
    ensures r.1.Error? <==> q.minStartDate.Malformed? || q.maxStartDate.Malformed? || Paginate.Paginate(page).skip < 0
    ensures r.1.Respond? ==> forall a :: a in r.1.data ==> a in s.auctions && a.seller == user
    ensures r.1.Respond? && Paginate.Paginate(page).skip == 0 ==> r.0 == Some((Paginate.Paginate(page).limit, r.1.data))
    ensures !(r.1.Respond? && Paginate.Paginate(page).skip == 0) ==> r.0 == cache
    ensures r.1.Respond? ==> AuctionRepo.BuildQuery(ToFilter(q, Some(user))).Ok? && Mongo.IsPage(
      AuctionRepo.Newest(s, AuctionRepo.BuildQuery(ToFilter(q, Some(user))).value),
      Paginate.Paginate(page).limit, Paginate.Paginate(page).skip, r.1.data)
  {
    List(s, page, ToFilter(q, Some(user)), cache)
  }

  /** `getById`: the auction, or 404. */
  function GetById(s: Store, id: Id): (r: Response<Auction>)
    ensures r.Respond? <==> exists a :: a in s.auctions && a.id == id
    ensures r.Error? ==> r == Fail("Auction not found", StatusNotFound)
    ensures r.Respond? ==> r.status == StatusOk && r.data in s.auctions && r.data.id == id
  {
    match AuctionRepo.GetById(s, id)
    case None => Fail("Auction not found", StatusNotFound)
    case Some(a) => Respond(StatusOk, a)
  }

  /** The fields of a create or update request body; dates are `Missing` when absent. */
  datatype AuctionRequest = AuctionRequest(
    name: Input<string>, initialPrice: Input<real>, maxPrice: Input<real>, quantity: Input<real>,
    description: Input<string>, startDate: Input<int>, endDate: Input<int>, tags: Option<string>)

  /** `new Date(undefined)` is an invalid date: a missing date reaches the schema as a malformed one. */
  function NewDate(d: Input<int>): (r: Input<int>)
    ensures !r.Missing?
    ensures d.Given? ==> r == d
  {
    if d.Missing? then Malformed else d
  }

  /** The body `create` validates: seller from the token, dates through `new Date`, tags parsed, uploaded images. */
  function CreateBody(req: AuctionRequest, user: Id, uploaded: seq<string>): (b: AuctionSchema.AuctionBody)
    ensures b.seller == Given(user) && b.tags == Some(ParseTags(req.tags)) && b.images == Some(uploaded)
    ensures !b.startDate.Missing? && !b.endDate.Missing?
  {
    AuctionSchema.AuctionBody(NewDate(req.startDate), NewDate(req.endDate), req.name,
      req.initialPrice, req.maxPrice, req.quantity, req.description,
      Some(uploaded), Some(ParseTags(req.tags)), Given(user))
  }

  /** The message of the TypeError `req.files.map` throws when `req.files` is undefined. */
  const FilesUndefined := "Cannot read properties of undefined (reading 'map')"

  /**
   * `create`: validation failures answer 400 with the first failure's
   * message and the repository is not called; a save failure answers 500.
   * `uploaded` are the URLs of the files stored before validation, or
   * `None` when the request carries no `files` array (a body that is not
   * multipart): then `req.files.map` throws and the catch answers 500.
   */
  function Create(s: Store, req: AuctionRequest, user: Id, uploaded: Option<seq<string>>, uri: string -> bool)
    : (r: (Store, Response<Auction>))
    ensures uploaded.None? ==> r == (s, Fail(FilesUndefined, StatusInternalServerError))
    ensures uploaded.Some? && AuctionSchema.Validate(CreateBody(req, user, uploaded.value), uri).Err? ==>
      r == (s, Fail(AuctionSchema.Validate(CreateBody(req, user, uploaded.value), uri).error.Message(), StatusBadRequest))
    ensures r.1.Error? ==> r.0 == s
    ensures r.1.Respond? <==>
      uploaded.Some? && AuctionSchema.Validate(CreateBody(req, user, uploaded.value), uri).Ok? && UserExists(s, user)
    ensures r.1.Respond? ==> (
      && r.1.status == StatusCreated && r.1.data.seller == user && r.1.data.images == AuctionSchema.TrimAll(uploaded.value)
      && r.1.data.tags == ParseTags(req.tags)
      && r.0 == s.(auctions := s.auctions + [r.1.data], clock := s.clock + 1))
  {
    match uploaded
    case None => (s, Fail(FilesUndefined, StatusInternalServerError))
    case Some(files) => Persist(s, AuctionSchema.Validate(CreateBody(req, user, files), uri))
  }

  /** The rest of `create` once the body has been validated to `res`. */
  function Persist(s: Store, res: Result<AuctionSchema.ValidAuction, AuctionSchema.Failure>)
    : (r: (Store, Response<Auction>))
    requires res.Ok? ==> AuctionSchema.InBounds(res.value)
    ensures res.Err? ==> r == (s, Fail(res.error.Message(), StatusBadRequest))
    ensures r.1.Error? ==> r.0 == s
    ensures r.1.Respond? <==> res.Ok? && UserExists(s, res.value.seller)
    ensures r.1.Respond? ==> (
      && r.1.status == StatusCreated && r.1.data.seller == res.value.seller
      && r.1.data.tags == res.value.tags.GetOr([]) && r.1.data.images == res.value.images.GetOr([])
      && r.0 == s.(auctions := s.auctions + [r.1.data], clock := s.clock + 1))
  {
    match res
    case Err(f) => (s, Fail(f.Message(), StatusBadRequest))
    case Ok(v) =>
      match AuctionRepo.Create(s, v)
      case Err(e) => (s, Fail(Mongo.Describe(e), StatusInternalServerError))
      case Ok((s', a)) => (s', Respond(StatusCreated, a))
  }

  /** A create request without a start date is refused as an invalid date, not as a missing one. */
  lemma MissingStartDateIsInvalid(s: Store, req: AuctionRequest, user: Id, uploaded: seq<string>, uri: string -> bool)
    requires req.startDate.Missing?
    ensures Create(s, req, user, Some(uploaded), uri) == (s, Fail("Start date must be a valid date", StatusBadRequest))
  {
    var b := CreateBody(req, user, uploaded);
    AuctionSchema.MalformedStartDateReportedFirst(b, uri);
    AuctionSchema.KnownMessages();
  }

  /** The images of an update: the uploads when there are any, else the key is left out. */
  function UpdateImages(uploaded: seq<string>): Option<seq<string>> {
    if |uploaded| > 0 then Some(uploaded) else None
  }

  /** The body `update` validates as written: raw dates, parsed tags, no seller. */
  function UpdateBodyAsWritten(req: AuctionRequest, uploaded: seq<string>): (b: AuctionSchema.AuctionBody)
    ensures b.seller.Missing?
  {
    AuctionSchema.AuctionBody(req.startDate, req.endDate, req.name,
      req.initialPrice, req.maxPrice, req.quantity, req.description,
      UpdateImages(uploaded), Some(ParseTags(req.tags)), Missing)
  }

  /** `update` as written: the schema requires a seller the body never carries, so every request ends in 400. */
  function UpdateAsWritten(s: Store, id: Id, req: AuctionRequest, user: Id, uploaded: seq<string>, uri: string -> bool)
    : (r: (Store, Response<Auction>))
    ensures r.0 == s && r.1.Error? && r.1.Status() == StatusBadRequest
  {
    var b := UpdateBodyAsWritten(req, uploaded);
    AuctionSchema.MissingSellerRejected(b, uri);
    match AuctionSchema.Validate(b, uri)
    case Err(f) => (s, Fail(f.Message(), StatusBadRequest))
    case Ok(v) =>
      match AuctionRepo.Update(s, id, user, v)
      case (_, None) => (s, Fail("Auction not found or user does not have permission to update it", StatusForbidden))
      case (s', Some(a)) => (s', Respond(StatusOk, a))
  }

  /** Even a request with every field valid is refused, for the seller. */
  lemma UpdateAlwaysRefused(s: Store, id: Id, req: AuctionRequest, user: Id, uploaded: seq<string>, uri: string -> bool)
    requires forall i :: 0 <= i < 9 ==> AuctionSchema.Checks(UpdateBodyAsWritten(req, uploaded), uri)[i].None?
    ensures UpdateAsWritten(s, id, req, user, uploaded, uri) == (s, Fail("Seller ID is required", StatusBadRequest))
  {
    var b := UpdateBodyAsWritten(req, uploaded);
    AuctionSchema.MissingSellerRejected(b, uri);
    AuctionSchema.KnownMessages();
  }

  /** The body `update` evidently meant to validate: the as-written body with the caller as seller. */
  function UpdateBody(req: AuctionRequest, user: Id, uploaded: seq<string>): (b: AuctionSchema.AuctionBody)
    ensures b.seller == Given(user) && b.tags == Some(ParseTags(req.tags))
    ensures |uploaded| == 0 ==> b.images.None?
    ensures req.startDate.Given? && req.endDate.Given? && |uploaded| > 0 ==> b == CreateBody(req, user, uploaded)
  {
    UpdateBodyAsWritten(req, uploaded).(seller := Given(user))
  }

  /**
   * `update` as evidently intended: 400 for an invalid body, 403 when the
   * caller does not own an auction with that id, else the updated auction.
   */
  function Update(s: Store, id: Id, req: AuctionRequest, user: Id, uploaded: seq<string>, uri: string -> bool)
    : (r: (Store, Response<Auction>))
    ensures AuctionSchema.Validate(UpdateBody(req, user, uploaded), uri).Err? ==>
      r == (s, Fail(AuctionSchema.Validate(UpdateBody(req, user, uploaded), uri).error.Message(), StatusBadRequest))
    ensures AuctionSchema.Validate(UpdateBody(req, user, uploaded), uri).Ok? ==>
      (r.1.Respond? <==> exists a :: a in s.auctions && AuctionRepo.OwnedBy(a, id, user))
    ensures r.1.Error? ==> r.0 == s
    ensures r.1.Respond? ==> (
      && r.1.status == StatusOk && r.1.data.id == id && r.1.data.seller == user
      && (|uploaded| == 0 ==> exists a :: a in s.auctions && AuctionRepo.OwnedBy(a, id, user) && r.1.data.images == a.images))
  {
    match AuctionSchema.Validate(UpdateBody(req, user, uploaded), uri)
    case Err(f) => (s, Fail(f.Message(), StatusBadRequest))
    case Ok(v) =>
      match AuctionRepo.Update(s, id, user, v)
      case (_, None) => (s, Fail("Auction not found or user does not have permission to update it", StatusForbidden))
      case (s', Some(a)) => (s', Respond(StatusOk, a))
  }

  /** `delete`: only the seller deletes an auction; otherwise, or for a wrong id, 403. */
  function Delete(s: Store, id: Id, user: Id): (r: (Store, Response<Auction>))
    ensures r.1.Respond? <==> exists a :: a in s.auctions && AuctionRepo.OwnedBy(a, id, user)
    ensures r.1.Error? ==> r == (s, Fail("Auction not found or user does not have permission to delete it", StatusForbidden))
    ensures r.1.Respond? ==> (
      && r.1.status == StatusOk && r.1.data.seller == user && r.1.data.id == id
      && r.0 == s.(auctions := r.0.auctions) && multiset(r.0.auctions) + multiset{r.1.data} == multiset(s.auctions))
  {
    match AuctionRepo.Delete(s, id, user)
    case (_, None) => (s, Fail("Auction not found or user does not have permission to delete it", StatusForbidden))
    case (s', Some(a)) => (s', Respond(StatusOk, a))
  }
}

=== FILE: bid_model.dfy ===
/** The bid schema: a buyer and an auction that exist and a price above 1 (models/bid.model.js). */
module BidModel {
  import opened Wrappers
  import opened Documents
  import Mongo

  /** A bid document before it is saved. */
  datatype BidDraft = BidDraft(buyer: Option<Id>, auction: Option<Id>, price: Option<real>)

  /** The price validator: strictly greater than 1. */
  predicate PriceAccepted(price: real) { price > 1.0 }

  /** The paths whose validators reject the draft. */
  function Violations(s: Store, d: BidDraft): (v: seq<string>)
    ensures "buyer" in v <==> d.buyer.None? || !UserExists(s, d.buyer.value)
    ensures "auction" in v <==> d.auction.None? || !AuctionExists(s, d.auction.value)
    ensures "price" in v <==> d.price.None? || !PriceAccepted(d.price.value)
    ensures |v| == 0 <==> (
      && d.buyer.Some? && UserExists(s, d.buyer.value)
      && d.auction.Some? && AuctionExists(s, d.auction.value)
      && d.price.Some? && d.price.value > 1.0)
  {
    (if d.buyer.Some? && UserExists(s, d.buyer.value) then [] else ["buyer"])
    + (if d.auction.Some? && AuctionExists(s, d.auction.value) then [] else ["auction"])
    + (if d.price.Some? && PriceAccepted(d.price.value) then [] else ["price"])
  }

  /** A price of exactly 1 is refused; anything above it is not. */
  lemma PriceBoundIsStrict()
    ensures !PriceAccepted(1.0) && PriceAccepted(1.01)
  {
  }

  /** `new Bid(draft).save()`: validation, then the insert with a fresh id. */
  function Save(s: Store, d: BidDraft): (r: Result<(Store, Bid), Mongo.DbError>)
    ensures |Violations(s, d)| > 0 <==> r.Err?
    ensures r.Err? ==> r.error == Mongo.ValidationFailed(Violations(s, d))
    ensures r.Ok? ==> var (s', b) := r.value;
      && s' == s.(bids := s.bids + [b], clock := s.clock + 1)
      && b.id == s.clock && b.createdAt == s.clock
      && Some(b.auction) == d.auction && Some(b.buyer) == d.buyer && Some(b.price) == d.price
      && b.price > 1.0 && UserExists(s, b.buyer) && AuctionExists(s, b.auction)
  {
    var v := Violations(s, d);
    if |v| > 0 then Err(Mongo.ValidationFailed(v))
    else
      var b := Bid(s.clock, d.auction.value, d.buyer.value, d.price.value, s.clock);
      Ok((s.(bids := s.bids + [b], clock := s.clock + 1), b))
  }
}

=== FILE: bids_controller.dfy ===
/** The bid endpoints (controllers/bids.controller.js). */
module BidsController {
  import opened Wrappers
  import opened Documents
  import opened Http
  import Mongo
  import Seqs
  import Paginate
  import BidsRepo

  /** `getAll`: the requested page of an auction's bids, highest price first. */
  function GetAll(s: Store, query: map<string, int>, auction: Id): (r: Response<seq<Bid>>)
    ensures r.Error? <==> Paginate.Paginate(query).skip < 0
    ensures r.Error? ==> r.Status() == StatusInternalServerError
    ensures r.Respond? ==> (
      && r.status == StatusOk && Seqs.SortedDesc(r.data, BidsRepo.BidPrice)
      && forall b :: b in r.data ==> b in s.bids && b.auction == auction)
    ensures r.Respond? ==> Mongo.IsPage(BidsRepo.Ranked(s, auction), Paginate.Paginate(query).limit, Paginate.Paginate(query).skip, r.data)
  {
    var p := Paginate.Paginate(query);
    match BidsRepo.GetAll(s, auction, p.limit, p.skip)
    case Err(e) => Fail(Mongo.Describe(e), StatusInternalServerError)
    case Ok(bids) => Respond(StatusOk, bids)
  }

  /** `getById`: the bid, or 404. */
  function GetById(s: Store, id: Id): (r: Response<Bid>)
    ensures r.Respond? <==> exists b :: b in s.bids && b.id == id
    ensures r.Error? ==> r == Fail("Bid not found", StatusNotFound)
    ensures r.Respond? ==> r.status == StatusOk && r.data in s.bids && r.data.id == id
  {
    match BidsRepo.GetById(s, id)
    case None => Fail("Bid not found", StatusNotFound)
    case Some(b) => Respond(StatusOk, b)
  }

  /** `getTop`: always 200; the payload is `null` for an auction without bids. */
  function GetTop(s: Store, auction: Id): (r: Response<Option<Bid>>)
    ensures r.Respond? && r.status == StatusOk
    ensures r.data.None? <==> forall b :: b in s.bids ==> b.auction != auction
    ensures r.data.Some? ==> forall b :: b in s.bids && b.auction == auction ==> b.price <= r.data.value.price
  {
    Respond(StatusOk, BidsRepo.GetTop(s, auction))
  }

  /** `delete`: only the buyer deletes a bid; otherwise, or for a wrong id, 403. */
  function Delete(s: Store, id: Id, user: Id): (r: (Store, Response<Bid>))
    ensures r.1.Respond? <==> exists b :: b in s.bids && b.id == id && b.buyer == user
    ensures r.1.Error? ==> r == (s, Fail("Bid not found or user does not have permission to delete it", StatusForbidden))
    ensures r.1.Respond? ==> (
      && r.1.status == StatusOk && r.1.data.buyer == user && r.1.data.id == id
      && r.0 == s.(bids := r.0.bids) && multiset(r.0.bids) + multiset{r.1.data} == multiset(s.bids))
  {
    match BidsRepo.Delete(s, id, user)
    case (_, None) => (s, Fail("Bid not found or user does not have permission to delete it", StatusForbidden))
    case (s', Some(b)) => (s', Respond(StatusOk, b))
  }
}

=== FILE: bids_repo.dfy ===
/** Bid queries and updates (repos/bids.repo.js). */
module BidsRepo {
  import opened Wrappers
  import opened Documents
  import Mongo
  import Seqs
  import BidModel

  /** The `{ auction: auction }` filter. */
  predicate OnAuction(auction: Id, b: Bid) { b.auction == auction }

  /** The sort key of `sort({ price: -1 })`. */
  function BidPrice(b: Bid): real { b.price }

  /** The auction's bids, highest price first. */
  function Ranked(s: Store, auction: Id): (r: seq<Bid>)
    ensures Seqs.SortedDesc(r, BidPrice)
    ensures forall b :: b in r <==> b in s.bids && b.auction == auction
  {
    var mine := Seqs.Filter(s.bids, (b: Bid) => OnAuction(auction, b));
    var r := Seqs.SortDesc(mine, BidPrice);
    Seqs.SameElements(r, mine);
    r
  }

  /** `getAll`: the auction's bids, highest price first, then the cursor page. */
  function GetAll(s: Store, auction: Id, limit: int, skip: int): (r: Result<seq<Bid>, Mongo.DbError>)
    ensures r.Err? <==> skip < 0
    ensures r.Ok? ==> forall b :: b in r.value ==> b in s.bids && b.auction == auction
    ensures r.Ok? ==> Seqs.SortedDesc(r.value, BidPrice)
    ensures r.Ok? && skip == 0 && limit == 0 ==>
      forall b :: b in r.value <==> b in s.bids && b.auction == auction
    ensures r.Ok? ==> Mongo.IsPage(Ranked(s, auction), limit, skip, r.value)
  {
    var sorted := Ranked(s, auction);
    var r := Mongo.CursorPage(sorted, limit, skip);
    if r.Ok? then
      Mongo.SortedPage(sorted, BidPrice, limit, skip);
      r
    else r
  }

  /** Paging through an auction's bids meets every one: the `i`-th highest sits at place `i % limit` of the page at skip `(i / limit) * limit`. */
  lemma EveryBidOnItsPage(s: Store, auction: Id, limit: int, i: int)
    requires limit > 0 && 0 <= i < |Ranked(s, auction)|
    ensures var page := GetAll(s, auction, limit, (i / limit) * limit);
      && page.Ok? && i % limit < |page.value|
      && page.value[i % limit] == Ranked(s, auction)[i]
  {
    var skip := (i / limit) * limit;
    Mongo.PageStartNonNegative(limit, i);
    var page := GetAll(s, auction, limit, skip);
    assert page.Ok?;
    Mongo.PlaceOnPage(Ranked(s, auction), limit, i, page.value);
  }

  /** `getById`: `findById`. */
  function GetById(s: Store, id: Id): (r: Option<Bid>)
    ensures r.Some? ==> r.value in s.bids && r.value.id == id
    ensures r.None? <==> forall b :: b in s.bids ==> b.id != id
  {
    FindBid(s, id)
  }

  /** `getTop`: the first bid of the auction in descending price order, `null` when there is none. */
  function GetTop(s: Store, auction: Id): (r: Option<Bid>)
    ensures r.None? <==> forall b :: b in s.bids ==> b.auction != auction
    ensures r.Some? ==> r.value in s.bids && r.value.auction == auction
    ensures r.Some? ==> forall b :: b in s.bids && b.auction == auction ==> b.price <= r.value.price
  {
    var sorted := Ranked(s, auction);
    if |sorted| == 0 then None
    else
      assert forall b :: b in sorted ==> b.price <= sorted[0].price by {
        forall b | b in sorted ensures b.price <= sorted[0].price {
          var i :| 0 <= i < |sorted| && sorted[i] == b;
          if i > 0 { assert BidPrice(sorted[0]) >= BidPrice(sorted[i]); }
        }
      }
      Some(sorted[0])
  }

  /** The top bid heads the first page of any positive size. */
  lemma TopHeadsFirstPage(s: Store, auction: Id, limit: int)
    requires limit > 0 && GetTop(s, auction).Some?
    ensures GetAll(s, auction, limit, 0).Ok? && |GetAll(s, auction, limit, 0).value| > 0
    ensures GetAll(s, auction, limit, 0).value[0] == GetTop(s, auction).value
  {
    var sorted := Ranked(s, auction);
    assert GetTop(s, auction).value in sorted;
  }

  /** `delete`: `findOneAndDelete({ _id: id, buyer })`, so only the buyer deletes a bid. */
  function Delete(s: Store, id: Id, buyer: Id): (r: (Store, Option<Bid>))
    ensures r.1.None? <==> forall b :: b in s.bids ==> !(b.id == id && b.buyer == buyer)
    ensures r.1.None? ==> r.0 == s
    ensures r.1.Some? ==> (
      && r.1.value in s.bids && r.1.value.id == id && r.1.value.buyer == buyer
      && r.0 == s.(bids := r.0.bids)
      && multiset(r.0.bids) + multiset{r.1.value} == multiset(s.bids))
  {
    match Seqs.FirstIndex(s.bids, (b: Bid) => b.id == id && b.buyer == buyer)
    case None => (s, None)
    case Some(i) => (s.(bids := Seqs.RemoveAt(s.bids, i)), Some(s.bids[i]))
  }

  /** A bid someone else placed is never deleted. */
  lemma DeleteKeepsOthersBids(s: Store, id: Id, buyer: Id, b: Bid)
    requires b in s.bids && b.buyer != buyer
    ensures b in Delete(s, id, buyer).0.bids
  {
    var (r, d) := Delete(s, id, buyer);
    if d.Some? {
      assert b in multiset(s.bids);
      assert b != d.value;
      assert b in multiset(r.bids);
    }
  }

  /** `createAndRetireve`: save the bid, then read it back by id. */
  function CreateAndRetrieve(s: Store, auction: Id, buyer: Id, price: Option<real>): (r: Result<(Store, Bid), Mongo.DbError>)
    ensures r.Ok? <==> AuctionExists(s, auction) && UserExists(s, buyer) && price.Some? && price.value > 1.0
    ensures r.Ok? ==> var (s', b) := r.value;
      && s' == s.(bids := s.bids + [b], clock := s.clock + 1)
      && b == Bid(s.clock, auction, buyer, price.value, s.clock)
  {
    BidModel.Save(s, BidModel.BidDraft(Some(buyer), Some(auction), price))
  }

  /** Nothing compares a new bid with the current top: a lower bid is stored and the top stays. */
  lemma LowerBidAccepted(s: Store, auction: Id, buyer: Id, price: real)
    requires AuctionExists(s, auction) && UserExists(s, buyer) && price > 1.0
    requires GetTop(s, auction).Some? && price < GetTop(s, auction).value.price
    ensures CreateAndRetrieve(s, auction, buyer, Some(price)).Ok?
    ensures GetTop(CreateAndRetrieve(s, auction, buyer, Some(price)).value.0, auction).value.price
         == GetTop(s, auction).value.price
  {
    var (s', b) := CreateAndRetrieve(s, auction, buyer, Some(price)).value;
    var top := GetTop(s, auction).value;
    var top' := GetTop(s', auction).value;
    assert top in s'.bids;
    assert top'.price <= top.price by {
      if top' != b {
        assert top' in s.bids;
      }
    }
  }
}

=== FILE: chat_room_model.dfy ===
/** The chat-room schema: two existing users and the two compound unique indexes (models/chatRoom.model.js). */
module ChatRoomModel {
  import opened Wrappers
  import opened Documents
  import Mongo

  /** A chat-room document before it is saved. */
  datatype ChatRoomDraft = ChatRoomDraft(user1: Option<Id>, user2: Option<Id>)

  /**
   * The paths the validators reject, as the second validator evidently means
   * it: `user2` must exist and differ from `user1`.
   */
  function Violations(s: Store, d: ChatRoomDraft): (v: seq<string>)
    ensures "user1" in v <==> d.user1.None? || !UserExists(s, d.user1.value)
    ensures "user2" in v <==> d.user2.None? || !UserExists(s, d.user2.value) || d.user2 == d.user1
    ensures |v| == 0 ==> d.user1.Some? && d.user2.Some? && d.user1.value != d.user2.value
  {
    (if d.user1.Some? && UserExists(s, d.user1.value) then [] else ["user1"])
    + (if d.user2.Some? && UserExists(s, d.user2.value) && d.user2 != d.user1 then [] else ["user2"])
  }

  /**
   * The validators as written. The distinctness test compares `user._id` with
   * `this.user1._id`, two distinct ObjectId objects, with `!=`, which compares
   * object references, so it always holds: only existence is checked. When
   * `user1` is missing, reading `this.user1._id` throws inside the `user2`
   * validator once `user2` is found, and the throw fails `user2` as well.
   */
  function ViolationsAsWritten(s: Store, d: ChatRoomDraft): (v: seq<string>)
    ensures "user1" in v <==> d.user1.None? || !UserExists(s, d.user1.value)
    ensures "user2" in v <==> d.user2.None? || !UserExists(s, d.user2.value) || d.user1.None?
  {
    (if d.user1.Some? && UserExists(s, d.user1.value) then [] else ["user1"])
    + (if d.user2.Some? && UserExists(s, d.user2.value) && d.user1.Some? then [] else ["user2"])
  }

  /** As written, a room pairing an existing user with themself passes validation; the intended rule rejects it. */
  lemma SelfPairPassesAsWritten(s: Store, u: Id)
    requires UserExists(s, u)
    ensures ViolationsAsWritten(s, ChatRoomDraft(Some(u), Some(u))) == []
    ensures "user2" in Violations(s, ChatRoomDraft(Some(u), Some(u)))
  {
  }

  /** The key of index `{ user1: 1, user2: 1 }`. */
  function KeyUser1User2(c: ChatRoom): (Id, Id) { (c.user1, c.user2) }

  /** The key of index `{ user2: 1, user1: 1 }`. */
  function KeyUser2User1(c: ChatRoom): (Id, Id) { (c.user2, c.user1) }

  /** A unique index with key `key` admits `c` when no stored room has the same key. */
  predicate Admits(rooms: seq<ChatRoom>, c: ChatRoom, key: ChatRoom -> (Id, Id)) {
    forall r :: r in rooms ==> key(r) != key(c)
  }

  /** Both unique indexes admit `c`. */
  predicate IndexesAdmit(rooms: seq<ChatRoom>, c: ChatRoom) {
    Admits(rooms, c, KeyUser1User2) && Admits(rooms, c, KeyUser2User1)
  }

  /** The two indexes constrain the same thing, the ordered pair. */
  lemma IndexesAgree(rooms: seq<ChatRoom>, c: ChatRoom)
    ensures Admits(rooms, c, KeyUser1User2) <==> Admits(rooms, c, KeyUser2User1)
    ensures IndexesAdmit(rooms, c) <==> forall r :: r in rooms ==> (r.user1, r.user2) != (c.user1, c.user2)
  {
  }

  /** So, on their own, they let (b, a) in beside (a, b). */
  lemma ReversedPairAdmitted(a: Id, b: Id, id1: Id, id2: Id, t1: int, t2: int)
    requires a != b
    ensures IndexesAdmit([ChatRoom(id1, a, b, t1)], ChatRoom(id2, b, a, t2))
  {
  }

  /** Validation with the given validators, then both unique indexes, then the insert. */
  function SaveWith(s: Store, d: ChatRoomDraft, v: seq<string>): (r: Result<(Store, ChatRoom), Mongo.DbError>)
    requires |v| == 0 ==> d.user1.Some? && d.user2.Some?
  {
    if |v| > 0 then Err(Mongo.ValidationFailed(v))
    else
      var c := ChatRoom(s.clock, d.user1.value, d.user2.value, s.clock);
      if !IndexesAdmit(s.rooms, c) then Err(Mongo.DuplicateKey("user1_1_user2_1"))
      else Ok((s.(rooms := s.rooms + [c], clock := s.clock + 1), c))
  }

  /**
   * `new ChatRoom(draft).save()` as written: a room joining an existing user
   * with themself is stored.
   */
  function Save(s: Store, d: ChatRoomDraft): (r: Result<(Store, ChatRoom), Mongo.DbError>)
    ensures |ViolationsAsWritten(s, d)| > 0 ==> r == Err(Mongo.ValidationFailed(ViolationsAsWritten(s, d)))
    ensures r.Ok? ==> var (s', c) := r.value;
      && s' == s.(rooms := s.rooms + [c], clock := s.clock + 1)
      && c.id == s.clock && c.createdAt == s.clock
      && Some(c.user1) == d.user1 && Some(c.user2) == d.user2
      && UserExists(s, c.user1) && UserExists(s, c.user2) && IndexesAdmit(s.rooms, c)
    ensures r.Err? ==> |ViolationsAsWritten(s, d)| > 0 || !IndexesAdmit(s.rooms, ChatRoom(s.clock, d.user1.value, d.user2.value, s.clock))
  {
    SaveWith(s, d, ViolationsAsWritten(s, d))
  }

  /** The save as evidently intended: the corrected validators also refuse a user paired with themself. */
  function SaveIntended(s: Store, d: ChatRoomDraft): (r: Result<(Store, ChatRoom), Mongo.DbError>)
    ensures |Violations(s, d)| > 0 ==> r == Err(Mongo.ValidationFailed(Violations(s, d)))
    ensures r.Ok? ==> var (s', c) := r.value;
      && s' == s.(rooms := s.rooms + [c], clock := s.clock + 1)
      && c.id == s.clock && c.createdAt == s.clock
      && Some(c.user1) == d.user1 && Some(c.user2) == d.user2
      && c.user1 != c.user2 && IndexesAdmit(s.rooms, c)
    ensures r.Err? ==> |Violations(s, d)| > 0 || !IndexesAdmit(s.rooms, ChatRoom(s.clock, d.user1.value, d.user2.value, s.clock))
  {
    SaveWith(s, d, Violations(s, d))
  }

  /** The two saves differ exactly on a self-pair of an existing user with no room yet: the program stores it, the intended rule refuses it. */
  lemma SavesDifferOnSelfPair(s: Store, u: Id)
    requires UserExists(s, u) && IndexesAdmit(s.rooms, ChatRoom(s.clock, u, u, s.clock))
    ensures Save(s, ChatRoomDraft(Some(u), Some(u))).Ok?
    ensures Save(s, ChatRoomDraft(Some(u), Some(u))).value.0.rooms[|s.rooms|] == ChatRoom(s.clock, u, u, s.clock)
    ensures SaveIntended(s, ChatRoomDraft(Some(u), Some(u))) == Err(Mongo.ValidationFailed(["user2"]))
  {
    var d := ChatRoomDraft(Some(u), Some(u));
    SelfPairPassesAsWritten(s, u);
    var v := Violations(s, d);
    assert v == ["user2"];
    assert SaveWith(s, d, v) == Err(Mongo.ValidationFailed(["user2"]));
    assert SaveIntended(s, d) == SaveWith(s, d, v);
  }
}

=== FILE: chat_rooms_controller.dfy ===
/** The chat-room endpoints (controllers/chatRooms.controller.js). */
module ChatRoomsController {
  import opened Wrappers
  import opened Documents
  import opened Http
  import Mongo
  import Paginate
  import ChatRoomsRepo
  import MessagesRepo

  /** A room as the endpoints return it, with the caller's unseen count attached. */
  datatype RoomView = RoomView(room: ChatRoom, unseenCount: nat)

  /** Each room with `getUnseenCount(room._id, user)`. */
  function WithUnseen(s: Store, rooms: seq<ChatRoom>, user: Id): (r: seq<RoomView>)
    ensures |r| == |rooms|
    ensures forall i :: 0 <= i < |rooms| ==> r[i].room == rooms[i]
    ensures forall i :: 0 <= i < |rooms| ==> (r[i].unseenCount == 0 <==>
      forall m :: m in s.messages && MessagesRepo.AddressedTo(rooms[i].id, user, m) ==> m.seen)
  {
    seq(|rooms|, i requires 0 <= i < |rooms| => RoomView(rooms[i], MessagesRepo.GetUnseenCount(s, rooms[i].id, user)))
  }

  /** The rooms behind the views, in order. */
  function Rooms(views: seq<RoomView>): (r: seq<ChatRoom>)
    ensures |r| == |views| && forall i :: 0 <= i < |views| ==> r[i] == views[i].room
  {
    seq(|views|, i requires 0 <= i < |views| => views[i].room)
  }

  /** `getAll`: the caller's rooms for the requested page, each with its unseen count. */
  function GetAll(s: Store, query: map<string, int>, user: Id): (r: Response<seq<RoomView>>)
    ensures r.Error? <==> Paginate.Paginate(query).skip < 0
    ensures r.Error? ==> r.Status() == StatusInternalServerError
    ensures r.Respond? ==> r.status == StatusOk && forall v :: v in r.data ==>
      && v.room in s.rooms && ChatRoomsRepo.HasMember(v.room, user)
      && v.unseenCount == MessagesRepo.GetUnseenCount(s, v.room.id, user)
    ensures r.Respond? ==>
      Mongo.IsPage(ChatRoomsRepo.Newest(s, user), Paginate.Paginate(query).limit, Paginate.Paginate(query).skip, Rooms(r.data))
  {
    var p := Paginate.Paginate(query);
    match ChatRoomsRepo.GetAll(s, user, p.limit, p.skip)
    case Err(e) => Fail(Mongo.Describe(e), StatusInternalServerError)
    case Ok(rooms) =>
      var views := WithUnseen(s, rooms, user);
      assert forall v :: v in views ==> v.room in rooms by {
        forall v | v in views ensures v.room in rooms {
          var i :| 0 <= i < |views| && views[i] == v;
          assert v.room == rooms[i];
        }
      }
      Respond(StatusOk, views)
  }

  /** `getById`: 404 for a missing room, 403 for a caller outside it, else the room with the caller's unseen count. */
  function GetById(s: Store, id: Id, user: Id): (r: Response<RoomView>)
    ensures ChatRoomsRepo.GetById(s, id).None? ==> r == Fail("Chat room not found", StatusNotFound)
    ensures ChatRoomsRepo.GetById(s, id).Some? && !ChatRoomsRepo.HasMember(ChatRoomsRepo.GetById(s, id).value, user)
      ==> r == Fail("Unauthorized access to chat room", StatusForbidden)
    ensures r.Respond? ==> (
      && r.status == StatusOk && r.data.room in s.rooms && r.data.room.id == id
      && ChatRoomsRepo.HasMember(r.data.room, user)
      && r.data.unseenCount == MessagesRepo.GetUnseenCount(s, id, user))
  {
    match ChatRoomsRepo.GetById(s, id)
    case None => Fail("Chat room not found", StatusNotFound)
    case Some(c) =>
      if !ChatRoomsRepo.HasMember(c, user) then Fail("Unauthorized access to chat room", StatusForbidden)
      else Respond(StatusOk, RoomView(c, MessagesRepo.GetUnseenCount(s, c.id, user)))
  }

  /** With unique room ids, a caller sees a room exactly when it exists and they belong to it. */
  lemma GetByIdOnlyForMembers(s: Store, id: Id, user: Id)
    requires ChatRoomsRepo.UniqueRoomIds(s.rooms)
    ensures GetById(s, id, user).Respond? <==> exists c :: c in s.rooms && c.id == id && ChatRoomsRepo.HasMember(c, user)
  {
    if c :| c in s.rooms && c.id == id && ChatRoomsRepo.HasMember(c, user) {
      var d := ChatRoomsRepo.GetById(s, id).value;
      var i :| 0 <= i < |s.rooms| && s.rooms[i] == c;
      var j :| 0 <= j < |s.rooms| && s.rooms[j] == d;
      assert i == j;
    }
  }

  const DuplicateRoomMessage: string := "Chat room with same users already exists"

  /**
   * `create` with the status of the duplicate-room refusal as a parameter:
   * `None` stands for an undefined property, which `AppError` turns into 500.
   */
  function CreateWith(s: Store, user1: Id, user2: Id, conflict: Option<int>): (r: (Store, Response<ChatRoom>))
    ensures !UserExists(s, user2) || user2 == user1 ==> r == (s, Fail("User not found", StatusNotFound))
    ensures UserExists(s, user2) && user2 != user1 && ChatRoomsRepo.IsExistsByUserRefs(s, user1, user2) ==>
      r == (s, Error(NewAppError(DuplicateRoomMessage, conflict)))
    ensures r.1.Respond? <==>
      UserExists(s, user1) && UserExists(s, user2) && user1 != user2 && !ChatRoomsRepo.IsExistsByUserRefs(s, user1, user2)
    ensures r.1.Respond? ==> (
      && r.1.status == StatusCreated && r.1.data == ChatRoom(s.clock, user1, user2, s.clock)
      && r.0 == s.(rooms := s.rooms + [r.1.data], clock := s.clock + 1))
    ensures r.1.Error? ==> r.0 == s
  {
    if !UserExists(s, user2) || user2 == user1 then (s, Fail("User not found", StatusNotFound))
    else if ChatRoomsRepo.IsExistsByUserRefs(s, user1, user2) then (s, Error(NewAppError(DuplicateRoomMessage, conflict)))
    else
      match ChatRoomsRepo.Create(s, user1, user2)
      case Err(e) => (s, Fail(Mongo.Describe(e), StatusInternalServerError))
      case Ok((s', c)) => (s', Respond(StatusCreated, c))
  }

  /** `create` as written: `HTTP_STATUS_CODES.CONFLICT` is undefined. */
  function CreateAsWritten(s: Store, user1: Id, user2: Id): (r: (Store, Response<ChatRoom>))
    ensures UserExists(s, user2) && user2 != user1 && ChatRoomsRepo.IsExistsByUserRefs(s, user1, user2) ==>
      r.0 == s && r.1.Status() == StatusInternalServerError
  {
    CreateWith(s, user1, user2, StatusCode("CONFLICT"))
  }

  /** `create` as evidently intended: the duplicate room is refused with 409. */
  function Create(s: Store, user1: Id, user2: Id): (r: (Store, Response<ChatRoom>))
    ensures UserExists(s, user2) && user2 != user1 && ChatRoomsRepo.IsExistsByUserRefs(s, user1, user2) ==>
      r.0 == s && r.1.Status() == StatusConflict
  {
    CreateWith(s, user1, user2, Some(StatusConflict))
  }

  /** The two differ only in the status of the duplicate refusal. */
  lemma ConflictStatusDiffers(s: Store, a: Id, b: Id)
    requires UserExists(s, b) && a != b && ChatRoomsRepo.IsExistsByUserRefs(s, a, b)
    ensures CreateAsWritten(s, a, b).1.Status() == 500 && Create(s, a, b).1.Status() == 409
    ensures CreateAsWritten(s, a, b).1.error.message == Create(s, a, b).1.error.message
  {
    ConflictFallsBackTo500(DuplicateRoomMessage);
  }

  /** No two rooms join the same two users, and no room joins a user with themself. */
  ghost predicate RoomsDistinct(rooms: seq<ChatRoom>) {
    && (forall i, j :: 0 <= i < j < |rooms| ==> !ChatRoomsRepo.Joins(rooms[j], rooms[i].user1, rooms[i].user2))
    && (forall c :: c in rooms ==> c.user1 != c.user2)
  }

  /** Creating rooms through the endpoint keeps the rooms distinct, whatever the refusal's status. */
  lemma CreateKeepsRoomsDistinct(s: Store, user1: Id, user2: Id, conflict: Option<int>)
    requires RoomsDistinct(s.rooms)
    ensures RoomsDistinct(CreateWith(s, user1, user2, conflict).0.rooms)
  {
    var (s', r) := CreateWith(s, user1, user2, conflict);
    if r.Respond? {
      var c := r.data;
      assert s'.rooms == s.rooms + [c];
      forall i, j | 0 <= i < j < |s'.rooms| ensures !ChatRoomsRepo.Joins(s'.rooms[j], s'.rooms[i].user1, s'.rooms[i].user2) {
        if j == |s.rooms| {
          var d := s.rooms[i];
          assert d in s.rooms;
        }
      }
    }
  }

  /** After a room for (a, b) is created, asking for (b, a) is refused as a duplicate. */
  lemma ReversedCreateRefused(s: Store, a: Id, b: Id)
    requires Create(s, a, b).1.Respond?
    ensures var s' := Create(s, a, b).0;
      Create(s', b, a) == (s', Error(AppError(DuplicateRoomMessage, StatusConflict)))
  {
    var (s', r) := Create(s, a, b);
    assert r.data in s'.rooms && ChatRoomsRepo.Joins(r.data, b, a);
    assert UserExists(s', a) by {
      assert FindUser(s', a) == FindUser(s, a);
    }
  }

  /**
   * `delete`: 404 for a missing room, 403 for a caller outside it, else the
   * room's messages and then the room are deleted in one transaction.
   */
  function Delete(s: Store, id: Id, user: Id): (r: (Store, Response<Option<ChatRoom>>))
    ensures ChatRoomsRepo.GetById(s, id).None? ==> r == (s, Fail("Chat room not found", StatusNotFound))
    ensures ChatRoomsRepo.GetById(s, id).Some? && !ChatRoomsRepo.HasMember(ChatRoomsRepo.GetById(s, id).value, user)
      ==> r == (s, Fail("Unauthorized access to chat room", StatusForbidden))
    ensures r.1.Respond? ==> (
      && r.1.status == StatusOk && r.1.data.Some? && r.1.data.value.id == id
      && ChatRoomsRepo.HasMember(r.1.data.value, user)
      && r.0 == s.(messages := r.0.messages, rooms := r.0.rooms)
      && (forall m :: m in r.0.messages <==> m in s.messages && m.chatRoom != id)
      && multiset(r.0.rooms) + multiset{r.1.data.value} == multiset(s.rooms))
    ensures r.1.Error? ==> r.0 == s
  {
    match ChatRoomsRepo.GetById(s, id)
    case None => (s, Fail("Chat room not found", StatusNotFound))
    case Some(c) =>
      if !ChatRoomsRepo.HasMember(c, user) then (s, Fail("Unauthorized access to chat room", StatusForbidden))
      else
        var s1 := MessagesRepo.DeleteAllByRoomId(s, id);
        var (s2, deleted) := ChatRoomsRepo.DeleteTransaction(s1, id);
        assert s1.rooms == s.rooms;
        assert c in s1.rooms;
        (s2, Respond(StatusOk, deleted))
  }
}

=== FILE: chat_rooms_repo.dfy ===
/** Chat-room queries and updates (repos/chatRooms.repo.js). */
module ChatRoomsRepo {
  import opened Wrappers
  import opened Documents
  import Mongo
  import Seqs
  import ChatRoomModel

  /** `user` is one of the room's two participants (the `$or` on `user1` and `user2`). */
  predicate HasMember(c: ChatRoom, user: Id) { c.user1 == user || c.user2 == user }

  /** The room joins `a` and `b`, in either order. */
  predicate Joins(c: ChatRoom, a: Id, b: Id) {
    (c.user1 == a && c.user2 == b) || (c.user1 == b && c.user2 == a)
  }

  /** The rooms `user` belongs to, newest first. */
  function Newest(s: Store, user: Id): (r: seq<ChatRoom>)
    ensures Seqs.SortedDesc(r, RoomCreated)
    ensures forall c :: c in r <==> c in s.rooms && HasMember(c, user)
  {
    var mine := Seqs.Filter(s.rooms, (c: ChatRoom) => HasMember(c, user));
    var r := Seqs.SortDesc(mine, RoomCreated);
    Seqs.SameElements(r, mine);
    r
  }

  /** `getAll`: the rooms `user` belongs to, newest first, then the cursor page. */
  function GetAll(s: Store, user: Id, limit: int, skip: int): (r: Result<seq<ChatRoom>, Mongo.DbError>)
    ensures r.Err? <==> skip < 0
    ensures r.Ok? ==> forall c :: c in r.value ==> c in s.rooms && HasMember(c, user)
    ensures r.Ok? ==> Seqs.SortedDesc(r.value, RoomCreated)
    ensures r.Ok? && skip == 0 && limit == 0 ==>
      forall c :: c in r.value <==> c in s.rooms && HasMember(c, user)
    ensures r.Ok? ==> Mongo.IsPage(Newest(s, user), limit, skip, r.value)
  {
    var sorted := Newest(s, user);
    var r := Mongo.CursorPage(sorted, limit, skip);
    if r.Ok? then
      Mongo.SortedPage(sorted, RoomCreated, limit, skip);
      r
    else r
  }

  /** Paging through a user's rooms meets every one: the `i`-th newest sits at place `i % limit` of the page at skip `(i / limit) * limit`. */
  lemma EveryRoomOnItsPage(s: Store, user: Id, limit: int, i: int)
    requires limit > 0 && 0 <= i < |Newest(s, user)|
    ensures var page := GetAll(s, user, limit, (i / limit) * limit);
      && page.Ok? && i % limit < |page.value|
      && page.value[i % limit] == Newest(s, user)[i]
  {
    var skip := (i / limit) * limit;
    Mongo.PageStartNonNegative(limit, i);
    var page := GetAll(s, user, limit, skip);
    assert page.Ok?;
    Mongo.PlaceOnPage(Newest(s, user), limit, i, page.value);
  }

  /** `getById` and `getByIdTransaction`: `findById`, the participants as ids. */
  function GetById(s: Store, id: Id): (r: Option<ChatRoom>)
    ensures r.Some? ==> r.value in s.rooms && r.value.id == id
    ensures r.None? <==> forall c :: c in s.rooms ==> c.id != id
  {
    FindRoom(s, id)
  }

  /** `isExistsByUserRefs`: whether a room joins the two users, in either order. */
  function IsExistsByUserRefs(s: Store, a: Id, b: Id): (r: bool)
    ensures r <==> exists c :: c in s.rooms && Joins(c, a, b)
  {
    match Seqs.Find(s.rooms, (c: ChatRoom) => Joins(c, a, b))
    case Some(c) => assert c in s.rooms && Joins(c, a, b); true
    case None => false
  }

  /** The order of the two users does not matter. */
  lemma IsExistsSymmetric(s: Store, a: Id, b: Id)
    ensures IsExistsByUserRefs(s, a, b) == IsExistsByUserRefs(s, b, a)
  {
    if IsExistsByUserRefs(s, a, b) {
      var c :| c in s.rooms && Joins(c, a, b);
      assert Joins(c, b, a);
    }
    if IsExistsByUserRefs(s, b, a) {
      var c :| c in s.rooms && Joins(c, b, a);
      assert Joins(c, a, b);
    }
  }

  /**
   * `create`: save a room with `user1 = a` and `user2 = b`. As written the
   * model's validators do not refuse `a == b`; the endpoint does that before
   * it calls here.
   */
  function Create(s: Store, a: Id, b: Id): (r: Result<(Store, ChatRoom), Mongo.DbError>)
    ensures r.Ok? <==> (UserExists(s, a) && UserExists(s, b)
      && ChatRoomModel.IndexesAdmit(s.rooms, ChatRoom(s.clock, a, b, s.clock)))
    ensures !UserExists(s, a) || !UserExists(s, b) ==> r.Err? && r.error.ValidationFailed?
    ensures r.Ok? ==> var (s', c) := r.value;
      && s' == s.(rooms := s.rooms + [c], clock := s.clock + 1)
      && c == ChatRoom(s.clock, a, b, s.clock)
  {
    ChatRoomModel.Save(s, ChatRoomModel.ChatRoomDraft(Some(a), Some(b)))
  }

  /** `create` over the intended validators: a self-pair is refused as well. */
  function CreateIntended(s: Store, a: Id, b: Id): (r: Result<(Store, ChatRoom), Mongo.DbError>)
    ensures r.Ok? <==> (UserExists(s, a) && UserExists(s, b) && a != b
      && ChatRoomModel.IndexesAdmit(s.rooms, ChatRoom(s.clock, a, b, s.clock)))
    ensures !UserExists(s, a) || !UserExists(s, b) || a == b ==> r.Err? && r.error.ValidationFailed?
    ensures r.Ok? ==> var (s', c) := r.value;
      && s' == s.(rooms := s.rooms + [c], clock := s.clock + 1)
      && c == ChatRoom(s.clock, a, b, s.clock)
  {
    ChatRoomModel.SaveIntended(s, ChatRoomModel.ChatRoomDraft(Some(a), Some(b)))
  }

  /** The two agree on every pair of distinct users. */
  lemma CreatesAgreeOnDistinctUsers(s: Store, a: Id, b: Id)
    requires a != b
    ensures Create(s, a, b) == CreateIntended(s, a, b)
  {
  }

  /** `deleteTransaction`: `findOneAndDelete({ _id: id })`. */
  function DeleteTransaction(s: Store, id: Id): (r: (Store, Option<ChatRoom>))
    ensures r.1.None? <==> forall c :: c in s.rooms ==> c.id != id
    ensures r.1.None? ==> r.0 == s
    ensures r.1.Some? ==> (
      && r.1.value in s.rooms && r.1.value.id == id
      && r.0 == s.(rooms := r.0.rooms)
      && multiset(r.0.rooms) + multiset{r.1.value} == multiset(s.rooms))
  {
    match Seqs.FirstIndex(s.rooms, (c: ChatRoom) => c.id == id)
    case None => (s, None)
    case Some(i) => (s.(rooms := Seqs.RemoveAt(s.rooms, i)), Some(s.rooms[i]))
  }

  /** Room ids are unique. */
  ghost predicate UniqueRoomIds(rooms: seq<ChatRoom>) {
    forall i, j :: 0 <= i < j < |rooms| ==> rooms[i].id != rooms[j].id
  }

  /** With unique ids, the deleted room is gone for good and every other room stays. */
  lemma DeleteRemovesRoom(s: Store, id: Id)
    requires UniqueRoomIds(s.rooms)
    ensures GetById(DeleteTransaction(s, id).0, id).None?
    ensures forall c :: c in s.rooms && c.id != id ==> c in DeleteTransaction(s, id).0.rooms
  {
    match Seqs.FirstIndex(s.rooms, (c: ChatRoom) => c.id == id)
    case None =>
    case Some(i) =>
      var r := Seqs.RemoveAt(s.rooms, i);
      forall c | c in r ensures c.id != id {
        var k :| 0 <= k < |r| && r[k] == c;
        if k < i { assert r[k] == s.rooms[k]; } else { assert r[k] == s.rooms[k + 1]; }
      }
      forall c | c in s.rooms && c.id != id ensures c in r {
        var k :| 0 <= k < |s.rooms| && s.rooms[k] == c;
        if k < i { assert r[k] == c; } else { assert k != i; assert r[k - 1] == c; }
      }
  }
}

=== FILE: chat_socket.dfy ===
/** The `/chat` socket namespace: joining a room and posting to it (socket-handlers/chat.js). */
module ChatSocket {
  import opened Wrappers
  import opened Documents
  import ChatRoomsRepo
  import MessageModel
  import MessagesRepo
  import Seqs

  /**
   * What a connection handler does with the socket. The reason of a
   * disconnection is the thrown error, which only the server logs; the
   * client sees the socket closed without it.
   */
  datatype Connection = Joined(channel: Id) | Disconnected(reason: string)

  /** `handleConnection`: the caller joins the room's channel only when the room exists and they belong to it. */
  function HandleConnection(s: Store, room: Id, user: Id): (r: Connection)
    ensures r.Joined? ==> r.channel == room && exists c :: c in s.rooms && c.id == room && ChatRoomsRepo.HasMember(c, user)
    ensures r.Joined? <==> FindRoom(s, room).Some? && ChatRoomsRepo.HasMember(FindRoom(s, room).value, user)
    ensures FindRoom(s, room).None? ==> r == Disconnected("Chat room not found")
    ensures FindRoom(s, room).Some? && !ChatRoomsRepo.HasMember(FindRoom(s, room).value, user) ==>
      r == Disconnected("User not authorized")
  {
    match FindRoom(s, room)
    case None => Disconnected("Chat room not found")
    case Some(c) =>
      if !ChatRoomsRepo.HasMember(c, user) then Disconnected("User not authorized")
      else Joined(room)
  }

  /** A `message` event: the target room, the text and the claimed sender. */
  datatype MessagePayload = MessagePayload(chatRoom: Id, content: Option<string>, sender: Id)

  /** What a posting produces: the saved message broadcast on the room's channel, or nothing. */
  datatype Broadcast = Emitted(channel: Id, message: Message) | Dropped

  /**
   * `handleMessage`. `roomSize` is the number of sockets joined to the
   * channel, `None` when no socket is currently joined (the server forgets an empty
   * channel), where reading `.size` throws and
   * nothing is saved. The message is seen exactly when two sockets are in the
   * channel. The sender is the payload's and is not checked against the
   * connection's user or the room's members.
   */
  function HandleMessage(s: Store, payload: MessagePayload, roomSize: Option<nat>): (r: (Store, Broadcast))
    ensures roomSize.None? ==> r == (s, Dropped)
    ensures r.1.Dropped? ==> r.0 == s
    ensures r.1.Emitted? <==> (
      && roomSize.Some? && RoomExists(s, payload.chatRoom) && UserExists(s, payload.sender)
      && payload.content.Some? && payload.content.value != "")
    ensures r.1.Emitted? ==> (
      && r.1.channel == payload.chatRoom
      && r.1.message == Message(s.clock, payload.chatRoom, payload.sender, payload.content.value, roomSize.value == 2, s.clock)
      && r.0 == s.(messages := s.messages + [r.1.message], clock := s.clock + 1))
  {
    match roomSize
    case None => (s, Dropped)
    case Some(size) =>
      var draft := MessageModel.MessageDraft(Some(payload.chatRoom), payload.content, Some(payload.sender), Some(size == 2));
      match MessageModel.Save(s, draft)
      case Err(_) => (s, Dropped)
      case Ok((s', m)) => (s', Emitted(payload.chatRoom, m))
  }

  /** With both sockets in the channel the new message arrives seen, so no one's unseen count grows. */
  lemma WatchedMessageArrivesSeen(s: Store, payload: MessagePayload, user: Id)
    requires HandleMessage(s, payload, Some(2)).1.Emitted?
    ensures MessagesRepo.GetUnseenCount(HandleMessage(s, payload, Some(2)).0, payload.chatRoom, user)
         == MessagesRepo.GetUnseenCount(s, payload.chatRoom, user)
  {
    var (s', b) := HandleMessage(s, payload, Some(2));
    Seqs.FilterAppend(s.messages, [b.message], (m: Message) => MessagesRepo.UnseenBy(payload.chatRoom, user, m));
  }

  /** Any existing user can post to any existing room, member or not. */
  lemma NonMemberCanPost(s: Store, c: ChatRoom, outsider: Id, text: string)
    requires c in s.rooms && UserExists(s, outsider) && !ChatRoomsRepo.HasMember(c, outsider) && text != ""
    ensures HandleMessage(s, MessagePayload(c.id, Some(text), outsider), Some(1)).1.Emitted?
  {
    assert RoomExists(s, c.id) by {
      assert FindRoom(s, c.id).None? ==> c.id != c.id;
    }
  }
}

=== FILE: documents.dfy ===
/**
 * The document store: one sequence per collection, in insertion order, and a
 * clock that mints ids and creation times (the `timestamps` option).
 */
module Documents {
  import opened Wrappers
  import Seqs

  type Id = int

  datatype Address = Address(country: string, city: string, street: string, houseNumber: string)

  datatype User = User(
    id: Id, firstName: string, lastName: string, phone: string, email: string,
    password: string, image: Option<string>, address: Option<Address>)

  datatype Auction = Auction(
    id: Id, name: string, initialPrice: real, maxPrice: real, quantity: real,
    description: string, tags: seq<string>, images: seq<string>,
    startDate: int, endDate: int, seller: Id, createdAt: int)

  datatype Bid = Bid(id: Id, auction: Id, buyer: Id, price: real, createdAt: int)

  datatype ChatRoom = ChatRoom(id: Id, user1: Id, user2: Id, createdAt: int)

  datatype Message = Message(id: Id, chatRoom: Id, sender: Id, content: string, seen: bool, createdAt: int)

  datatype Store = Store(
    users: seq<User>, auctions: seq<Auction>, bids: seq<Bid>,
    rooms: seq<ChatRoom>, messages: seq<Message>, clock: int)

  /** `User.findById`. */
  function FindUser(s: Store, id: Id): (r: Option<User>)
    ensures r.Some? ==> r.value in s.users && r.value.id == id
    ensures r.None? <==> forall u :: u in s.users ==> u.id != id
  {
    Seqs.Find(s.users, (u: User) => u.id == id)
  }

  /** `Auction.findById`. */
  function FindAuction(s: Store, id: Id): (r: Option<Auction>)
    ensures r.Some? ==> r.value in s.auctions && r.value.id == id
    ensures r.None? <==> forall a :: a in s.auctions ==> a.id != id
  {
    Seqs.Find(s.auctions, (a: Auction) => a.id == id)
  }

  /** `Bid.findById`. */
  function FindBid(s: Store, id: Id): (r: Option<Bid>)
    ensures r.Some? ==> r.value in s.bids && r.value.id == id
    ensures r.None? <==> forall b :: b in s.bids ==> b.id != id
  {
    Seqs.Find(s.bids, (b: Bid) => b.id == id)
  }

  /** `ChatRoom.findById`. */
  function FindRoom(s: Store, id: Id): (r: Option<ChatRoom>)
    ensures r.Some? ==> r.value in s.rooms && r.value.id == id
    ensures r.None? <==> forall c :: c in s.rooms ==> c.id != id
  {
    Seqs.Find(s.rooms, (c: ChatRoom) => c.id == id)
  }

  /** Whether a reference resolves: the existence validators' `findById(value) !== null`. */
  predicate UserExists(s: Store, id: Id) { FindUser(s, id).Some? }
  predicate AuctionExists(s: Store, id: Id) { FindAuction(s, id).Some? }
  predicate RoomExists(s: Store, id: Id) { FindRoom(s, id).Some? }

  /** Creation-time sort keys for `sort({ createdAt: -1 })`. */
  function AuctionCreated(a: Auction): real { a.createdAt as real }
  function RoomCreated(c: ChatRoom): real { c.createdAt as real }
  function MessageCreated(m: Message): real { m.createdAt as real }

  /** Ids are unique within each collection and lie below the clock, so a freshly minted id is new. */
  ghost predicate Wf(s: Store) {
    && (forall i, j :: 0 <= i < j < |s.users| ==> s.users[i].id != s.users[j].id)
    && (forall i, j :: 0 <= i < j < |s.auctions| ==> s.auctions[i].id != s.auctions[j].id)
    && (forall i, j :: 0 <= i < j < |s.bids| ==> s.bids[i].id != s.bids[j].id)
    && (forall i, j :: 0 <= i < j < |s.rooms| ==> s.rooms[i].id != s.rooms[j].id)
    && (forall i, j :: 0 <= i < j < |s.messages| ==> s.messages[i].id != s.messages[j].id)
    && (forall u :: u in s.users ==> u.id < s.clock)
    && (forall a :: a in s.auctions ==> a.id < s.clock)
    && (forall b :: b in s.bids ==> b.id < s.clock)
    && (forall c :: c in s.rooms ==> c.id < s.clock)
    && (forall m :: m in s.messages ==> m.id < s.clock)
  }
}

=== FILE: http.dfy ===
/**
 * Status codes, the application error record and the response envelope
 * (utils/constants.js, utils/appError.js, utils/appResponse.js).
 */
module Http {
  import opened Wrappers

  const StatusOk: int := 200
  const StatusCreated: int := 201
  const StatusNoContent: int := 204
  const StatusBadRequest: int := 400
  const StatusUnauthorized: int := 401
  const StatusForbidden: int := 403
  const StatusNotFound: int := 404
  const StatusInternalServerError: int := 500

  /** The status a duplicate-resource refusal evidently meant to carry; it is not in the table below. */
  const StatusConflict: int := 409

  /** `HTTP_STATUS_CODES`, keyed by the property name the controllers read. */
  const StatusCodes: map<string, int> := map[
    "OK" := StatusOk,
    "CREATED" := StatusCreated,
    "NO_CONTENT" := StatusNoContent,
    "BAD_REQUEST" := StatusBadRequest,
    "UNAUTHORIZED" := StatusUnauthorized,
    "FORBIDDEN" := StatusForbidden,
    "NOT_FOUND" := StatusNotFound,
    "INTERNAL_SERVER_ERROR" := StatusInternalServerError
  ]

  /** Reading `HTTP_STATUS_CODES[name]`: `undefined` for a name the table lacks. */
  function StatusCode(name: string): Option<int> {
    if name in StatusCodes then Some(StatusCodes[name]) else None
  }

  /** An error passed to `next`: its message and status code. */
  datatype AppError = AppError(message: string, statusCode: int)

  /** `new AppError(message, statusCode)`: an undefined status code takes the default 500. */
  function NewAppError(message: string, statusCode: Option<int>): (e: AppError)
    ensures e.message == message
    ensures statusCode.Some? ==> e.statusCode == statusCode.value
    ensures statusCode.None? ==> e.statusCode == StatusInternalServerError
  {
    AppError(message, statusCode.GetOr(StatusInternalServerError))
  }

  /** What a handler produces: an error for the error middleware, or a status with a success envelope. */
  datatype Response<+T> = Error(error: AppError) | Respond(status: int, data: T) {

    /** The HTTP status the client receives. */
    function Status(): int {
      match this
      case Error(e) => e.statusCode
      case Respond(s, _) => s
    }
  }

  /** An error response with a status the table defines. */
  function Fail<T>(message: string, status: int): (r: Response<T>)
    ensures r.Error? && r.Status() == status && r.error.message == message
  {
    Error(AppError(message, status))
  }

  /** Every named code the controllers use is defined, and `CONFLICT` is not, so an error built with it carries 500. */
  lemma ConflictFallsBackTo500(message: string)
    ensures StatusCode("NOT_FOUND") == Some(404) && StatusCode("FORBIDDEN") == Some(403)
    ensures StatusCode("CONFLICT").None?
    ensures NewAppError(message, StatusCode("CONFLICT")).statusCode == 500
  {
    assert "CONFLICT" !in StatusCodes;
  }
}

=== FILE: joi.dfy ===
/**
 * The parts of the request-body validator the schemas rely on: fields that
 * may be absent or of the wrong type, the default messages, and reporting the
 * first error in schema key order (validation stops at the first one).
 */
module Joi {
  import opened Wrappers
  import Seqs

  /** A body field as a schema sees it: absent, present but not convertible to the field's type, or a value. */
  datatype Input<+T> = Missing | Malformed | Given(value: T)

  /** A decimal digit. */
  function DigitChar(d: nat): (c: char)
    requires d < 10
    ensures '0' <= c <= '9'
  {
    "0123456789"[d]
  }

  /** The decimal numeral of `n`, as in an array item's label. */
  function NatToString(n: nat): (r: string)
    ensures |r| > 0 && forall i :: 0 <= i < |r| ==> '0' <= r[i] <= '9'
  {
    if n < 10 then [DigitChar(n)] else NatToString(n / 10) + [DigitChar(n % 10)]
  }

  /** The label of item `i` of array `key`, such as `tags[1]`. */
  function ItemLabel(key: string, i: nat): string {
    key + "[" + NatToString(i) + "]"
  }

  /** The default `string.empty` message, used where a schema gives none. */
  function EmptyMessage(path: string): string {
    "\"" + path + "\" is not allowed to be empty"
  }

  /** The first error in `checks`, which are listed in schema key order. */
  function FirstError<E(!new)>(checks: seq<Option<E>>): (r: Option<E>)
    ensures r.None? <==> forall i :: 0 <= i < |checks| ==> checks[i].None?
    ensures r.Some? ==> exists i :: 0 <= i < |checks| && FirstFailing(checks, i) && checks[i] == r
  {
    match Seqs.FirstIndex(checks, (c: Option<E>) => c.Some?)
    case None =>
      assert forall i :: 0 <= i < |checks| ==> checks[i] in checks;
      None
    case Some(i) =>
      assert FirstFailing(checks, i);
      checks[i]
  }

  /** Check `i` fails and every earlier one passes. */
  ghost predicate FirstFailing<E>(checks: seq<Option<E>>, i: int) {
    0 <= i < |checks| && checks[i].Some? && forall j :: 0 <= j < i ==> checks[j].None?
  }

  /** A failing check decides the message when every earlier one passes. */
  lemma FirstErrorIs<E(!new)>(checks: seq<Option<E>>, i: nat)
    requires i < |checks| && checks[i].Some? && forall j :: 0 <= j < i ==> checks[j].None?
    ensures FirstError(checks) == checks[i]
  {
    var r := FirstError(checks);
    assert r.Some? by {
      assert checks[i].Some?;
    }
    var k :| 0 <= k < |checks| && FirstFailing(checks, k) && checks[k] == r;
    assert k == i;
  }

  /** Six checks pass together exactly when each one passes. */
  lemma NoErrorAmongSix<E(!new)>(checks: seq<Option<E>>)
    requires |checks| == 6
    ensures FirstError(checks).None? <==> (
      && checks[0].None? && checks[1].None? && checks[2].None?
      && checks[3].None? && checks[4].None? && checks[5].None?)
  {
  }

  /** The first error among the items of an array, each checked by `check` with its index. */
  function ItemsError<T, E(!new)>(items: seq<T>, check: (nat, T) -> Option<E>): (r: Option<E>)
    ensures r.None? <==> forall i :: 0 <= i < |items| ==> check(i, items[i]).None?
  {
    var checks := seq(|items|, i requires 0 <= i < |items| => check(i, items[i]));
    assert forall i :: 0 <= i < |items| ==> checks[i] == check(i, items[i]);
    FirstError(checks)
  }
}

=== FILE: login_schema.dfy ===
/** The login body schema (utils/validation/loginSchema.js): a required e-mail and a required password of 8 to 32 characters, both trimmed. */
module LoginSchema {
  import opened Wrappers
  import opened Joi
  import opened Strings
  import RegisterSchema

  datatype LoginBody = LoginBody(email: Input<string>, password: Input<string>)

  /** The trimmed credentials. */
  datatype Credentials = Credentials(email: string, password: string)

  /** The outcome of each key's rules, e-mail first. */
  function Checks(b: LoginBody, isEmail: string -> bool): (c: seq<Option<RegisterSchema.Failure>>)
    ensures |c| == 2
  {
    [ RegisterSchema.FieldError(RegisterSchema.Email, b.email, true, isEmail),
      RegisterSchema.FieldError(RegisterSchema.Password, b.password, true, isEmail) ]
  }

  /** `validateAsync(body)`: the trimmed credentials, or the first failure. */
  function Validate(b: LoginBody, isEmail: string -> bool): (r: Result<Credentials, RegisterSchema.Failure>)
    ensures r.Err? ==> Some(r.error) == FirstError(Checks(b, isEmail))
    ensures r.Ok? <==> (
      && b.email.Given? && RegisterSchema.Acceptable(RegisterSchema.Email, Trim(b.email.value), isEmail)
      && b.password.Given? && RegisterSchema.Acceptable(RegisterSchema.Password, Trim(b.password.value), isEmail))
    ensures r.Ok? ==> r.value == Credentials(Trim(b.email.value), Trim(b.password.value))
  {
    var c := Checks(b, isEmail);
    RegisterSchema.FieldAccepted(RegisterSchema.Email, b.email, true, isEmail);
    RegisterSchema.FieldAccepted(RegisterSchema.Password, b.password, true, isEmail);
    match FirstError(c)
    case Some(f) => Err(f)
    case None =>
      assert c[0].None? && c[1].None?;
      Ok(Credentials(Trim(b.email.value), Trim(b.password.value)))
  }

  /**
   * The password's length is judged after trimming, in UTF-16 code units, so
   * padding never helps a short password through.
   */
  lemma PasswordLengthAfterTrim(b: LoginBody, isEmail: string -> bool)
    requires Validate(b, isEmail).Ok?
    ensures 8 <= Utf16Length(Trim(b.password.value)) <= 32
    ensures 4 <= |Trim(b.password.value)| <= 32
  {
  }

  /** A missing e-mail is reported before the password. */
  lemma EmailReportedFirst(b: LoginBody, isEmail: string -> bool)
    requires b.email.Missing?
    ensures Validate(b, isEmail) == Err(RegisterSchema.Required(RegisterSchema.Email))
  {
    FirstErrorIs(Checks(b, isEmail), 0);
  }

  /** A password of eight no-break spaces trims to nothing and is refused, whatever the e-mail. */
  lemma NoBreakSpacesRefused(b: LoginBody, isEmail: string -> bool)
    requires b.password == Given("\U{00A0}\U{00A0}\U{00A0}\U{00A0}\U{00A0}\U{00A0}\U{00A0}\U{00A0}")
    ensures Trim(b.password.value) == ""
    ensures Validate(b, isEmail).Err?
  {
    var p := b.password.value;
    assert forall k :: 0 <= k < |p| ==> IsSpace(p[k]);
    TrimAllSpace(p);
  }
}

=== FILE: message_model.dfy ===
/** The message schema: an existing room and sender, content, and `seen` defaulting to false (models/message.model.js). */
module MessageModel {
  import opened Wrappers
  import opened Documents
  import Mongo

  /** A message document before it is saved. */
  datatype MessageDraft = MessageDraft(chatRoom: Option<Id>, content: Option<string>, sender: Option<Id>, seen: Option<bool>)

  /** The paths whose validators reject the draft; membership of the sender in the room is not one of them. */
  function Violations(s: Store, d: MessageDraft): (v: seq<string>)
    ensures "chatRoom" in v <==> d.chatRoom.None? || !RoomExists(s, d.chatRoom.value)
    ensures "content" in v <==> d.content.None? || d.content.value == ""
    ensures "sender" in v <==> d.sender.None? || !UserExists(s, d.sender.value)
    ensures |v| == 0 <==> (
      && d.chatRoom.Some? && RoomExists(s, d.chatRoom.value)
      && d.content.Some? && d.content.value != ""
      && d.sender.Some? && UserExists(s, d.sender.value))
  {
    (if d.chatRoom.Some? && RoomExists(s, d.chatRoom.value) then [] else ["chatRoom"])
    + (if d.content.Some? && d.content.value != "" then [] else ["content"])
    + (if d.sender.Some? && UserExists(s, d.sender.value) then [] else ["sender"])
  }

  /** `new Message(draft).save()`: validation, then the insert with a fresh id; `seen` falls back to false. */
  function Save(s: Store, d: MessageDraft): (r: Result<(Store, Message), Mongo.DbError>)
    ensures |Violations(s, d)| > 0 <==> r.Err?
    ensures r.Err? ==> r.error == Mongo.ValidationFailed(Violations(s, d))
    ensures r.Ok? ==> var (s', m) := r.value;
      && s' == s.(messages := s.messages + [m], clock := s.clock + 1)
      && m.id == s.clock && m.createdAt == s.clock
      && Some(m.chatRoom) == d.chatRoom && Some(m.sender) == d.sender && Some(m.content) == d.content
      && (d.seen.None? ==> !m.seen) && (d.seen.Some? ==> m.seen == d.seen.value)
  {
    var v := Violations(s, d);
    if |v| > 0 then Err(Mongo.ValidationFailed(v))
    else
      var m := Message(s.clock, d.chatRoom.value, d.sender.value, d.content.value, d.seen.GetOr(false), s.clock);
      Ok((s.(messages := s.messages + [m], clock := s.clock + 1), m))
  }
}

=== FILE: messages_controller.dfy ===
/** The message endpoints of a chat room (controllers/messages.controller.js). */
module MessagesController {
  import opened Wrappers
  import opened Documents
  import opened Http
  import Mongo
  import Seqs
  import Paginate
  import ChatRoomsRepo
  import MessagesRepo

  /** The `{ messages, totalMessages, totalPages }` payload. */
  datatype MessagesPage = MessagesPage(messages: seq<Message>, totalMessages: nat, totalPages: Option<int>)

  /**
   * `getAll`: 404 for a missing room, 403 for a caller outside it; otherwise
   * the caller's incoming messages are marked seen first, and then the page
   * and the counts are read. The marking stays even when the page query fails.
   */
  function GetAll(s: Store, query: map<string, int>, room: Id, user: Id): (r: (Store, Response<MessagesPage>))
    ensures ChatRoomsRepo.GetById(s, room).None? ==> r == (s, Fail("Chat room not found", StatusNotFound))
    ensures ChatRoomsRepo.GetById(s, room).Some? && !ChatRoomsRepo.HasMember(ChatRoomsRepo.GetById(s, room).value, user)
      ==> r == (s, Fail("Unauthorized access to chat room", StatusForbidden))
    ensures ChatRoomsRepo.GetById(s, room).Some? && ChatRoomsRepo.HasMember(ChatRoomsRepo.GetById(s, room).value, user)
      ==> r.0 == MessagesRepo.MarkAsSeen(s, room, user) && MessagesRepo.GetUnseenCount(r.0, room, user) == 0
    ensures r.1.Respond? <==>
      && ChatRoomsRepo.GetById(s, room).Some? && ChatRoomsRepo.HasMember(ChatRoomsRepo.GetById(s, room).value, user)
      && Paginate.Paginate(query).skip >= 0
    ensures r.1.Respond? ==> (
      && r.1.status == StatusOk
      && (forall m :: m in r.1.data.messages ==> m.chatRoom == room && m in r.0.messages)
      && Seqs.SortedDesc(r.1.data.messages, MessageCreated)
      && r.1.data.totalMessages == MessagesRepo.RoomSize(s, room)
      && r.1.data.totalPages == MessagesRepo.CeilDiv(MessagesRepo.RoomSize(s, room), Paginate.Paginate(query).limit))
    ensures r.1.Respond? ==>
      Mongo.IsPage(MessagesRepo.Newest(r.0, room), Paginate.Paginate(query).limit, Paginate.Paginate(query).skip, r.1.data.messages)
  {
    var p := Paginate.Paginate(query);
    match ChatRoomsRepo.GetById(s, room)
    case None => (s, Fail("Chat room not found", StatusNotFound))
    case Some(c) =>
      if !ChatRoomsRepo.HasMember(c, user) then (s, Fail("Unauthorized access to chat room", StatusForbidden))
      else
        var s1 := MessagesRepo.MarkAsSeen(s, room, user);
        match MessagesRepo.GetAll(s1, room, p.limit, p.skip)
        case Err(e) => (s1, Fail(Mongo.Describe(e), StatusInternalServerError))
        case Ok(page) =>
          var counts := MessagesRepo.GetPagesCount(s1, room, p.limit);
          MessagesRepo.MarkAsSeenKeepsRoomSize(s, room, user, room);
          (s1, Respond(StatusOk, MessagesPage(page, counts.totalMessages, counts.totalPages)))
  }

  /** `delete`: only the sender can delete a message; anyone else, or a wrong id, gets 404. */
  function Delete(s: Store, id: Id, user: Id): (r: (Store, Response<()>))
    ensures r.1.Respond? <==> exists m :: m in s.messages && m.id == id && m.sender == user
    ensures r.1.Error? ==> r == (s, Fail("Message not found or user does not have permission to delete it", StatusNotFound))
    ensures r.1.Respond? ==> r.1.status == StatusOk && r.0 == s.(messages := r.0.messages) && |r.0.messages| == |s.messages| - 1
    ensures r.1.Respond? ==> exists m :: (
      && m in s.messages && m.id == id && m.sender == user
      && multiset(r.0.messages) + multiset{m} == multiset(s.messages))
  {
    match MessagesRepo.Delete(s, id, user)
    case (_, None) => (s, Fail("Message not found or user does not have permission to delete it", StatusNotFound))
    case (s', Some(m)) =>
      assert |multiset(s'.messages)| + 1 == |multiset(s.messages)|;
      (s', Respond(StatusOk, ()))
  }
}

=== FILE: messages_repo.dfy ===
/** Message queries and updates of a chat room (repos/messages.repo.js). */
module MessagesRepo {
  import opened Wrappers
  import opened Documents
  import Mongo
  import Seqs
  import MessageModel

  /** The `{ chatRoom: room }` filter. */
  predicate InRoom(room: Id, m: Message) { m.chatRoom == room }

  /** The messages of `room` addressed to `user`: those someone else sent. */
  predicate AddressedTo(room: Id, user: Id, m: Message) { m.chatRoom == room && m.sender != user }

  /** The `{ chatRoom: room, seen: false, sender: { $ne: user } }` filter. */
  predicate UnseenBy(room: Id, user: Id, m: Message) { AddressedTo(room, user, m) && !m.seen }

  /** The room's messages, newest first. */
  function Newest(s: Store, room: Id): (r: seq<Message>)
    ensures Seqs.SortedDesc(r, MessageCreated)
    ensures forall m :: m in r <==> m in s.messages && m.chatRoom == room
  {
    var mine := Seqs.Filter(s.messages, (m: Message) => InRoom(room, m));
    var r := Seqs.SortDesc(mine, MessageCreated);
    Seqs.SameElements(r, mine);
    r
  }

  /** `getAll`: the room's messages newest first, then the cursor page. */
  function GetAll(s: Store, room: Id, limit: int, skip: int): (r: Result<seq<Message>, Mongo.DbError>)
    ensures r.Err? <==> skip < 0
    ensures r.Ok? ==> forall m :: m in r.value ==> m in s.messages && m.chatRoom == room
    ensures r.Ok? ==> Seqs.SortedDesc(r.value, MessageCreated)
    ensures r.Ok? && skip == 0 && limit == 0 ==>
      forall m :: m in r.value <==> m in s.messages && m.chatRoom == room
    ensures r.Ok? ==> Mongo.IsPage(Newest(s, room), limit, skip, r.value)
  {
    var sorted := Newest(s, room);
    var r := Mongo.CursorPage(sorted, limit, skip);
    if r.Ok? then
      Mongo.SortedPage(sorted, MessageCreated, limit, skip);
      r
    else r
  }

  /** `countDocuments({ chatRoom: room })`. */
  function RoomSize(s: Store, room: Id): nat {
    Seqs.Count(s.messages, (m: Message) => InRoom(room, m))
  }

  /**
   * `Math.ceil(total / limit)` as it reaches the client: division by 0 gives
   * `Infinity` or `NaN`, both serialised as `null`, here `None`.
   */
  function CeilDiv(total: nat, limit: int): (r: Option<int>)
    ensures r.None? <==> limit == 0
    ensures limit > 0 ==> r.Some? && (r.value - 1) * limit < total <= r.value * limit
    ensures limit < 0 ==> r.Some? && r.value * limit <= total < (r.value - 1) * limit
  {
    if limit == 0 then None
    else if limit > 0 then
      var q := (total + limit - 1) / limit;
      CeilDivBounds(total, limit, q);
      Some(q)
    else
      var q := total / -limit;
      assert q * -limit <= total < (q + 1) * -limit;
      Some(-q)
  }

  /** The Euclidean quotient rounded up brackets `total`. */
  lemma CeilDivBounds(total: nat, limit: int, q: int)
    requires limit > 0 && q == (total + limit - 1) / limit
    ensures (q - 1) * limit < total <= q * limit
  {
    var r := (total + limit - 1) % limit;
    assert q * limit + r == total + limit - 1;
    assert 0 <= r < limit;
  }

  /** The `{ totalMessages, totalPages }` record. */
  datatype PagesCount = PagesCount(totalMessages: nat, totalPages: Option<int>)

  /** `getPagesCount`: its `skip` argument plays no part. */
  function GetPagesCount(s: Store, room: Id, limit: int): (r: PagesCount)
    ensures r.totalMessages == RoomSize(s, room)
    ensures r.totalPages.None? <==> limit == 0
    ensures limit > 0 ==> (r.totalPages.value - 1) * limit < r.totalMessages <= r.totalPages.value * limit
  {
    var total := RoomSize(s, room);
    PagesCount(total, CeilDiv(total, limit))
  }

  /** With a positive limit, the `i`-th newest message of the room is on a page the count announces. */
  lemma PagesCoverRoom(s: Store, room: Id, limit: int, i: int)
    requires limit > 0 && 0 <= i < RoomSize(s, room)
    ensures var page := i / limit + 1;
      && page <= GetPagesCount(s, room, limit).totalPages.value
      && GetAll(s, room, limit, (page - 1) * limit).Ok?
      && i % limit < |GetAll(s, room, limit, (page - 1) * limit).value|
      && GetAll(s, room, limit, (page - 1) * limit).value[i % limit]
         == Newest(s, room)[i]
  {
    var sorted := Newest(s, room);
    PageWithinCount(RoomSize(s, room), limit, GetPagesCount(s, room, limit).totalPages.value, i);
    Mongo.EveryDocumentOnItsPage(sorted, limit, i);
  }

  /** Index `i` below `n` falls on page `i / limit + 1`, which is at most the page count. */
  lemma PageWithinCount(n: nat, limit: int, pages: int, i: int)
    requires limit > 0 && 0 <= i < n && (pages - 1) * limit < n <= pages * limit
    ensures i / limit + 1 <= pages
  {
    var q := i / limit;
    assert q * limit <= i;
  }

  /** `getUnseenCount`: how many of the room's messages to `user` are unseen. */
  function GetUnseenCount(s: Store, room: Id, user: Id): (n: nat)
    ensures n <= |s.messages|
    ensures n == 0 <==> forall m :: m in s.messages && AddressedTo(room, user, m) ==> m.seen
  {
    Seqs.Count(s.messages, (m: Message) => UnseenBy(room, user, m))
  }

  /** The messages with the room's messages to `user` flagged seen. */
  function MarkSeen(ms: seq<Message>, room: Id, user: Id): (r: seq<Message>)
    ensures |r| == |ms|
    ensures forall i :: 0 <= i < |ms| ==>
      r[i] == ms[i].(seen := ms[i].seen || AddressedTo(room, user, ms[i]))
  {
    if |ms| == 0 then []
    else [ms[0].(seen := ms[0].seen || AddressedTo(room, user, ms[0]))] + MarkSeen(ms[1..], room, user)
  }

  /** `markAsSeen`: `updateMany` with `$set: { seen: true }`; nothing but messages changes, and nothing is left unseen for `user`. */
  function MarkAsSeen(s: Store, room: Id, user: Id): (r: Store)
    ensures r == s.(messages := r.messages)
    ensures |r.messages| == |s.messages|
    ensures forall i :: 0 <= i < |s.messages| ==>
      r.messages[i].(seen := s.messages[i].seen) == s.messages[i]
    ensures forall i :: 0 <= i < |s.messages| ==>
      r.messages[i].seen == (s.messages[i].seen || AddressedTo(room, user, s.messages[i]))
    ensures GetUnseenCount(r, room, user) == 0
  {
    var r := s.(messages := MarkSeen(s.messages, room, user));
    assert forall m :: m in r.messages && AddressedTo(room, user, m) ==> m.seen by {
      forall m | m in r.messages && AddressedTo(room, user, m) ensures m.seen {
        var i :| 0 <= i < |r.messages| && r.messages[i] == m;
      }
    }
    r
  }

  /** Marking twice is marking once. */
  lemma {:induction false} MarkSeenIdempotent(ms: seq<Message>, room: Id, user: Id)
    ensures MarkSeen(MarkSeen(ms, room, user), room, user) == MarkSeen(ms, room, user)
  {
    if |ms| > 0 {
      MarkSeenIdempotent(ms[1..], room, user);
      assert MarkSeen(ms, room, user)[1..] == MarkSeen(ms[1..], room, user);
    }
  }

  /** `markAsSeen` is idempotent. */
  lemma MarkAsSeenIdempotent(s: Store, room: Id, user: Id)
    ensures MarkAsSeen(MarkAsSeen(s, room, user), room, user) == MarkAsSeen(s, room, user)
  {
    MarkSeenIdempotent(s.messages, room, user);
  }

  /** Marking changes no message's room, so the room's size stays. */
  lemma MarkSeenKeepsRoomSize(ms: seq<Message>, room: Id, marked: Id, user: Id)
    ensures Seqs.Count(MarkSeen(ms, marked, user), (m: Message) => InRoom(room, m))
         == Seqs.Count(ms, (m: Message) => InRoom(room, m))
  {
    var p := (m: Message) => InRoom(room, m);
    Seqs.CountPointwise(MarkSeen(ms, marked, user), p, ms, p);
  }

  /** Reading a room's history leaves every room's message count as it was. */
  lemma MarkAsSeenKeepsRoomSize(s: Store, marked: Id, user: Id, room: Id)
    ensures RoomSize(MarkAsSeen(s, marked, user), room) == RoomSize(s, room)
  {
    MarkSeenKeepsRoomSize(s.messages, room, marked, user);
  }

  /** Messages of a two-person room are sent by `a` or `b`. */
  predicate SentWithin(ms: seq<Message>, room: Id, a: Id, b: Id) {
    forall m :: m in ms && m.chatRoom == room ==> m.sender == a || m.sender == b
  }

  /** Marking the room for `reader` leaves the other participant's unseen count alone. */
  lemma MarkSeenKeepsOtherCount(ms: seq<Message>, room: Id, reader: Id, other: Id)
    requires reader != other && SentWithin(ms, room, reader, other)
    ensures Seqs.Count(MarkSeen(ms, room, reader), (m: Message) => UnseenBy(room, other, m))
         == Seqs.Count(ms, (m: Message) => UnseenBy(room, other, m))
  {
    var p := (m: Message) => UnseenBy(room, other, m);
    var r := MarkSeen(ms, room, reader);
    forall i | 0 <= i < |ms| ensures p(r[i]) == p(ms[i]) {
      assert ms[i] in ms;
    }
    Seqs.CountPointwise(r, p, ms, p);
  }

  /** In a two-person room, reading the history does not mark the other participant's incoming messages. */
  lemma MarkAsSeenKeepsOtherCount(s: Store, room: Id, reader: Id, other: Id)
    requires reader != other && SentWithin(s.messages, room, reader, other)
    ensures GetUnseenCount(MarkAsSeen(s, room, reader), room, other) == GetUnseenCount(s, room, other)
  {
    MarkSeenKeepsOtherCount(s.messages, room, reader, other);
  }

  /** `deleteAllByRoomIdTransaction`: `deleteMany({ chatRoom: room })`. */
  function DeleteAllByRoomId(s: Store, room: Id): (r: Store)
    ensures r == s.(messages := r.messages)
    ensures forall m :: m in r.messages <==> m in s.messages && m.chatRoom != room
    ensures multiset(r.messages) <= multiset(s.messages)
  {
    s.(messages := Seqs.Filter(s.messages, (m: Message) => !InRoom(room, m)))
  }

  /** After the room's messages are deleted the room reads as empty, with nothing unseen. */
  lemma DeletedRoomIsEmpty(s: Store, room: Id, user: Id)
    ensures RoomSize(DeleteAllByRoomId(s, room), room) == 0
    ensures GetUnseenCount(DeleteAllByRoomId(s, room), room, user) == 0
    ensures GetAll(DeleteAllByRoomId(s, room), room, 0, 0) == Ok([])
  {
  }

  /** `delete`: `findOneAndDelete({ _id: id, sender })`, the first match in natural order. */
  function Delete(s: Store, id: Id, sender: Id): (r: (Store, Option<Message>))
    ensures r.1.None? <==> forall m :: m in s.messages ==> !(m.id == id && m.sender == sender)
    ensures r.1.None? ==> r.0 == s
    ensures r.1.Some? ==> (
      && r.1.value in s.messages && r.1.value.id == id && r.1.value.sender == sender
      && r.0 == s.(messages := r.0.messages)
      && multiset(r.0.messages) + multiset{r.1.value} == multiset(s.messages))
  {
    match Seqs.FirstIndex(s.messages, (m: Message) => m.id == id && m.sender == sender)
    case None => (s, None)
    case Some(i) => (s.(messages := Seqs.RemoveAt(s.messages, i)), Some(s.messages[i]))
  }

  /** A message someone else sent is never deleted. */
  lemma DeleteKeepsOthersMessages(s: Store, id: Id, sender: Id, m: Message)
    requires m in s.messages && m.sender != sender
    ensures m in Delete(s, id, sender).0.messages
  {
    var (r, d) := Delete(s, id, sender);
    if d.Some? {
      assert m in multiset(s.messages);
      assert m != d.value;
      assert m in multiset(r.messages);
    }
  }

  /** `createAndRetrieve`: save the message, then read it back by id. */
  function CreateAndRetrieve(s: Store, room: Id, content: Option<string>, sender: Id, seen: bool)
    : (r: Result<(Store, Message), Mongo.DbError>)
    ensures r.Ok? <==> RoomExists(s, room) && UserExists(s, sender) && content.Some? && content.value != ""
    ensures r.Ok? ==> var (s', m) := r.value;
      && s' == s.(messages := s.messages + [m], clock := s.clock + 1)
      && m == Message(s.clock, room, sender, content.value, seen, s.clock)
  {
    MessageModel.Save(s, MessageModel.MessageDraft(Some(room), content, Some(sender), Some(seen)))
  }

  /** A new unseen message raises the recipient's unseen count by one, and the sender's not at all. */
  lemma CreateRaisesUnseenCount(s: Store, room: Id, content: Option<string>, sender: Id, user: Id)
    requires CreateAndRetrieve(s, room, content, sender, false).Ok?
    ensures var s' := CreateAndRetrieve(s, room, content, sender, false).value.0;
      GetUnseenCount(s', room, user) == GetUnseenCount(s, room, user) + (if user != sender then 1 else 0)
  {
    var (s', m) := CreateAndRetrieve(s, room, content, sender, false).value;
    Seqs.FilterAppend(s.messages, [m], (x: Message) => UnseenBy(room, user, x));
  }
}

=== FILE: mongo.dfy ===
/** How the document store answers the query shapes the repositories use. */
module Mongo {
  import opened Wrappers
  import Seqs

  /** Why a repository call throws. */
  datatype DbError =
    | NegativeSkip                            // `skip` below 0
    | NonPositiveLimit                        // a `$limit` stage of 0 or less
    | ValidationFailed(messages: seq<string>) // a schema validator rejected the document
    | DuplicateKey(index: string)             // a unique index rejected the document
    | SearchFailed                            // the text-search pipeline failed
    | CastFailed(path: string)                // a filter value could not be cast to the path's type

  /** The message of the thrown error, which the controllers pass on in a 500 response; the driver's exact wording is not modelled. */
  function Describe(e: DbError): string {
    match e
    case NegativeSkip => "skip must be non-negative"
    case NonPositiveLimit => "the limit must be positive"
    case ValidationFailed(_) => "validation failed"
    case DuplicateKey(_) => "duplicate key"
    case SearchFailed => "Failed to execute search query"
    case CastFailed(path) => "cast failed for path " + path
  }

  /** The path names reported by a validation error, in schema order. */
  function PathNames<P>(paths: seq<P>, key: P -> string): (names: seq<string>)
    ensures |names| == |paths|
  {
    seq(|paths|, i requires 0 <= i < |paths| => key(paths[i]))
  }

  function Abs(x: int): nat { if x < 0 then -x else x }

  function Min(a: int, b: int): int { if a < b then a else b }

  function Max(a: int, b: int): int { if a < b then b else a }

  /**
   * `page` is the run of `xs` that starts at `skip` and holds `limit`
   * documents, all the rest when `limit` is 0, and `|limit|` when it is
   * negative, cut short where `xs` ends.
   */
  ghost predicate IsPage<T>(xs: seq<T>, limit: int, skip: int, page: seq<T>) {
    && 0 <= skip
    && |page| == (if skip >= |xs| then 0 else if limit == 0 then |xs| - skip else Min(Abs(limit), |xs| - skip))
    && forall i :: 0 <= i < |page| ==> page[i] == xs[skip + i]
  }

  /**
   * A find cursor with `.limit(limit)` and `.skip(skip)`: the server skips
   * first and limits second, whatever order the calls were chained in. A
   * negative skip is rejected; a limit of 0 means no limit, and a negative
   * limit returns at most its absolute value.
   */
  function CursorPage<T>(xs: seq<T>, limit: int, skip: int): (r: Result<seq<T>, DbError>)
    ensures r.Err? <==> skip < 0
    ensures r.Ok? ==> IsPage(xs, limit, skip, r.value)
  {
    if skip < 0 then Err(NegativeSkip)
    else if skip >= |xs| then Ok([])
    else
      var rest := xs[skip..];
      if limit == 0 || Abs(limit) >= |rest| then Ok(rest) else Ok(rest[..Abs(limit)])
  }

  /** A page of a descending sequence holds only its elements, stays descending, and is the whole sequence without skip or limit. */
  lemma SortedPage<T>(sorted: seq<T>, key: T -> real, limit: int, skip: int)
    requires Seqs.SortedDesc(sorted, key) && skip >= 0
    ensures var page := CursorPage(sorted, limit, skip).value;
      && (forall x :: x in page ==> x in sorted)
      && Seqs.SortedDesc(page, key)
      && (skip == 0 && limit == 0 ==> page == sorted)
  {
    var page := CursorPage(sorted, limit, skip).value;
    assert forall i :: 0 <= i < |page| ==> page[i] == sorted[skip + i];
  }

  /** Page `k` of size `limit` (counting from 0) starts where page `k - 1` ended, so the `i`-th document is on page `i / limit`. */
  lemma EveryDocumentOnItsPage<T>(xs: seq<T>, limit: int, i: int)
    requires limit > 0 && 0 <= i < |xs|
    ensures var p := CursorPage(xs, limit, (i / limit) * limit);
      p.Ok? && i % limit < |p.value| && p.value[i % limit] == xs[i]
  {
    var skip := (i / limit) * limit;
    assert i == skip + i % limit;
    assert 0 <= i % limit < limit;
  }

  /** The page that holds the `i`-th document starts at a skip Mongo accepts. */
  lemma PageStartNonNegative(limit: int, i: int)
    requires limit > 0 && 0 <= i
    ensures 0 <= (i / limit) * limit <= i
  {
  }

  /** Any page at skip `(i / limit) * limit` holds the `i`-th document at place `i % limit`. */
  lemma PlaceOnPage<T>(xs: seq<T>, limit: int, i: int, page: seq<T>)
    requires limit > 0 && 0 <= i < |xs| && IsPage(xs, limit, (i / limit) * limit, page)
    ensures i % limit < |page| && page[i % limit] == xs[i]
  {
    var skip := (i / limit) * limit;
    assert i == skip + i % limit;
    assert 0 <= i % limit < limit;
  }

  /** Two adjacent pages of size `limit` together are the page of size `2 * limit` at the first one's skip. */
  lemma AdjacentPages<T>(xs: seq<T>, limit: int, skip: int)
    requires limit > 0 && skip >= 0
    ensures CursorPage(xs, limit, skip).Ok? && CursorPage(xs, limit, skip + limit).Ok?
    ensures CursorPage(xs, limit, skip).value + CursorPage(xs, limit, skip + limit).value
            == CursorPage(xs, 2 * limit, skip).value
  {
    var a := CursorPage(xs, limit, skip).value;
    var b := CursorPage(xs, limit, skip + limit).value;
    var c := CursorPage(xs, 2 * limit, skip).value;
    assert |a| + |b| == |c|;
    forall k | 0 <= k < |c| ensures (a + b)[k] == c[k] {
      if k >= |a| {
        assert |a| == limit;
      }
    }
  }

  /**
   * An aggregation pipeline ending in `{ $limit: limit }, { $skip: skip }`:
   * the stages run in the order written, so at most `limit` documents reach
   * the skip stage. `$limit` must be positive and `$skip` non-negative.
   */
  function LimitThenSkip<T>(xs: seq<T>, limit: int, skip: int): (r: Result<seq<T>, DbError>)
    ensures r.Err? <==> limit <= 0 || skip < 0
    ensures r.Ok? ==> |r.value| == Max(0, Min(limit, |xs|) - skip)
    ensures r.Ok? ==> forall i :: 0 <= i < |r.value| ==> r.value[i] == xs[skip + i]
  {
    if limit <= 0 then Err(NonPositiveLimit)
    else if skip < 0 then Err(NegativeSkip)
    else
      var kept := xs[..Min(limit, |xs|)];
      if skip >= |kept| then Ok([]) else Ok(kept[skip..])
  }

  /** `{ $skip: skip }, { $limit: limit }`: the page of `limit` documents after the first `skip`. */
  function SkipThenLimit<T>(xs: seq<T>, limit: int, skip: int): (r: Result<seq<T>, DbError>)
    ensures r.Err? <==> limit <= 0 || skip < 0
    ensures r.Ok? ==> |r.value| == Min(limit, Max(0, |xs| - skip))
    ensures r.Ok? ==> forall i :: 0 <= i < |r.value| ==> r.value[i] == xs[skip + i]
  {
    if limit <= 0 then Err(NonPositiveLimit)
    else if skip < 0 then Err(NegativeSkip)
    else
      var rest := if skip >= |xs| then [] else xs[skip..];
      Ok(rest[..Min(limit, |rest|)])
  }

  /** With a positive limit, the skip-then-limit pipeline is exactly the find cursor's page. */
  lemma SkipThenLimitIsCursorPage<T>(xs: seq<T>, limit: int, skip: int)
    requires limit > 0 && skip >= 0
    ensures SkipThenLimit(xs, limit, skip) == CursorPage(xs, limit, skip)
  {
    var a := SkipThenLimit(xs, limit, skip).value;
    var b := CursorPage(xs, limit, skip).value;
    assert |a| == |b|;
    assert forall i :: 0 <= i < |a| ==> a[i] == b[i];
    assert a == b;
  }

  /** With a positive skip and enough documents, limiting first returns fewer than a full page, while skipping first returns one. */
  lemma LimitThenSkipLosesResults<T>(xs: seq<T>, limit: int, skip: int)
    requires 0 < skip && 0 < limit && limit + skip <= |xs|
    ensures |SkipThenLimit(xs, limit, skip).value| == limit
    ensures |LimitThenSkip(xs, limit, skip).value| == Max(0, limit - skip) < limit
  {
  }
}

=== FILE: paginate.dfy ===
/** Page arithmetic from the request query (utils/paginate.js). */
module Paginate {

  /** The `limit` and `skip` handed to the repositories. */
  datatype Pagination = Pagination(limit: int, skip: int)

  const DefaultLimit: int := 50
  const DefaultPage: int := 1

  /**
   * `paginate(req)`. `query` holds the numeric query-string values; a key is
   * missing when the parameter is absent or empty, the two cases in which
   * `||` falls back to its default (a non-empty string such as "0" is truthy
   * and is kept).
   */
  function Paginate(query: map<string, int>): (p: Pagination)
    ensures "limit" !in query ==> p.limit == DefaultLimit
    ensures "limit" in query ==> p.limit == query["limit"]
    ensures "page" !in query ==> p.skip == 0
    ensures "page" in query ==> p.skip + p.limit == query["page"] * p.limit
  {
    var limit := if "limit" in query then query["limit"] else DefaultLimit;
    var page := if "page" in query then query["page"] else DefaultPage;
    Pagination(limit, (page - 1) * limit)
  }

  /** A query that names a page is the same as one without a page plus that page. */
  function WithPage(query: map<string, int>, page: int): map<string, int> {
    query["page" := page]
  }

  /** For pages from 1 on and a non-negative limit, skip is a non-negative multiple of limit. */
  lemma SkipIsMultipleOfLimit(query: map<string, int>, page: int)
    requires page >= 1
    requires "limit" in query ==> query["limit"] >= 0
    ensures var p := Paginate(WithPage(query, page));
      p.skip >= 0 && p.skip == (page - 1) * p.limit
  {
    var p := Paginate(WithPage(query, page));
    assert p.limit >= 0;
    assert p.skip == (page - 1) * p.limit;
  }

  /** Consecutive pages start exactly `limit` apart, and page 1 starts at 0. */
  lemma ConsecutivePages(query: map<string, int>, page: int)
    ensures Paginate(WithPage(query, 1)).skip == 0
    ensures Paginate(WithPage(query, page + 1)).skip - Paginate(WithPage(query, page)).skip
            == Paginate(query).limit
  {
    var l := Paginate(query).limit;
    assert Paginate(WithPage(query, page + 1)).skip == page * l;
    assert Paginate(WithPage(query, page)).skip == (page - 1) * l;
    assert page * l - (page - 1) * l == l;
  }

  /** The result depends on the query only through its `limit` and `page` entries. */
  lemma OnlyLimitAndPageMatter(q1: map<string, int>, q2: map<string, int>)
    requires ("limit" in q1 <==> "limit" in q2) && ("limit" in q1 ==> q1["limit"] == q2["limit"])
    requires ("page" in q1 <==> "page" in q2) && ("page" in q1 ==> q1["page"] == q2["page"])
    ensures Paginate(q1) == Paginate(q2)
  {
  }
}

=== FILE: product_schema.dfy ===
/**
 * The product body schema (utils/validation/productSchema.js): the auction's
 * name, price, quantity and description rules, and at most three images.
 */
module ProductSchema {
  import opened Wrappers
  import opened Joi
  import opened Strings
  import AuctionSchema

  const MaxImages: nat := 3

  /** An item of the images array: a string, or a value of another type. */
  datatype Item = Text(value: string) | NotText

  datatype ProductBody = ProductBody(
    name: Input<string>, initialPrice: Input<real>, maxPrice: Input<real>, quantity: Input<real>,
    description: Input<string>, images: Input<seq<Item>>)

  /** Why a product body is refused; the rules it shares with the auction schema keep the auction's failures. */
  datatype Failure =
    | Shared(failure: AuctionSchema.Failure)
    | ImageNotString(index: nat) // `string.base` of an item, which has no custom message
    | TooManyImages              // `array.max`
  {
    function Message(): string {
      match this
      case Shared(f) => f.Message()
      case ImageNotString(i) => "\"" + ItemLabel("images", i) + "\" must be a string"
      case TooManyImages => "Maximum of 3 images allowed"
    }
  }

  /** Image `i`: a string that is not empty; no trimming. */
  function ItemError(i: nat, item: Item): (r: Option<Failure>)
    ensures r.None? <==> item.Text? && item.value != ""
  {
    match item
    case NotText => Some(ImageNotString(i))
    case Text(s) => if s == "" then Some(Shared(AuctionSchema.EmptyItem(AuctionSchema.Images, i))) else None
  }

  /** Absent, or at most three strings none of which is empty. */
  predicate ImagesAcceptable(v: Input<seq<Item>>) {
    v.Missing? || (v.Given? && |v.value| <= MaxImages &&
      forall i :: 0 <= i < |v.value| ==> v.value[i].Text? && v.value[i].value != "")
  }

  /** The optional images array: the items first, then the `max(3)` rule. */
  function ImagesError(v: Input<seq<Item>>): (r: Option<Failure>)
    ensures r.None? <==> ImagesAcceptable(v)
  {
    match v
    case Missing => None
    case Malformed => Some(Shared(AuctionSchema.WrongType(AuctionSchema.Images)))
    case Given(items) =>
      match ItemsError(items, ItemError)
      case Some(e) => Some(e)
      case None => if |items| > MaxImages then Some(TooManyImages) else None
  }

  /** Lifts a shared rule's outcome. */
  function Lift(o: Option<AuctionSchema.Failure>): (r: Option<Failure>)
    ensures r.None? <==> o.None?
  {
    if o.Some? then Some(Shared(o.value)) else None
  }

  /** The outcome of each key's rules, in key order. */
  function Checks(b: ProductBody): (c: seq<Option<Failure>>)
    ensures |c| == 6
  {
    [ Lift(AuctionSchema.TrimmedError(b.name, AuctionSchema.Name)),
      Lift(AuctionSchema.AtLeastOneError(b.initialPrice, AuctionSchema.InitialPrice)),
      Lift(AuctionSchema.AtLeastOneError(b.maxPrice, AuctionSchema.MaxPrice)),
      Lift(AuctionSchema.AtLeastOneError(b.quantity, AuctionSchema.Quantity)),
      Lift(AuctionSchema.TrimmedError(b.description, AuctionSchema.Description)),
      ImagesError(b.images) ]
  }

  /** A present, at-least-one number. */
  predicate AtLeastOne(v: Input<real>) { v.Given? && v.value >= 1.0 }

  /** A present string that is not blank. */
  predicate NotBlank(v: Input<string>) { v.Given? && Trim(v.value) != "" }

  /** A shared string rule, read as a predicate. */
  lemma TrimmedRule(v: Input<string>, f: AuctionSchema.Field)
    ensures AuctionSchema.TrimmedError(v, f).None? <==> NotBlank(v)
  {
  }

  /** A shared number rule, read as a predicate. */
  lemma AtLeastOneRule(v: Input<real>, f: AuctionSchema.Field)
    ensures AuctionSchema.AtLeastOneError(v, f).None? <==> AtLeastOne(v)
  {
  }

  /** `validateAsync(body)`: the first failure, if any. */
  function Validate(b: ProductBody): (r: Option<Failure>)
    ensures r == FirstError(Checks(b))
    ensures r.None? <==> (
      && NotBlank(b.name) && NotBlank(b.description)
      && AtLeastOne(b.initialPrice) && AtLeastOne(b.maxPrice) && AtLeastOne(b.quantity)
      && ImagesAcceptable(b.images))
  {
    var c := Checks(b);
    TrimmedRule(b.name, AuctionSchema.Name);
    TrimmedRule(b.description, AuctionSchema.Description);
    AtLeastOneRule(b.initialPrice, AuctionSchema.InitialPrice);
    AtLeastOneRule(b.maxPrice, AuctionSchema.MaxPrice);
    AtLeastOneRule(b.quantity, AuctionSchema.Quantity);
    NoErrorAmongSix(c);
    FirstError(c)
  }

  /** Four images are refused with the `max` message once every item is a non-empty string. */
  lemma FourImagesRefused(b: ProductBody)
    requires b.images.Given? && |b.images.value| == 4
    requires forall i :: 0 <= i < 4 ==> b.images.value[i].Text? && b.images.value[i].value != ""
    ensures ImagesError(b.images) == Some(TooManyImages)
    ensures Validate(b).Some?
  {
  }

  /** A bad item is reported before the count: four images with an empty first one fail on that item. */
  lemma ItemsCheckedBeforeCount(items: seq<Item>)
    requires |items| > MaxImages && items[0] == Text("")
    ensures ImagesError(Given(items)) == Some(Shared(AuctionSchema.EmptyItem(AuctionSchema.Images, 0)))
  {
    var checks := seq(|items|, i requires 0 <= i < |items| => ItemError(i, items[i]));
    FirstErrorIs(checks, 0);
  }
}

=== FILE: register_schema.dfy ===
/**
 * The registration body schema (utils/validation/registerSchema.js) and the
 * per-field rules it shares with the profile and login schemas: each value is
 * trimmed, must not be empty, and must then pass its field's rule.
 */
module RegisterSchema {
  import opened Wrappers
  import opened Joi
  import opened Strings
  import UserModel

  /** The user fields a request body may carry, in the registration schema's key order. */
  datatype Field = FirstName | LastName | Phone | Email | Password {

    /** The subject of the field's custom messages. */
    function Subject(): string {
      match this
      case FirstName => "First name" case LastName => "Last name" case Phone => "Phone number"
      case Email => "Email" case Password => "Password"
    }
  }

  /** Why a user field is refused. */
  datatype Failure =
    | Required(field: Field)   // `any.required`
    | NotString(field: Field)  // `string.base`
    | Empty(field: Field)      // `string.empty`, after trimming
    | NotLetters(field: Field) // `string.pattern.base` of `/^[A-Za-z]+$/`
    | BadPhone                 // `string.pattern.base` of the phone pattern
    | BadEmail                 // `string.email`
    | TooShort                 // `string.min` of the password
    | TooLong                  // `string.max` of the password
  {
    /** The message the schema reports. */
    function Message(): string {
      match this
      case Required(f) => f.Subject() + " is required"
      case NotString(f) => f.Subject() + " must be a string"
      case Empty(f) => f.Subject() + " cannot be empty"
      case NotLetters(f) => f.Subject() + " must contain only English alphabet characters"
      case BadPhone => "Invalid phone number format. Phone number must start with 010, 011, 012, or 015 followed by 8 digits"
      case BadEmail => "Invalid email format"
      case TooShort => "Password must be at least 8 characters long"
      case TooLong => "Password must be at most 32 characters long"
    }
  }

  const MinPasswordLength: nat := 8
  const MaxPasswordLength: nat := 32

  /** The rule of field `f` on a trimmed, non-empty value; `isEmail` is the library's e-mail check. */
  function RuleError(f: Field, t: string, isEmail: string -> bool): Option<Failure> {
    match f
    case FirstName => if AllChars(t, IsAsciiLetter) then None else Some(NotLetters(f))
    case LastName => if AllChars(t, IsAsciiLetter) then None else Some(NotLetters(f))
    case Phone => if UserModel.PhoneValid(t) then None else Some(BadPhone)
    case Email => if isEmail(t) then None else Some(BadEmail)
    case Password =>
      if Utf16Length(t) < MinPasswordLength then Some(TooShort)
      else if Utf16Length(t) > MaxPasswordLength then Some(TooLong)
      else None
  }

  /** A present string value of field `f`: trimmed, refused when empty, then checked by the field's rule. */
  function ValueError(f: Field, v: string, isEmail: string -> bool): Option<Failure> {
    var t := Trim(v);
    if t == "" then Some(Empty(f)) else RuleError(f, t, isEmail)
  }

  /** Field `f` of a body, required or optional. */
  function FieldError(f: Field, v: Input<string>, required: bool, isEmail: string -> bool): (r: Option<Failure>)
    ensures v.Missing? ==> (r.None? <==> !required)
  {
    match v
    case Missing => if required then Some(Required(f)) else None
    case Malformed => Some(NotString(f))
    case Given(s) => ValueError(f, s, isEmail)
  }

  /** What a trimmed value of field `f` must be, stated independently of the checks' order. */
  predicate Acceptable(f: Field, t: string, isEmail: string -> bool) {
    match f
    case FirstName => |t| > 0 && AllChars(t, IsAsciiLetter)
    case LastName => |t| > 0 && AllChars(t, IsAsciiLetter)
    case Phone => UserModel.PhoneValid(t)
    case Email => t != "" && isEmail(t)
    case Password => MinPasswordLength <= Utf16Length(t) <= MaxPasswordLength
  }

  /** A present value passes exactly when its trimmed form is acceptable. */
  lemma ValueAccepted(f: Field, v: string, isEmail: string -> bool)
    ensures ValueError(f, v, isEmail).None? <==> Acceptable(f, Trim(v), isEmail)
  {
    var t := Trim(v);
    if t == "" {
      assert !UserModel.PhoneValid(t);
    }
  }

  /** A present field passes exactly when its trimmed value is acceptable. */
  lemma FieldAccepted(f: Field, v: Input<string>, required: bool, isEmail: string -> bool)
    ensures v.Given? ==> (FieldError(f, v, required, isEmail).None? <==> Acceptable(f, Trim(v.value), isEmail))
    ensures v.Malformed? ==> FieldError(f, v, required, isEmail) == Some(NotString(f))
  {
    if v.Given? {
      ValueAccepted(f, v.value, isEmail);
    }
  }

  /** A registration body: every field may be absent or not a string. */
  datatype RegisterBody = RegisterBody(
    firstName: Input<string>, lastName: Input<string>, phone: Input<string>,
    email: Input<string>, password: Input<string>)

  /** A validated registration: the trimmed values. */
  datatype Registration = Registration(
    firstName: string, lastName: string, phone: string, email: string, password: string)

  /** The outcome of each key's rules, in key order; all five keys are required. */
  function Checks(b: RegisterBody, isEmail: string -> bool): (c: seq<Option<Failure>>)
    ensures |c| == 5
  {
    [ FieldError(FirstName, b.firstName, true, isEmail),
      FieldError(LastName, b.lastName, true, isEmail),
      FieldError(Phone, b.phone, true, isEmail),
      FieldError(Email, b.email, true, isEmail),
      FieldError(Password, b.password, true, isEmail) ]
  }

  /** Every field of a passing body is present and acceptable once trimmed. */
  lemma PassingFields(b: RegisterBody, isEmail: string -> bool)
    requires forall i :: 0 <= i < 5 ==> Checks(b, isEmail)[i].None?
    ensures b.firstName.Given? && Acceptable(FirstName, Trim(b.firstName.value), isEmail)
    ensures b.lastName.Given? && Acceptable(LastName, Trim(b.lastName.value), isEmail)
    ensures b.phone.Given? && Acceptable(Phone, Trim(b.phone.value), isEmail)
    ensures b.email.Given? && Acceptable(Email, Trim(b.email.value), isEmail)
    ensures b.password.Given? && Acceptable(Password, Trim(b.password.value), isEmail)
  {
    var c := Checks(b, isEmail);
    assert c[0].None? && c[1].None? && c[2].None? && c[3].None? && c[4].None?;
    ValueAccepted(FirstName, b.firstName.value, isEmail);
    ValueAccepted(LastName, b.lastName.value, isEmail);
    ValueAccepted(Phone, b.phone.value, isEmail);
    ValueAccepted(Email, b.email.value, isEmail);
    ValueAccepted(Password, b.password.value, isEmail);
  }

  /** The registration is acceptable field by field. */
  predicate Valid(r: Registration, isEmail: string -> bool) {
    && Acceptable(FirstName, r.firstName, isEmail) && Acceptable(LastName, r.lastName, isEmail)
    && Acceptable(Phone, r.phone, isEmail) && Acceptable(Email, r.email, isEmail)
    && Acceptable(Password, r.password, isEmail)
  }

  /** `validateAsync(body)`: the trimmed registration, or the first failing key's failure. */
  function Validate(b: RegisterBody, isEmail: string -> bool): (r: Result<Registration, Failure>)
    ensures r.Err? ==> Some(r.error) == FirstError(Checks(b, isEmail))
    ensures r.Ok? <==> FirstError(Checks(b, isEmail)).None?
    ensures r.Ok? ==> Valid(r.value, isEmail)
    ensures r.Ok? ==> Given(r.value.firstName) == (if b.firstName.Given? then Given(Trim(b.firstName.value)) else b.firstName)
    ensures r.Ok? ==> Given(r.value.lastName) == (if b.lastName.Given? then Given(Trim(b.lastName.value)) else b.lastName)
    ensures r.Ok? ==> Given(r.value.phone) == (if b.phone.Given? then Given(Trim(b.phone.value)) else b.phone)
    ensures r.Ok? ==> Given(r.value.email) == (if b.email.Given? then Given(Trim(b.email.value)) else b.email)
    ensures r.Ok? ==> Given(r.value.password) == (if b.password.Given? then Given(Trim(b.password.value)) else b.password)
  {
    match FirstError(Checks(b, isEmail))
    case Some(f) => Err(f)
    case None =>
      PassingFields(b, isEmail);
      Ok(Registration(Trim(b.firstName.value), Trim(b.lastName.value), Trim(b.phone.value),
        Trim(b.email.value), Trim(b.password.value)))
  }

  /** A missing first name is reported before anything else. */
  lemma FirstNameReportedFirst(b: RegisterBody, isEmail: string -> bool)
    requires b.firstName.Missing?
    ensures Validate(b, isEmail) == Err(Required(FirstName))
  {
    FirstErrorIs(Checks(b, isEmail), 0);
  }

  /** The user document a registration becomes. */
  function ToDraft(r: Registration): UserModel.UserDraft {
    UserModel.UserDraft(Some(r.firstName), Some(r.lastName), Some(r.phone), Some(r.email), Some(r.password), None, None)
  }

  /** What the registration schema accepts, the user model accepts too, save possibly the e-mail, whose two patterns differ. */
  lemma RegistrationPassesModel(r: Registration, isEmail: string -> bool)
    requires Valid(r, isEmail)
    ensures forall p :: p in UserModel.Violations(ToDraft(r)) ==> p == "email"
    ensures UserModel.EmailValid(r.email) ==> UserModel.Violations(ToDraft(r)) == []
  {
    var v := UserModel.Violations(ToDraft(r));
    assert r.phone != "";
    assert "phone" !in v && "firstName" !in v && "lastName" !in v && "password" !in v;
  }
}

=== FILE: seqs.dfy ===
/** Sequence helpers: the declarative queries of the document store become these. */
module Seqs {
  import opened Wrappers

  /** The elements of `xs` satisfying `p`, in their original order (a `find` filter). */
  function Filter<T(!new)>(xs: seq<T>, p: T -> bool): (r: seq<T>)
    ensures |r| <= |xs|
    ensures forall x :: x in r <==> x in xs && p(x)
    ensures multiset(r) <= multiset(xs)
  {
    if |xs| == 0 then []
    else
      assert xs == [xs[0]] + xs[1..];
      if p(xs[0]) then [xs[0]] + Filter(xs[1..], p) else Filter(xs[1..], p)
  }

  /** Filtering distributes over concatenation, so appending a document appends to every filter it passes. */
  lemma {:induction false} FilterAppend<T(!new)>(a: seq<T>, b: seq<T>, p: T -> bool)
    ensures Filter(a + b, p) == Filter(a, p) + Filter(b, p)
  {
    if |a| == 0 {
      assert a + b == b;
    } else {
      assert (a + b)[1..] == a[1..] + b;
      FilterAppend(a[1..], b, p);
    }
  }

  /** Filters that agree on every element of `xs` select the same elements. */
  lemma {:induction false} FilterCongruent<T(!new)>(xs: seq<T>, p: T -> bool, q: T -> bool)
    requires forall x :: x in xs ==> p(x) == q(x)
    ensures Filter(xs, p) == Filter(xs, q)
  {
    if |xs| > 0 {
      assert forall x :: x in xs[1..] ==> x in xs;
      FilterCongruent(xs[1..], p, q);
    }
  }

  /** `countDocuments`: how many elements satisfy `p`. */
  function Count<T(!new)>(xs: seq<T>, p: T -> bool): (n: nat)
    ensures n <= |xs|
    ensures n == 0 <==> forall x :: x in xs ==> !p(x)
  {
    var r := Filter(xs, p);
    assert |r| > 0 ==> r[0] in r;
    |r|
  }

  /** Sequences whose elements satisfy their predicates position by position have equal counts. */
  lemma {:induction false} CountPointwise<T(!new), U(!new)>(a: seq<T>, p: T -> bool, b: seq<U>, q: U -> bool)
    requires |a| == |b| && forall i :: 0 <= i < |a| ==> p(a[i]) == q(b[i])
    ensures Count(a, p) == Count(b, q)
  {
    if |a| > 0 {
      assert forall i :: 0 <= i < |a| - 1 ==> a[1..][i] == a[i + 1] && b[1..][i] == b[i + 1];
      CountPointwise(a[1..], p, b[1..], q);
    }
  }

  /** The index of the first element satisfying `p` (`findOne` in natural order). */
  function FirstIndex<T(!new)>(xs: seq<T>, p: T -> bool): (r: Option<nat>)
    ensures r.Some? ==> r.value < |xs| && p(xs[r.value])
    ensures r.Some? ==> forall j :: 0 <= j < r.value ==> !p(xs[j])
    ensures r.None? <==> forall x :: x in xs ==> !p(x)
  {
    if |xs| == 0 then None
    else if p(xs[0]) then Some(0)
    else
      match FirstIndex(xs[1..], p)
      case None =>
        assert xs == [xs[0]] + xs[1..];
        None
      case Some(i) => Some(i + 1)
  }

  /** The first element satisfying `p`, if any. */
  function Find<T(!new)>(xs: seq<T>, p: T -> bool): (r: Option<T>)
    ensures r.Some? ==> r.value in xs && p(r.value)
    ensures r.None? <==> forall x :: x in xs ==> !p(x)
  {
    match FirstIndex(xs, p)
    case None => None
    case Some(i) => Some(xs[i])
  }

  /** `xs` without its element at `i`. */
  function RemoveAt<T>(xs: seq<T>, i: nat): (r: seq<T>)
    requires i < |xs|
    ensures |r| == |xs| - 1
    ensures forall j :: 0 <= j < i ==> r[j] == xs[j]
    ensures forall j :: i <= j < |r| ==> r[j] == xs[j + 1]
    ensures multiset(r) + multiset{xs[i]} == multiset(xs)
  {
    assert xs == xs[..i] + [xs[i]] + xs[i + 1..];
    xs[..i] + xs[i + 1..]
  }

  /** Keys are non-increasing along `xs` (a `sort({ key: -1 })` order). */
  predicate SortedDesc<T>(xs: seq<T>, key: T -> real) {
    forall i, j :: 0 <= i < j < |xs| ==> key(xs[i]) >= key(xs[j])
  }

  /** Inserts `x` into a descending sequence, before the first element with a smaller key. */
  function InsertDesc<T(!new)>(x: T, xs: seq<T>, key: T -> real): (r: seq<T>)
    requires SortedDesc(xs, key)
    ensures SortedDesc(r, key)
    ensures multiset(r) == multiset(xs) + multiset{x}
  {
    if |xs| == 0 then [x]
    else if key(x) >= key(xs[0]) then [x] + xs
    else
      var rest := InsertDesc(x, xs[1..], key);
      assert xs == [xs[0]] + xs[1..];
      assert forall y :: y in rest ==> y in xs[1..] || y == x by {
        forall y | y in rest ensures y in xs[1..] || y == x {
          assert y in multiset(rest);
        }
      }
      assert forall k :: 0 <= k < |rest| ==> key(xs[0]) >= key(rest[k]) by {
        forall k | 0 <= k < |rest| ensures key(xs[0]) >= key(rest[k]) {
          assert rest[k] in rest;
        }
      }
      [xs[0]] + rest
  }

  /** A descending rearrangement of `xs` by `key`; ties keep no particular order, as in the database. */
  function SortDesc<T(!new)>(xs: seq<T>, key: T -> real): (r: seq<T>)
    ensures SortedDesc(r, key)
    ensures multiset(r) == multiset(xs)
    ensures |r| == |xs|
  {
    if |xs| == 0 then []
    else
      assert xs == [xs[0]] + xs[1..];
      var r := InsertDesc(xs[0], SortDesc(xs[1..], key), key);
      assert |r| == |multiset(r)|;
      r
  }

  /** The same elements, so the same membership. */
  lemma SameElements<T>(a: seq<T>, b: seq<T>)
    requires multiset(a) == multiset(b)
    ensures forall x :: x in a <==> x in b
  {
    forall x ensures x in a <==> x in b {
      assert x in a <==> x in multiset(a);
      assert x in b <==> x in multiset(b);
    }
  }
}

=== FILE: strings.dfy ===
/** The JavaScript string operations the validators and middlewares use, on `seq<char>`. */
module Strings {
  import opened Wrappers

  /** ASCII decimal digit (`\d` without the Unicode flag). */
  predicate IsDigit(c: char) { '0' <= c <= '9' }

  /** ASCII letter (`[A-Za-z]`). */
  predicate IsAsciiLetter(c: char) { 'A' <= c <= 'Z' || 'a' <= c <= 'z' }

  /** Regular-expression word character (`\w`: letters, digits and underscore). */
  predicate IsWordChar(c: char) { IsAsciiLetter(c) || IsDigit(c) || c == '_' }

  /**
   * The characters `String.prototype.trim` removes: ECMAScript's WhiteSpace
   * (tab, vertical tab, form feed, the byte-order mark and every space
   * separator of Unicode category Zs) and LineTerminator (line feed,
   * carriage return, line and paragraph separators).
   */
  predicate IsSpace(c: char) {
    || c == '\t' || c == '\U{000B}' || c == '\U{000C}' || c == '\U{FEFF}'
    || c == ' ' || c == '\U{00A0}' || c == '\U{1680}' || '\U{2000}' <= c <= '\U{200A}'
    || c == '\U{202F}' || c == '\U{205F}' || c == '\U{3000}'
    || c == '\n' || c == '\r' || c == '\U{2028}' || c == '\U{2029}'
  }

  /**
   * `s.length`: the number of UTF-16 code units, two for each character
   * outside the Basic Multilingual Plane.
   */
  function Utf16Length(s: string): (n: nat)
    ensures |s| <= n <= 2 * |s|
    ensures (forall i :: 0 <= i < |s| ==> s[i] < '\U{10000}') ==> n == |s|
  {
    if |s| == 0 then 0
    else (if s[0] < '\U{10000}' then 1 else 2) + Utf16Length(s[1..])
  }

  /** `s.split(c)` for a one-character separator: the fields between separators, always at least one. */
  function Split(s: string, c: char): (r: seq<string>)
    ensures |r| >= 1
    ensures forall i :: 0 <= i < |r| ==> c !in r[i]
  {
    if |s| == 0 then [""]
    else
      var rest := Split(s[1..], c);
      if s[0] == c then [""] + rest
      else [[s[0]] + rest[0]] + rest[1..]
  }

  /** `parts.join(c)`. */
  function Join(parts: seq<string>, c: char): string
    requires |parts| >= 1
  {
    if |parts| == 1 then parts[0] else parts[0] + [c] + Join(parts[1..], c)
  }

  /** Splitting and re-joining gives back the original string. */
  lemma {:induction false} JoinSplit(s: string, c: char)
    ensures Join(Split(s, c), c) == s
  {
    if |s| > 0 {
      var rest := Split(s[1..], c);
      JoinSplit(s[1..], c);
      if s[0] == c {
        assert Split(s, c)[1..] == rest;
      } else {
        var r := Split(s, c);
        assert r[0] == [s[0]] + rest[0];
        if |rest| == 1 {
          assert Join(r, c) == [s[0]] + rest[0];
        } else {
          assert r[1..] == rest[1..];
          assert Join(rest, c) == rest[0] + [c] + Join(rest[1..], c);
        }
        assert s == [s[0]] + s[1..];
      }
    }
  }

  /** A field free of the separator, followed by the separator, starts a new field. */
  lemma {:induction false} SplitField(p: string, t: string, c: char)
    requires c !in p
    ensures Split(p + [c] + t, c) == [p] + Split(t, c)
  {
    if |p| == 0 {
      assert p + [c] + t == [c] + t;
      assert ([c] + t)[1..] == t;
    } else {
      var s := p + [c] + t;
      assert s[0] == p[0];
      assert s[1..] == p[1..] + [c] + t;
      SplitField(p[1..], t, c);
      assert [p[0]] + p[1..] == p;
    }
  }

  /** A string without the separator is a single field. */
  lemma {:induction false} SplitNone(p: string, c: char)
    requires c !in p
    ensures Split(p, c) == [p]
  {
    if |p| > 0 {
      SplitNone(p[1..], c);
      assert [p[0]] + p[1..] == p;
    }
  }

  /** Joining separator-free fields and splitting again gives back the fields. */
  lemma {:induction false} SplitJoin(parts: seq<string>, c: char)
    requires |parts| >= 1
    requires forall i :: 0 <= i < |parts| ==> c !in parts[i]
    ensures Split(Join(parts, c), c) == parts
  {
    if |parts| == 1 {
      SplitNone(parts[0], c);
    } else {
      SplitJoin(parts[1..], c);
      SplitField(parts[0], Join(parts[1..], c), c);
      assert [parts[0]] + parts[1..] == parts;
    }
  }

  /** The position of the first `c` in `s`. */
  function IndexOf(s: string, c: char): (r: Option<nat>)
    ensures r.Some? ==> r.value < |s| && s[r.value] == c && c !in s[..r.value]
    ensures r.None? <==> c !in s
  {
    if |s| == 0 then None
    else if s[0] == c then Some(0)
    else
      match IndexOf(s[1..], c)
      case None => None
      case Some(i) =>
        assert s[..i + 1] == [s[0]] + s[1..][..i];
        Some(i + 1)
  }

  /** A `c` with no `c` before it is the first one. */
  lemma {:induction false} IndexOfAt(s: string, c: char, i: nat)
    requires i < |s| && s[i] == c && c !in s[..i]
    ensures IndexOf(s, c) == Some(i)
  {
    if i > 0 {
      assert s[0] in s[..i];
      assert s[1..][..i - 1] == s[..i][1..];
      IndexOfAt(s[1..], c, i - 1);
    }
  }

  /** A string with two or more fields contains the separator. */
  lemma SeveralFieldsHaveSeparator(s: string, c: char)
    requires |Split(s, c)| >= 2
    ensures c in s
  {
    if c !in s {
      SplitNone(s, c);
    }
  }

  /** Every character of `t` satisfies `ok`. */
  predicate AllChars(t: string, ok: char -> bool) {
    forall j :: 0 <= j < |t| ==> ok(t[j])
  }

  /** When every field's characters satisfy `ok`, every character of `s` is a separator or satisfies `ok`. */
  lemma {:induction false} FieldsCover(s: string, c: char, ok: char -> bool)
    requires forall k :: 0 <= k < |Split(s, c)| ==> AllChars(Split(s, c)[k], ok)
    ensures forall i :: 0 <= i < |s| ==> s[i] == c || ok(s[i])
  {
    if |s| > 0 {
      var rest := Split(s[1..], c);
      var all := Split(s, c);
      if s[0] == c {
        assert forall k :: 0 <= k < |rest| ==> rest[k] == all[k + 1];
      } else {
        assert all[0] == [s[0]] + rest[0];
        assert AllChars(all[0], ok);
        assert ok(all[0][0]);
        assert forall j :: 0 <= j < |rest[0]| ==> rest[0][j] == all[0][j + 1];
        assert forall k :: 1 <= k < |rest| ==> rest[k] == all[k];
      }
      FieldsCover(s[1..], c, ok);
      assert forall i :: 1 <= i < |s| ==> s[i] == s[1..][i - 1];
    }
  }

  /** The first field of `s.split(c)` is everything before the first `c` (all of `s` when there is none). */
  lemma {:induction false} FirstFieldIsPrefix(s: string, c: char)
    ensures IndexOf(s, c).None? ==> Split(s, c)[0] == s
    ensures IndexOf(s, c).Some? ==> Split(s, c)[0] == s[..IndexOf(s, c).value]
  {
    match IndexOf(s, c)
    case None => SplitNone(s, c);
    case Some(i) =>
      assert s == s[..i] + [c] + s[i + 1..];
      SplitField(s[..i], s[i + 1..], c);
  }

  /** `s` without leading white space. */
  function TrimStart(s: string): (r: string)
    ensures |r| <= |s| && r == s[|s| - |r|..]
    ensures |r| > 0 ==> !IsSpace(r[0])
    ensures forall i :: 0 <= i < |s| - |r| ==> IsSpace(s[i])
  {
    if |s| > 0 && IsSpace(s[0]) then TrimStart(s[1..]) else s
  }

  /** `s` without trailing white space. */
  function TrimEnd(s: string): (r: string)
    ensures |r| <= |s| && r == s[..|r|]
    ensures |r| > 0 ==> !IsSpace(r[|r| - 1])
    ensures forall i :: |r| <= i < |s| ==> IsSpace(s[i])
  {
    if |s| > 0 && IsSpace(s[|s| - 1]) then TrimEnd(s[..|s| - 1]) else s
  }

  /** `r` is the piece of `s` starting at `i`, and everything of `s` around it is white space. */
  ghost predicate CutFrom(s: string, r: string, i: int) {
    && 0 <= i <= |s| - |r| && r == s[i..i + |r|]
    && (forall k :: 0 <= k < i ==> IsSpace(s[k]))
    && (forall k :: i + |r| <= k < |s| ==> IsSpace(s[k]))
  }

  /** `s.trim()`: a contiguous piece of `s`, with only white space cut from either end. */
  function Trim(s: string): (r: string)
    ensures |r| <= |s|
  {
    TrimEnd(TrimStart(s))
  }

  /** The trimmed string is a piece of `s` with only white space around it, and it neither starts nor ends with white space. */
  lemma TrimCut(s: string)
    ensures var r := Trim(s);
      && (|r| > 0 ==> !IsSpace(r[0]) && !IsSpace(r[|r| - 1]))
      && exists i :: CutFrom(s, r, i)
  {
    var t := TrimStart(s);
    var r := TrimEnd(t);
    var i := |s| - |t|;
    assert t == s[i..];
    assert r == t[..|r|];
    if |r| > 0 {
      assert r[0] == t[0];
    }
    assert r == s[i..i + |r|];
    forall k | i + |r| <= k < |s|
      ensures IsSpace(s[k])
    {
      assert s[k] == t[k - i];
    }
    assert CutFrom(s, r, i);
  }

  /** A string of white space only trims to the empty string. */
  lemma TrimAllSpace(s: string)
    requires forall k :: 0 <= k < |s| ==> IsSpace(s[k])
    ensures Trim(s) == ""
  {
    TrimCut(s);
  }

  /** Trimming twice is trimming once. */
  lemma TrimIdempotent(s: string)
    ensures Trim(Trim(s)) == Trim(s)
  {
    var r := Trim(s);
    if |r| > 0 {
      assert TrimStart(r) == r;
      assert TrimEnd(r) == r;
    }
  }

  /** ASCII `toLowerCase`. */
  function ToLowerAscii(s: string): (r: string)
    ensures |r| == |s|
    ensures forall i :: 0 <= i < |s| ==> !('A' <= r[i] <= 'Z')
    ensures forall i :: 0 <= i < |s| && !('A' <= s[i] <= 'Z') ==> r[i] == s[i]
  {
    if |s| == 0 then []
    else
      var c := if 'A' <= s[0] <= 'Z' then (s[0] as int + 32) as char else s[0];
      [c] + ToLowerAscii(s[1..])
  }
}

=== FILE: upload.dfy ===
/** The upload middleware's file filter (middlewares/uplaod.js): only files whose mimetype names an image are stored. */
module Upload {
  import opened Wrappers
  import opened Strings
  import Http

  /** An uploaded file, as far as the filter reads it. */
  datatype File = File(originalName: string, mimetype: string)

  const OnlyImages: string := "Only images are allowed"

  /** Stated independently of `split`: the mimetype is exactly "image" or starts with "image/". */
  predicate NamesImage(m: string) {
    m == "image" || (|m| >= 6 && m[..6] == "image/")
  }

  /** The first '/'-separated field is "image" exactly when the mimetype names an image. */
  lemma TypeFieldIsImage(m: string)
    ensures Split(m, '/')[0] == "image" <==> NamesImage(m)
  {
    FirstFieldIsPrefix(m, '/');
    match IndexOf(m, '/')
    case None =>
      if |m| >= 6 {
        assert m[5] in m;
      }
    case Some(i) =>
      if |m| >= 6 && m[..6] == "image/" {
        assert m[5] == '/';
        assert i == 5;
      }
      if m[..i] == "image" {
        assert m[..6] == m[..i] + [m[i]];
      }
  }

  /**
   * `fileFilter`: the callback's error, if any. `None` is `cb(null, true)`;
   * a file whose type is not an image is refused with a 400.
   */
  function FileFilter(f: File): (r: Option<Http.AppError>)
    ensures r.None? <==> NamesImage(f.mimetype)
    ensures r.Some? ==> r.value == Http.AppError(OnlyImages, Http.StatusBadRequest)
  {
    TypeFieldIsImage(f.mimetype);
    if Split(f.mimetype, '/')[0] == "image" then None
    else Some(Http.AppError(OnlyImages, Http.StatusBadRequest))
  }

  /** Whether a file is kept depends on its mimetype only, and any "image/…" subtype is kept. */
  lemma AnyImageSubtypeKept(name: string, subtype: string)
    ensures FileFilter(File(name, "image/" + subtype)).None?
    ensures FileFilter(File(name, "imagex/" + subtype)).Some?
    ensures FileFilter(File(name, "image")).None?
  {
    assert ("image/" + subtype)[..6] == "image/";
    assert ("imagex/" + subtype)[..6] == "imagex";
  }

  /**
   * The request's files go through the filter in order; the first refused
   * file aborts the upload with the filter's error.
   */
  function FilterAll(files: seq<File>): (r: Result<seq<File>, Http.AppError>)
    ensures r.Ok? <==> forall i :: 0 <= i < |files| ==> NamesImage(files[i].mimetype)
    ensures r.Ok? ==> r.value == files
    ensures r.Err? ==> r.error == Http.AppError(OnlyImages, Http.StatusBadRequest)
  {
    if |files| == 0 then Ok([])
    else
      match FileFilter(files[0])
      case Some(e) => Err(e)
      case None =>
        match FilterAll(files[1..])
        case Err(e) => Err(e)
        case Ok(rest) =>
          assert files == [files[0]] + files[1..];
          Ok([files[0]] + rest)
  }
}

=== FILE: user_model.dfy ===
/** The user schema: field rules, the phone and e-mail patterns, unique contacts (models/user.model.js). */
module UserModel {
  import opened Wrappers
  import opened Strings
  import opened Documents
  import Mongo

  const PhonePrefixes: set<string> := {"010", "011", "012", "015"}

  /** `/^(010|011|012|015)\d{8}$/`: eleven characters, a known prefix, then eight digits. */
  predicate PhoneValid(s: string) {
    |s| == 11 && s[..3] in PhonePrefixes && forall i :: 3 <= i < 11 ==> IsDigit(s[i])
  }

  /** A valid phone is eleven digits starting with "01". */
  lemma PhoneIsElevenDigits(s: string)
    requires PhoneValid(s)
    ensures forall i :: 0 <= i < |s| ==> IsDigit(s[i])
    ensures s[0] == '0' && s[1] == '1' && s[2] in {'0', '1', '2', '5'}
  {
    assert s[..3] == [s[0], s[1], s[2]];
  }

  /** Any prefix followed by any eight digits is a valid phone, so the pattern is exactly prefix-plus-digits. */
  lemma PhoneFromParts(prefix: string, digits: string)
    requires prefix in PhonePrefixes
    requires |digits| == 8 && forall i :: 0 <= i < 8 ==> IsDigit(digits[i])
    ensures PhoneValid(prefix + digits)
  {
    var s := prefix + digits;
    assert s[..3] == prefix;
    assert forall i :: 3 <= i < 11 ==> s[i] == digits[i - 3];
  }

  /** `[\w-.]`: a character of the part before '@'. */
  predicate IsLocalChar(c: char) { IsWordChar(c) || c == '-' || c == '.' }

  /** `[\w-]`: a character of a domain label. */
  predicate IsLabelChar(c: char) { IsWordChar(c) || c == '-' }

  predicate IsLabel(l: string) { |l| > 0 && AllChars(l, IsLabelChar) }

  /**
   * `/^[\w-.]+@([\w-]+\.)+[\w-]{2,4}$/`. Neither side may contain '@', so the
   * match splits at the first '@'; the domain is then two or more non-empty
   * labels separated by '.', the last of two to four characters.
   */
  predicate EmailValid(s: string) {
    match IndexOf(s, '@')
    case None => false
    case Some(at) =>
      var labels := Split(s[at + 1..], '.');
      && at > 0 && AllChars(s[..at], IsLocalChar)
      && |labels| >= 2
      && (forall k :: 0 <= k < |labels| ==> IsLabel(labels[k]))
      && 2 <= |labels[|labels| - 1]| <= 4
  }

  /** After the '@' of a valid e-mail there is at least one '.'. */
  lemma EmailDomainHasDot(s: string, at: nat)
    requires EmailValid(s) && IndexOf(s, '@') == Some(at)
    ensures '.' in s[at + 1..]
  {
    var domain := s[at + 1..];
    assert |Split(domain, '.')| >= 2;
    SeveralFieldsHaveSeparator(domain, '.');
  }

  /** A domain made of labels holds only dots and label characters. */
  lemma LabelsCoverDomain(domain: string)
    requires forall k :: 0 <= k < |Split(domain, '.')| ==> IsLabel(Split(domain, '.')[k])
    ensures forall i :: 0 <= i < |domain| ==> domain[i] == '.' || IsLabelChar(domain[i])
  {
    var labels := Split(domain, '.');
    assert forall k :: 0 <= k < |labels| ==> AllChars(labels[k], IsLabelChar);
    FieldsCover(domain, '.', IsLabelChar);
  }

  /** After the '@' of a valid e-mail there are only dots and label characters. */
  lemma EmailDomainChars(s: string, at: nat)
    requires EmailValid(s) && IndexOf(s, '@') == Some(at)
    ensures forall i :: at < i < |s| ==> s[i] == '.' || IsLabelChar(s[i])
  {
    var domain := s[at + 1..];
    var labels := Split(domain, '.');
    assert forall k :: 0 <= k < |labels| ==> IsLabel(labels[k]);
    LabelsCoverDomain(domain);
    forall i | at < i < |s| ensures s[i] == '.' || IsLabelChar(s[i]) {
      assert s[i] == domain[i - at - 1];
    }
  }

  /** A valid e-mail has an '@'. */
  lemma EmailHasAt(s: string)
    requires EmailValid(s)
    ensures IndexOf(s, '@').Some?
  {
  }

  /** The '@' of a valid e-mail is its only one, preceded by something and followed by a '.' and only label characters or dots. */
  lemma EmailShape(s: string, at: nat)
    requires EmailValid(s) && IndexOf(s, '@') == Some(at)
    ensures 0 < at && '.' in s[at + 1..] && '@' !in s[..at] && '@' !in s[at + 1..]
    ensures forall i :: at < i < |s| ==> s[i] == '.' || IsLabelChar(s[i])
  {
    EmailDomainHasDot(s, at);
    EmailDomainChars(s, at);
    NoAtAfter(s, at);
  }

  /** Dots and label characters leave no room for a second '@'. */
  lemma NoAtAfter(s: string, at: nat)
    requires at < |s| && forall i :: at < i < |s| ==> s[i] == '.' || IsLabelChar(s[i])
    ensures '@' !in s[at + 1..]
  {
    var domain := s[at + 1..];
    assert forall i :: 0 <= i < |domain| ==> domain[i] == s[at + 1 + i];
  }

  /** Any local part, '@', and two or more labels joined by '.', the last of length 2 to 4, is a valid e-mail. */
  lemma EmailFromParts(local: string, labels: seq<string>)
    requires |local| > 0 && AllChars(local, IsLocalChar)
    requires |labels| >= 2 && forall k :: 0 <= k < |labels| ==> IsLabel(labels[k])
    requires 2 <= |labels[|labels| - 1]| <= 4
    ensures EmailValid(local + "@" + Join(labels, '.'))
  {
    var s := local + "@" + Join(labels, '.');
    var at := |local|;
    forall i | 0 <= i < at ensures local[i] != '@' {
      assert IsLocalChar(local[i]);
    }
    assert s[..at] == local;
    assert s[at] == '@';
    IndexOfAt(s, '@', at);
    var domain := s[at + 1..];
    assert domain == Join(labels, '.');
    forall k | 0 <= k < |labels| ensures '.' !in labels[k] {
      assert AllChars(labels[k], IsLabelChar);
      assert forall i :: 0 <= i < |labels[k]| ==> labels[k][i] != '.';
    }
    SplitJoin(labels, '.');
    EmailFromFacts(s, at, labels);
  }

  /** The facts `EmailValid` checks, gathered. */
  lemma EmailFromFacts(s: string, at: nat, labels: seq<string>)
    requires IndexOf(s, '@') == Some(at) && at > 0 && AllChars(s[..at], IsLocalChar)
    requires Split(s[at + 1..], '.') == labels
    requires |labels| >= 2 && forall k :: 0 <= k < |labels| ==> IsLabel(labels[k])
    requires 2 <= |labels[|labels| - 1]| <= 4
    ensures EmailValid(s)
  {
  }

  /** A user document before it is saved: each field may be missing. */
  datatype UserDraft = UserDraft(
    firstName: Option<string>, lastName: Option<string>, phone: Option<string>,
    email: Option<string>, password: Option<string>,
    image: Option<string>, address: Option<Address>)

  /** A required string path: present and not empty. */
  predicate Present(o: Option<string>) { o.Some? && o.value != "" }

  /** The paths whose validators reject the draft; the draft saves only when there are none. */
  function Violations(d: UserDraft): (v: seq<string>)
    ensures "firstName" in v <==> !Present(d.firstName)
    ensures "lastName" in v <==> !Present(d.lastName)
    ensures "phone" in v <==> !Present(d.phone) || !PhoneValid(d.phone.value)
    ensures "email" in v <==> !Present(d.email) || !EmailValid(d.email.value)
    ensures "password" in v <==> !Present(d.password)
    ensures |v| == 0 <==> (
      && Present(d.firstName) && Present(d.lastName) && Present(d.password)
      && Present(d.phone) && PhoneValid(d.phone.value)
      && Present(d.email) && EmailValid(d.email.value))
  {
    (if Present(d.firstName) then [] else ["firstName"])
    + (if Present(d.lastName) then [] else ["lastName"])
    + (if Present(d.phone) && PhoneValid(d.phone.value) then [] else ["phone"])
    + (if Present(d.email) && EmailValid(d.email.value) then [] else ["email"])
    + (if Present(d.password) then [] else ["password"])
  }

  /** The schema puts no bound on the password's length: any non-empty password may replace a valid one. */
  lemma NoPasswordLengthRule(d: UserDraft, password: string)
    requires Violations(d) == [] && password != ""
    ensures Violations(d.(password := Some(password))) == []
  {
  }

  /** The unique index on `email` or on `phone` that `u` would break. */
  function DuplicateIndex(users: seq<User>, email: string, phone: string): (r: Option<string>)
    ensures r == Some("email") <==> exists v :: v in users && v.email == email
    ensures r == Some("phone") <==> (forall v :: v in users ==> v.email != email) && exists v :: v in users && v.phone == phone
    ensures r.None? <==> forall v :: v in users ==> v.email != email && v.phone != phone
  {
    if Seqs.Find(users, (v: User) => v.email == email).Some? then Some("email")
    else if Seqs.Find(users, (v: User) => v.phone == phone).Some? then Some("phone")
    else None
  }

  /** `new User(draft).save()`: validation, then the unique indexes, then the insert with a fresh id. */
  function Save(s: Store, d: UserDraft): (r: Result<(Store, User), Mongo.DbError>)
    ensures |Violations(d)| > 0 ==> r == Err(Mongo.ValidationFailed(Violations(d)))
    ensures r.Ok? ==> (|Violations(d)| == 0
      && forall v :: v in s.users ==> v.email != r.value.1.email && v.phone != r.value.1.phone)
    ensures r.Ok? ==> var (s', u) := r.value;
      && s'.users == s.users + [u] && u.id == s.clock && s'.clock == s.clock + 1
      && s' == s.(users := s'.users, clock := s'.clock)
      && u.firstName == d.firstName.value && u.lastName == d.lastName.value
      && u.phone == d.phone.value && u.email == d.email.value && u.password == d.password.value
      && u.image == d.image && u.address == d.address
    ensures r.Err? ==> r.error.ValidationFailed? || r.error.DuplicateKey?
  {
    var v := Violations(d);
    if |v| > 0 then Err(Mongo.ValidationFailed(v))
    else
      var u := User(s.clock, d.firstName.value, d.lastName.value, d.phone.value,
                    d.email.value, d.password.value, d.image, d.address);
      match DuplicateIndex(s.users, u.email, u.phone)
      case Some(index) => Err(Mongo.DuplicateKey(index))
      case None => Ok((s.(users := s.users + [u], clock := s.clock + 1), u))
  }
}

=== FILE: user_schema.dfy ===
/**
 * The profile-update body schema (utils/validation/userSchema.js): every key
 * is optional, and a present name, phone or e-mail follows the registration
 * rules; the image must be a URI and the address subfields may be empty.
 */
module UserSchema {
  import opened Wrappers
  import opened Joi
  import opened Strings
  import RegisterSchema

  /** The address subfields, in key order. */
  datatype AddressField = Country | City | Street | HouseNumber {
    function Subject(): string {
      match this
      case Country => "Country" case City => "City" case Street => "Street" case HouseNumber => "House number"
    }
  }

  /** Why a profile update is refused. */
  datatype Failure =
    | UserField(failure: RegisterSchema.Failure) // a name, phone or e-mail rule
    | ImageNotString                             // `string.base` of the image
    | ImageEmpty                                 // `string.empty` of the image, after trimming
    | ImageNotUri                                // `string.uri`
    | AddressNotObject                           // `object.base`, which has no custom message
    | SubfieldNotString(field: AddressField)     // `string.base` of an address subfield
  {
    function Message(): string {
      match this
      case UserField(f) => f.Message()
      case ImageNotString => "Image must be a string"
      case ImageEmpty => "Image cannot be empty"
      case ImageNotUri => "Image must be a valid URL"
      case AddressNotObject => "\"address\" must be of type object"
      case SubfieldNotString(a) => a.Subject() + " must be a string"
    }
  }

  datatype AddressBody = AddressBody(country: Input<string>, city: Input<string>, street: Input<string>, houseNumber: Input<string>)

  datatype UserBody = UserBody(
    firstName: Input<string>, lastName: Input<string>, phone: Input<string>, email: Input<string>,
    image: Input<string>, address: Input<AddressBody>)

  /** An optional user field under the registration rules. */
  function OptionalError(f: RegisterSchema.Field, v: Input<string>, isEmail: string -> bool): (r: Option<Failure>)
    ensures v.Missing? ==> r.None?
    ensures v.Given? ==> (r.None? <==> RegisterSchema.Acceptable(f, Trim(v.value), isEmail))
  {
    RegisterSchema.FieldAccepted(f, v, false, isEmail);
    match RegisterSchema.FieldError(f, v, false, isEmail)
    case None => None
    case Some(e) => Some(UserField(e))
  }

  /** The optional image: trimmed, not empty, a URI. */
  function ImageError(v: Input<string>, uri: string -> bool): (r: Option<Failure>)
    ensures v.Missing? ==> r.None?
    ensures v.Given? ==> (r.None? <==> Trim(v.value) != "" && uri(Trim(v.value)))
  {
    match v
    case Missing => None
    case Malformed => Some(ImageNotString)
    case Given(s) =>
      var t := Trim(s);
      if t == "" then Some(ImageEmpty) else if !uri(t) then Some(ImageNotUri) else None
  }

  /** An address subfield: any string, the empty one included (`allow('')`). */
  function SubfieldError(v: Input<string>, a: AddressField): (r: Option<Failure>)
    ensures r.None? <==> !v.Malformed?
  {
    if v.Malformed? then Some(SubfieldNotString(a)) else None
  }

  /** The optional address object and its four subfields in key order. */
  function AddressError(v: Input<AddressBody>): (r: Option<Failure>)
    ensures r.None? <==> (v.Missing? || (
      && v.Given? && !v.value.country.Malformed? && !v.value.city.Malformed?
      && !v.value.street.Malformed? && !v.value.houseNumber.Malformed?))
  {
    match v
    case Missing => None
    case Malformed => Some(AddressNotObject)
    case Given(a) =>
      var c := [SubfieldError(a.country, Country), SubfieldError(a.city, City),
        SubfieldError(a.street, Street), SubfieldError(a.houseNumber, HouseNumber)];
      assert FirstError(c).None? <==> c[0].None? && c[1].None? && c[2].None? && c[3].None?;
      FirstError(c)
  }

  /** The outcome of each key's rules, in key order; no key is required. */
  function Checks(b: UserBody, isEmail: string -> bool, uri: string -> bool): (c: seq<Option<Failure>>)
    ensures |c| == 6
  {
    [ OptionalError(RegisterSchema.FirstName, b.firstName, isEmail),
      OptionalError(RegisterSchema.LastName, b.lastName, isEmail),
      OptionalError(RegisterSchema.Phone, b.phone, isEmail),
      OptionalError(RegisterSchema.Email, b.email, isEmail),
      ImageError(b.image, uri),
      AddressError(b.address) ]
  }

  /** A present value is acceptable under its rule. */
  predicate OptionalAcceptable(f: RegisterSchema.Field, v: Input<string>, isEmail: string -> bool) {
    v.Missing? || (v.Given? && RegisterSchema.Acceptable(f, Trim(v.value), isEmail))
  }

  /** `validateAsync(body)`: the body is accepted exactly when every present key meets its rule. */
  function Validate(b: UserBody, isEmail: string -> bool, uri: string -> bool): (r: Option<Failure>)
    ensures r == FirstError(Checks(b, isEmail, uri))
    ensures r.None? <==> (
      && OptionalAcceptable(RegisterSchema.FirstName, b.firstName, isEmail)
      && OptionalAcceptable(RegisterSchema.LastName, b.lastName, isEmail)
      && OptionalAcceptable(RegisterSchema.Phone, b.phone, isEmail)
      && OptionalAcceptable(RegisterSchema.Email, b.email, isEmail)
      && (b.image.Missing? || (b.image.Given? && Trim(b.image.value) != "" && uri(Trim(b.image.value))))
      && AddressError(b.address).None?)
  {
    var c := Checks(b, isEmail, uri);
    NoErrorAmongSix(c);
    FirstError(c)
  }

  /** An empty body changes nothing and is accepted. */
  lemma EmptyBodyAccepted(isEmail: string -> bool, uri: string -> bool)
    ensures Validate(UserBody(Missing, Missing, Missing, Missing, Missing, Missing), isEmail, uri).None?
  {
  }

  /** An address whose subfields are all empty strings is accepted, unlike an empty name. */
  lemma EmptyAddressAccepted(isEmail: string -> bool, uri: string -> bool)
    ensures AddressError(Given(AddressBody(Given(""), Given(""), Given(""), Given("")))).None?
    ensures OptionalError(RegisterSchema.FirstName, Given(""), isEmail).Some?
  {
    assert Trim("") == "";
  }
}

=== FILE: users_repo.dfy ===
/**
 * The users repository (repos/users.repo.js): lookup by id, lookup by e-mail
 * or phone through an `$or` query, creation with an empty address, and the
 * profile update guarded by the contact lookup.
 */
module UsersRepo {
  import opened Wrappers
  import opened Documents
  import Seqs
  import Mongo
  import UserModel

  /** A contact argument is used only when it is truthy: `null`, absent and "" all count as not given. */
  predicate Truthy(o: Option<string>) { o.Some? && o.value != "" }

  /** One clause of the `$or` list. */
  datatype Clause = ByEmail(email: string) | ByPhone(phone: string)

  predicate Matches(u: User, c: Clause) {
    match c
    case ByEmail(e) => u.email == e
    case ByPhone(p) => u.phone == p
  }

  /** `{ $or: clauses }` matches a user when some clause does. */
  predicate MatchesAny(u: User, clauses: seq<Clause>) {
    exists k :: 0 <= k < |clauses| && Matches(u, clauses[k])
  }

  /** The user holds one of the given contacts. */
  predicate HasContact(u: User, email: Option<string>, phone: Option<string>) {
    || (Truthy(email) && u.email == email.value)
    || (Truthy(phone) && u.phone == phone.value)
  }

  /**
   * `_buildContactsQuery`: no query when neither contact is given; otherwise
   * an e-mail clause exactly when the e-mail is given, followed by a phone
   * clause exactly when the phone is given.
   */
  function BuildContactsQuery(email: Option<string>, phone: Option<string>): (q: Option<seq<Clause>>)
    ensures q.None? <==> !Truthy(email) && !Truthy(phone)
    ensures q.Some? ==> 1 <= |q.value| <= 2
    ensures q.Some? ==> forall k :: 0 <= k < |q.value| ==>
      || (Truthy(email) && q.value[k] == ByEmail(email.value))
      || (Truthy(phone) && q.value[k] == ByPhone(phone.value))
    ensures q.Some? ==> forall j, k :: 0 <= j < k < |q.value| ==> q.value[j] != q.value[k]
    ensures q.Some? && Truthy(email) ==> q.value[0] == ByEmail(email.value)
    ensures q.Some? && Truthy(phone) ==> q.value[|q.value| - 1] == ByPhone(phone.value)
  {
    if !Truthy(email) && !Truthy(phone) then None
    else
      Some((if Truthy(email) then [ByEmail(email.value)] else [])
        + (if Truthy(phone) then [ByPhone(phone.value)] else []))
  }

  /** The query matches exactly the users holding one of the given contacts. */
  lemma QueryMatchesContacts(email: Option<string>, phone: Option<string>)
    ensures var q := BuildContactsQuery(email, phone);
      q.Some? ==> forall u :: MatchesAny(u, q.value) <==> HasContact(u, email, phone)
  {
    var q := BuildContactsQuery(email, phone);
    if q.Some? {
      forall u ensures MatchesAny(u, q.value) <==> HasContact(u, email, phone) {
        if Truthy(email) && u.email == email.value {
          assert Matches(u, q.value[0]);
        } else if Truthy(phone) && u.phone == phone.value {
          assert Matches(u, q.value[|q.value| - 1]);
        }
      }
    }
  }

  /** `User.findOne({ $or: clauses })`: the first matching user in storage order. */
  function FindOne(s: Store, clauses: seq<Clause>): (r: Option<User>)
    ensures r.Some? ==> r.value in s.users && MatchesAny(r.value, clauses)
    ensures r.None? <==> forall u :: u in s.users ==> !MatchesAny(u, clauses)
  {
    Seqs.Find(s.users, (u: User) => MatchesAny(u, clauses))
  }

  /** `isExistsByContacts`: false when neither contact is given, otherwise whether some user holds one of them. */
  function IsExistsByContacts(s: Store, email: Option<string>, phone: Option<string>): (r: bool)
    ensures !Truthy(email) && !Truthy(phone) ==> !r
    ensures r <==> exists u :: u in s.users && HasContact(u, email, phone)
  {
    QueryMatchesContacts(email, phone);
    match BuildContactsQuery(email, phone)
    case None => false
    case Some(q) => FindOne(s, q).Some?
  }

  /** What `getExistsByContacts` answers: `false` without contacts, else the found user or `null`. */
  datatype Lookup = NoContacts | Looked(user: Option<User>)

  /** `getExistsByContacts`. */
  function GetExistsByContacts(s: Store, email: Option<string>, phone: Option<string>): (r: Lookup)
    ensures r.NoContacts? <==> !Truthy(email) && !Truthy(phone)
    ensures r.Looked? && r.user.Some? ==> r.user.value in s.users && HasContact(r.user.value, email, phone)
    ensures r.Looked? && r.user.None? ==> forall u :: u in s.users ==> !HasContact(u, email, phone)
  {
    QueryMatchesContacts(email, phone);
    match BuildContactsQuery(email, phone)
    case None => NoContacts
    case Some(q) => Looked(FindOne(s, q))
  }

  /** The two lookups agree: a user is found exactly when one exists. */
  lemma LookupsAgree(s: Store, email: Option<string>, phone: Option<string>)
    ensures var r := GetExistsByContacts(s, email, phone);
      IsExistsByContacts(s, email, phone) <==> r.Looked? && r.user.Some?
  {
    var r := GetExistsByContacts(s, email, phone);
    if IsExistsByContacts(s, email, phone) {
      var u :| u in s.users && HasContact(u, email, phone);
      assert r.Looked?;
    }
  }

  /** `getById`: `User.findById`. */
  function GetById(s: Store, id: Id): (r: Option<User>)
    ensures r.Some? ==> r.value in s.users && r.value.id == id
    ensures r.None? <==> forall u :: u in s.users ==> u.id != id
  {
    FindUser(s, id)
  }

  /** A user as `create` returns it: every field but the password. */
  datatype PublicUser = PublicUser(
    id: Id, firstName: string, lastName: string, phone: string, email: string,
    image: Option<string>, address: Option<Address>)

  function WithoutPassword(u: User): PublicUser {
    PublicUser(u.id, u.firstName, u.lastName, u.phone, u.email, u.image, u.address)
  }

  const EmptyAddress: Address := Address("", "", "", "")

  /** The model's validators do not read the address. */
  lemma ViolationsIgnoreAddress(body: UserModel.UserDraft, address: Option<Address>)
    ensures UserModel.Violations(body.(address := address)) == UserModel.Violations(body)
  {
  }

  /**
   * `create`: the body with its address replaced by four empty strings, saved
   * through the model, and returned without the password.
   */
  function Create(s: Store, body: UserModel.UserDraft): (r: Result<(Store, PublicUser), Mongo.DbError>)
    ensures r.Ok? <==> (
      && |UserModel.Violations(body)| == 0
      && forall v :: v in s.users ==> v.email != body.email.value && v.phone != body.phone.value)
    ensures r.Err? ==> r.error.ValidationFailed? || r.error.DuplicateKey?
    ensures r.Ok? ==> exists u: User :: (
      && r.value.0 == s.(users := s.users + [u], clock := s.clock + 1)
      && Stored(body, u, s.clock) && r.value.1 == WithoutPassword(u))
  {
    var d := body.(address := Some(EmptyAddress));
    assert d == body.(address := d.address);
    ViolationsIgnoreAddress(body, d.address);
    match UserModel.Save(s, d)
    case Err(e) => Err(e)
    case Ok((s', u)) => Ok((s', WithoutPassword(u)))
  }

  /** The stored user: the body's values under the minted id, with the empty address. */
  predicate Stored(body: UserModel.UserDraft, u: User, stamp: Id) {
    && u.id == stamp && u.address == Some(EmptyAddress) && u.image == body.image
    && body.password == Some(u.password) && body.email == Some(u.email) && body.phone == Some(u.phone)
    && body.firstName == Some(u.firstName) && body.lastName == Some(u.lastName)
  }

  /** A user appended with an id above every stored one is what `findById` finds under that id. */
  lemma AppendedFound(s: Store, u: User)
    requires forall v :: v in s.users ==> v.id < u.id
    ensures GetById(s.(users := s.users + [u]), u.id) == Some(u)
  {
    var found := GetById(s.(users := s.users + [u]), u.id);
    assert u in s.users + [u];
    assert found.value !in s.users;
  }

  /** The created user is what `getById` then finds under the returned id, password included. */
  lemma CreatedUserFound(s: Store, body: UserModel.UserDraft, s': Store, view: PublicUser)
    requires forall v :: v in s.users ==> v.id < s.clock
    requires Create(s, body) == Ok((s', view))
    ensures GetById(s', view.id).Some?
    ensures WithoutPassword(GetById(s', view.id).value) == view
    ensures GetById(s', view.id).value.password == body.password.value
    ensures GetById(s', view.id).value.address == Some(EmptyAddress)
  {
    var u: User :| && s' == s.(users := s.users + [u], clock := s.clock + 1)
      && Stored(body, u, s.clock) && view == WithoutPassword(u);
    AppendedFound(s.(clock := s.clock + 1), u);
  }

  /** The keys of a profile-update body; an absent key leaves the stored value. */
  datatype Patch = Patch(
    firstName: Option<string>, lastName: Option<string>, phone: Option<string>, email: Option<string>,
    image: Option<string>, address: Option<Address>)

  /** The user after `findOneAndUpdate` with the body: every key present in the body is set. */
  function Apply(u: User, p: Patch): (v: User)
    ensures v.id == u.id && v.password == u.password
    ensures v.email == (if p.email.Some? then p.email.value else u.email)
    ensures v.phone == (if p.phone.Some? then p.phone.value else u.phone)
    ensures v.firstName == (if p.firstName.Some? then p.firstName.value else u.firstName)
    ensures v.lastName == (if p.lastName.Some? then p.lastName.value else u.lastName)
    ensures p.image.Some? ==> v.image == p.image
    ensures p.image.None? ==> v.image == u.image
    ensures p.address.Some? ==> v.address == p.address
    ensures p.address.None? ==> v.address == u.address
  {
    u.(firstName := p.firstName.GetOr(u.firstName), lastName := p.lastName.GetOr(u.lastName),
       phone := p.phone.GetOr(u.phone), email := p.email.GetOr(u.email),
       image := if p.image.Some? then p.image else u.image,
       address := if p.address.Some? then p.address else u.address)
  }

  /** A user other than the one at index `i` holds `v`'s e-mail or phone, so the unique indexes refuse `v` there. */
  predicate ClashesAt(users: seq<User>, i: nat, v: User) {
    exists j :: 0 <= j < |users| && j != i && (users[j].email == v.email || users[j].phone == v.phone)
  }

  /** The unique-index lookup over every user but the one at `i` fires exactly on a clash. */
  lemma DuplicateIndexOfOthers(users: seq<User>, i: nat, v: User)
    requires i < |users|
    ensures UserModel.DuplicateIndex(Seqs.RemoveAt(users, i), v.email, v.phone).None? <==> !ClashesAt(users, i, v)
  {
    var rest := Seqs.RemoveAt(users, i);
    if ClashesAt(users, i, v) {
      var j :| 0 <= j < |users| && j != i && (users[j].email == v.email || users[j].phone == v.phone);
      if j < i { assert rest[j] == users[j]; } else { assert rest[j - 1] == users[j]; }
    }
    if UserModel.DuplicateIndex(rest, v.email, v.phone).Some? {
      var w :| w in rest && (w.email == v.email || w.phone == v.phone);
      var k :| 0 <= k < |rest| && rest[k] == w;
      if k < i { assert users[k] == w; } else { assert users[k + 1] == w; }
    }
  }

  /**
   * `findOneAndUpdate({ _id: id }, body, { new: true })`. Update validators
   * are not enabled, but the unique indexes on `email` and `phone` are
   * enforced: a patch that gives the user another user's e-mail or phone
   * throws a duplicate-key error and changes nothing.
   */
  function UpdateById(s: Store, id: Id, p: Patch): (r: (Store, Result<Option<User>, Mongo.DbError>))
    ensures r.1 == Ok(None) <==> forall u :: u in s.users ==> u.id != id
    ensures !(r.1.Ok? && r.1.value.Some?) ==> r.0 == s
    ensures r.1.Ok? && r.1.value.Some? ==> exists i :: (
      && 0 <= i < |s.users| && s.users[i].id == id
      && r.1.value.value == Apply(s.users[i], p) && !ClashesAt(s.users, i, r.1.value.value)
      && r.0 == s.(users := s.users[i := r.1.value.value]))
    ensures r.1.Err? ==> r.1.error.DuplicateKey? && exists i ::
      0 <= i < |s.users| && s.users[i].id == id && ClashesAt(s.users, i, Apply(s.users[i], p))
  {
    match Seqs.FirstIndex(s.users, (u: User) => u.id == id)
    case None => (s, Ok(None))
    case Some(i) =>
      var v := Apply(s.users[i], p);
      DuplicateIndexOfOthers(s.users, i, v);
      match UserModel.DuplicateIndex(Seqs.RemoveAt(s.users, i), v.email, v.phone)
      case Some(index) => (s, Err(Mongo.DuplicateKey(index)))
      case None => (s.(users := s.users[i := v]), Ok(Some(v)))
  }

  /**
   * `update` as written: null whenever any user, the one being updated
   * included, already holds the body's e-mail or phone.
   */
  function UpdateAsWritten(s: Store, id: Id, p: Patch): (r: (Store, Result<Option<User>, Mongo.DbError>))
    ensures (exists u :: u in s.users && HasContact(u, p.email, p.phone)) ==> r == (s, Ok(None))
    ensures (forall u :: u in s.users ==> !HasContact(u, p.email, p.phone)) ==> r == UpdateById(s, id, p)
  {
    if IsExistsByContacts(s, p.email, p.phone) then (s, Ok(None)) else UpdateById(s, id, p)
  }

  /** Another user than `id` holds one of the body's contacts. */
  predicate TakenByOther(s: Store, id: Id, p: Patch) {
    exists u :: u in s.users && u.id != id && HasContact(u, p.email, p.phone)
  }

  /**
   * `update`, corrected: the contact lookup leaves out the user being
   * updated, so re-sending one's own e-mail or phone is not a conflict.
   */
  function Update(s: Store, id: Id, p: Patch): (r: (Store, Result<Option<User>, Mongo.DbError>))
    ensures TakenByOther(s, id, p) ==> r == (s, Ok(None))
    ensures !TakenByOther(s, id, p) ==> r == UpdateById(s, id, p)
    ensures r.0 == s.(users := r.0.users)
    ensures ContactsUnique(s.users) ==> ContactsUnique(r.0.users)
  {
    var others := s.(users := Seqs.Filter(s.users, (u: User) => u.id != id));
    if IsExistsByContacts(others, p.email, p.phone) then (s, Ok(None)) else UpdateById(s, id, p)
  }

  /** No two users share an id, as in a well-formed store. */
  ghost predicate IdsUnique(users: seq<User>) {
    forall i, j :: 0 <= i < j < |users| ==> users[i].id != users[j].id
  }

  /** With unique ids, the update by id finds the user at index `i`. */
  lemma FoundAt(s: Store, id: Id, i: nat)
    requires IdsUnique(s.users) && i < |s.users| && s.users[i].id == id
    ensures Seqs.FirstIndex(s.users, (u: User) => u.id == id) == Some(i)
  {
    var r := Seqs.FirstIndex(s.users, (u: User) => u.id == id);
    assert s.users[i] in s.users;
  }

  /**
   * Re-sending one's own unique e-mail is refused as written, and goes
   * through once the own record is left out.
   */
  lemma ResentEmailRefusedAsWritten(s: Store, i: nat, p: Patch)
    requires IdsUnique(s.users) && i < |s.users| && p.email == Some(s.users[i].email) && s.users[i].email != ""
    requires !Truthy(p.phone)
    requires forall j :: 0 <= j < |s.users| && j != i ==>
      s.users[j].email != s.users[i].email && s.users[j].phone != Apply(s.users[i], p).phone
    ensures UpdateAsWritten(s, s.users[i].id, p) == (s, Ok(None))
    ensures Update(s, s.users[i].id, p) == UpdateById(s, s.users[i].id, p)
    ensures Update(s, s.users[i].id, p).1 == Ok(Some(Apply(s.users[i], p)))
  {
    var id := s.users[i].id;
    assert HasContact(s.users[i], p.email, p.phone);
    forall u | u in s.users && u.id != id ensures !HasContact(u, p.email, p.phone) {
      var j :| 0 <= j < |s.users| && s.users[j] == u;
    }
    FoundAt(s, id, i);
    DuplicateIndexOfOthers(s.users, i, Apply(s.users[i], p));
  }

  /** No two users share an e-mail or a phone. */
  ghost predicate ContactsUnique(users: seq<User>) {
    forall i, j :: 0 <= i < j < |users| ==> users[i].email != users[j].email && users[i].phone != users[j].phone
  }

  /** A non-empty contact value; the profile schema never passes an empty one. */
  predicate NotEmptyIfGiven(o: Option<string>) { o.Some? ==> o.value != "" }

  /** Replacing one user by a user whose contacts no other user holds keeps contacts unique. */
  lemma UniqueAfterReplace(users: seq<User>, i: nat, v: User)
    requires i < |users| && ContactsUnique(users)
    requires !ClashesAt(users, i, v)
    ensures ContactsUnique(users[i := v])
  {
    var w := users[i := v];
    forall a, b | 0 <= a < b < |w|
      ensures w[a].email != w[b].email && w[a].phone != w[b].phone
    {
      if a == i {
        assert !(users[b].email == v.email || users[b].phone == v.phone);
      } else if b == i {
        assert !(users[a].email == v.email || users[a].phone == v.phone);
      }
    }
  }

  /** Users other than the one with the id keep their index and hold none of the body's contacts. */
  lemma OthersClear(s: Store, id: Id, p: Patch, i: nat)
    requires IdsUnique(s.users) && i < |s.users| && s.users[i].id == id
    requires !TakenByOther(s, id, p)
    ensures forall j :: 0 <= j < |s.users| && j != i ==> s.users[j].id != id && !HasContact(s.users[j], p.email, p.phone)
  {
    forall j | 0 <= j < |s.users| && j != i
      ensures s.users[j].id != id && !HasContact(s.users[j], p.email, p.phone)
    {
      assert s.users[j] in s.users;
      if j < i {
        assert s.users[j].id != id;
      } else {
        assert s.users[j].id != id;
      }
    }
  }

  /**
   * When no other user holds the body's non-empty contacts, the patched user
   * clashes with no one: the repository's own lookup leaves nothing for the
   * unique indexes to refuse.
   */
  lemma FreeContactsNeverClash(s: Store, id: Id, p: Patch, i: nat)
    requires IdsUnique(s.users) && ContactsUnique(s.users) && !TakenByOther(s, id, p)
    requires NotEmptyIfGiven(p.email) && NotEmptyIfGiven(p.phone)
    requires i < |s.users| && s.users[i].id == id
    ensures !ClashesAt(s.users, i, Apply(s.users[i], p))
  {
    OthersClear(s, id, p, i);
    var v := Apply(s.users[i], p);
    forall j | 0 <= j < |s.users| && j != i
      ensures s.users[j].email != v.email && s.users[j].phone != v.phone
    {
      if p.email.None? { assert v.email == s.users[i].email; }
      if p.phone.None? { assert v.phone == s.users[i].phone; }
    }
  }

  /** So the corrected update of an existing user with non-empty contacts never fails on a unique index. */
  lemma UpdateNeverTripsIndexes(s: Store, id: Id, p: Patch)
    requires IdsUnique(s.users) && ContactsUnique(s.users)
    requires NotEmptyIfGiven(p.email) && NotEmptyIfGiven(p.phone)
    ensures Update(s, id, p).1.Ok?
  {
    if !TakenByOther(s, id, p) {
      match Seqs.FirstIndex(s.users, (u: User) => u.id == id)
      case None =>
      case Some(i) =>
        FreeContactsNeverClash(s, id, p, i);
        DuplicateIndexOfOthers(s.users, i, Apply(s.users[i], p));
    }
  }

  /** Updating by id keeps contacts unique, every other user and every other collection, whatever the patch. */
  lemma UpdateByIdKeepsContactsUnique(s: Store, id: Id, p: Patch)
    requires ContactsUnique(s.users)
    ensures ContactsUnique(UpdateById(s, id, p).0.users)
    ensures forall u :: u in s.users && u.id != id ==> u in UpdateById(s, id, p).0.users
    ensures UpdateById(s, id, p).0 == s.(users := UpdateById(s, id, p).0.users)
  {
    var r := UpdateById(s, id, p);
    if r.1.Ok? && r.1.value.Some? {
      var v := r.1.value.value;
      var i :| && 0 <= i < |s.users| && s.users[i].id == id
        && v == Apply(s.users[i], p) && !ClashesAt(s.users, i, v) && r.0 == s.(users := s.users[i := v]);
      UniqueAfterReplace(s.users, i, v);
      forall u | u in s.users && u.id != id ensures u in s.users[i := v] {
        var j :| 0 <= j < |s.users| && s.users[j] == u;
        assert s.users[i := v][j] == u;
      }
    }
  }

  /** The corrected update keeps contacts unique, and changes no user but the one with the id. */
  lemma UpdateKeepsContactsUnique(s: Store, id: Id, p: Patch)
    requires ContactsUnique(s.users)
    ensures ContactsUnique(Update(s, id, p).0.users)
    ensures forall u :: u in s.users && u.id != id ==> u in Update(s, id, p).0.users
  {
    UpdateByIdKeepsContactsUnique(s, id, p);
  }
}

=== FILE: verify_socket_token.dfy ===
/**
 * The socket authentication middleware
 * (socket-handlers/middlewares/verifySocketToken.js): the token comes from
 * the handshake query string; a refused connection gets an 'error' event and
 * `next` is never called. Signature checking is the parameter `verify`.
 */
module VerifySocketToken {
  import opened Wrappers
  import VerifyToken

  const TokenRequired: string := "Token is required"
  const TokenCorrupted: string := "Token is corrupted"

  /** `next()` with the payload stored on the socket, or an 'error' event and no `next`. */
  datatype Outcome<P> = Proceed(decoded: P) | EmitError(error: string)

  /** `socket.handshake.query.token`, when truthy. */
  function QueryToken(query: map<string, string>): Option<string> {
    if "token" in query && query["token"] != "" then Some(query["token"]) else None
  }

  /** `verifySocketToken`. */
  function Verify<P>(query: map<string, string>, verify: string -> Option<P>): (r: Outcome<P>)
    ensures !("token" in query && query["token"] != "") ==> r == EmitError(TokenRequired)
    ensures "token" in query && query["token"] != "" ==> (
      && (r.Proceed? <==> verify(query["token"]).Some?)
      && (r.Proceed? ==> r.decoded == verify(query["token"]).value)
      && (r.EmitError? ==> r.error == TokenCorrupted))
  {
    match QueryToken(query)
    case None => EmitError(TokenRequired)
    case Some(token) =>
      match verify(token)
      case None => EmitError(TokenCorrupted)
      case Some(payload) => Proceed(payload)
  }

  /** A token the HTTP middleware accepts as a bearer header opens a socket too, with the same payload. */
  lemma SameVerdictAsHttp<P>(token: string, verify: string -> Option<P>)
    requires token != "" && ' ' !in token
    ensures var http := VerifyToken.Verify(map["authorization" := "Bearer " + token], verify);
      var socket := Verify(map["token" := token], verify);
      && (http.Next? <==> socket.Proceed?)
      && (http.Next? ==> http.decoded == socket.decoded)
  {
    VerifyToken.BearerHeaderVerified(token, verify);
  }
}

=== FILE: verify_token.dfy ===
/**
 * The HTTP authentication middleware (middlewares/verifyToken.js): the
 * bearer token of the Authorization header is verified, and its payload
 * handed to the next handler. Signature checking is the parameter `verify`:
 * the payload of a token it accepts, `None` for one it rejects.
 */
module VerifyToken {
  import opened Wrappers
  import opened Strings
  import Http

  const TokenRequired: string := "Token is required"
  const InvalidToken: string := "Invalid token"

  /** What the middleware passes to `next`: the decoded payload, or an error. */
  datatype Outcome<P> = Next(decoded: P) | Reject(error: Http.AppError)

  /** A header value is used only when it is truthy: present and not "". */
  function Header(headers: map<string, string>, name: string): Option<string> {
    if name in headers && headers[name] != "" then Some(headers[name]) else None
  }

  /** `headers['Authorization'] || headers['authorization']`, when truthy. */
  function AuthHeader(headers: map<string, string>): (r: Option<string>)
    ensures r.Some? <==> (
      || ("Authorization" in headers && headers["Authorization"] != "")
      || ("authorization" in headers && headers["authorization"] != ""))
    ensures r.Some? ==> (
      && r.value != ""
      && (|| ("Authorization" in headers && r.value == headers["Authorization"])
          || ("authorization" in headers && r.value == headers["authorization"])))
    ensures "Authorization" in headers && headers["Authorization"] != "" ==> r == Some(headers["Authorization"])
  {
    match Header(headers, "Authorization")
    case Some(h) => Some(h)
    case None => Header(headers, "authorization")
  }

  /** `header.split(' ')[1]`: `undefined` when the header has no space. */
  function SplitToken(header: string): Option<string> {
    var fields := Split(header, ' ');
    if |fields| >= 2 then Some(fields[1]) else None
  }

  /** Stated without `split`: the characters after the first space, up to the next space or the end. */
  function TokenAfterFirstSpace(header: string): Option<string> {
    match IndexOf(header, ' ')
    case None => None
    case Some(i) =>
      var rest := header[i + 1..];
      match IndexOf(rest, ' ')
      case None => Some(rest)
      case Some(j) => Some(rest[..j])
  }

  /** The two readings of the token agree. */
  lemma SplitTokenIsAfterFirstSpace(header: string)
    ensures SplitToken(header) == TokenAfterFirstSpace(header)
  {
    match IndexOf(header, ' ')
    case None =>
      SplitNone(header, ' ');
    case Some(i) =>
      var rest := header[i + 1..];
      assert header == header[..i] + [' '] + rest;
      SplitField(header[..i], rest, ' ');
      FirstFieldIsPrefix(rest, ' ');
  }

  /** A "Bearer <token>" header yields the token, whatever the scheme word. */
  lemma SchemeThenToken(scheme: string, token: string)
    requires ' ' !in scheme && ' ' !in token
    ensures SplitToken(scheme + " " + token) == Some(token)
  {
    assert scheme + " " + token == scheme + [' '] + token;
    SplitField(scheme, token, ' ');
    SplitNone(token, ' ');
  }

  /**
   * `verifyToken`: 401 'Token is required' without a header, and then the
   * verifier is not consulted; 401 'Invalid token' when the header has no
   * second field or the verifier rejects it; otherwise the payload goes on.
   */
  function Verify<P>(headers: map<string, string>, verify: string -> Option<P>): (r: Outcome<P>)
    ensures AuthHeader(headers).None? ==> r == Reject(Http.AppError(TokenRequired, Http.StatusUnauthorized))
    ensures AuthHeader(headers).Some? ==> (
      var token := TokenAfterFirstSpace(AuthHeader(headers).value);
      && (r.Next? <==> token.Some? && verify(token.value).Some?)
      && (r.Next? ==> r.decoded == verify(token.value).value)
      && (r.Reject? ==> r.error == Http.AppError(InvalidToken, Http.StatusUnauthorized)))
  {
    match AuthHeader(headers)
    case None => Reject(Http.AppError(TokenRequired, Http.StatusUnauthorized))
    case Some(h) =>
      SplitTokenIsAfterFirstSpace(h);
      match SplitToken(h)
      case None => Reject(Http.AppError(InvalidToken, Http.StatusUnauthorized))
      case Some(token) =>
        match verify(token)
        case None => Reject(Http.AppError(InvalidToken, Http.StatusUnauthorized))
        case Some(payload) => Next(payload)
  }

  /** A header without a space is refused as an invalid token whatever the verifier does. */
  lemma NoSpaceIsInvalid<P>(headers: map<string, string>, verify: string -> Option<P>)
    requires AuthHeader(headers).Some? && ' ' !in AuthHeader(headers).value
    ensures Verify(headers, verify) == Reject(Http.AppError(InvalidToken, Http.StatusUnauthorized))
  {
    SplitTokenIsAfterFirstSpace(AuthHeader(headers).value);
  }

  /** "Bearer <token>" under the lower-case name passes exactly when the verifier accepts the token. */
  lemma BearerHeaderVerified<P>(token: string, verify: string -> Option<P>)
    requires ' ' !in token
    ensures var r := Verify(map["authorization" := "Bearer " + token], verify);
      && (r.Next? <==> verify(token).Some?)
      && (r.Next? ==> r.decoded == verify(token).value)
  {
    var h := map["authorization" := "Bearer " + token];
    assert "Authorization" !in h;
    assert AuthHeader(h) == Some("Bearer " + token);
    SchemeThenToken("Bearer", token);
    assert "Bearer" + " " + token == "Bearer " + token;
    SplitTokenIsAfterFirstSpace("Bearer " + token);
  }
}

=== FILE: wrappers.dfy ===
/** Optional values and success/failure results used throughout the model. */
module Wrappers {

  /** A value that may be absent: JavaScript's `undefined`/`null`. */
  datatype Option<+T> = None | Some(value: T) {

    /** The value, or `default` when absent. */
    function GetOr(default: T): T {
      match this
      case Some(v) => v
      case None => default
    }
  }

  /** The outcome of an operation that may throw. */
  datatype Result<+T, +E> = Ok(value: T) | Err(error: E)
}
